=== FILE: README.md ===
# Lox in .NET, modelled in Dafny

This project models the core of LoxDotNet, a tree-walking interpreter for
the Lox language written in C#. The model covers the whole pipeline from
source text to printed output:

- **Keywords** is the reserved-word table of the scanner.
- **Scanner** turns source text into tokens. It covers single- and
  two-character operators, `//` line comments and block comments, string
  and number literals, identifiers and keywords, line counting and error
  reporting. Block comments are skipped by the comment loop exactly as it
  is written, which stops early on some inputs (see "## Findings"). The
  loop the code evidently intends is modelled beside it, and
  **ScannerExamples** sets the two against each other on concrete
  sources.
- **Parser** covers the token cursor (`Peek`, `Previous`, `IsAtEnd`,
  `Check`, `Advance`, `Match`). It also covers the left-folding
  `Equality` and `Comparison` rules above an abstract `Term` rule.
- **AstPrinter** renders expressions in Lisp-like prefix form and renders
  blocks with tab indentation.
- **Values** covers the runtime values: truthiness, equality, and the
  text `Stringify` produces.
- **Environment** covers the variable scopes and their enclosing chain:
  `Define`, `Get`, `Assign`, `Ancestor`, `GetAt` and `AssignAt`.
- **Interpreter** covers expression evaluation and execution of the
  statement kinds that have a visitor.
- **Callable** covers a user function's arity, its call frame and its
  call.
- **Resolver** covers the static pass that tracks declared and defined
  variables, records scope distances and reports static errors.

Modelling choices:

- **Exceptions.** A thrown exception becomes a value.
  - A `RuntimeException` is an `Err` result.
  - A printer crash is `None`.
  - A resolver or scanner error is appended to an error list, and the
    pass carries on, as the original does.
- **Interpreter state.** The interpreter's mutable fields (the current
  environment and the console) are threaded through a `State` record.
  Printed lines collect in its `out` list.
- **Environments** live in an arena, a sequence of scopes indexed by
  position.
  - Each scope names its enclosing scope.
  - An enclosing scope always sits at a smaller index, which makes every
    chain finite.
  - Two closures that share an environment share an index.
- **Numbers** are an abstract `Num` type.
  - IEEE arithmetic, comparison, `double.Equals`, parsing and `ToString`
    are not modelled.
  - They are supplied through a `NumOps` record of functions.
  - Every property about numbers is therefore stated for any such
    record.
- **The resolver's scope stack** is a sequence with the top of the stack
  at index 0, as `Stack.ElementAt` counts.
  - `ResolveLocal` walks indices from the bottom of the stack upwards.
    It therefore records the outermost scope that holds a name, not the
    innermost.
  - This is modelled as written.
  - `Resolver.OutermostAgreesWithInnermostIffUnshadowed` states exactly
    when this agrees with an innermost-first search: when the name is
    not shadowed.

## Model

| member | source | states |
|---|---|---|
| Keywords.Lookup | LoxDotNet/Scanning/ReservedIdentifiers.cs:8-27 | a hit is one of the 17 keyword token kinds and its text is a non-empty lower-case word; a miss means the text is no reserved word |
| Keywords.LookupSpellingRoundTrip | LoxDotNet/Scanning/ReservedIdentifiers.cs:8-27 | the table is a bijection: looking up a text gives a kind exactly when that kind's spelling is that text |
| Keywords.ReservedValues | LoxDotNet/Scanning/ReservedIdentifiers.cs:8-27 | every keyword token kind is reachable from some reserved word, and nothing else is |
| Keywords.ReservedSize | LoxDotNet/Scanning/ReservedIdentifiers.cs:8-27 | there are exactly 17 reserved words, `break` among them |
| Keywords.ReservedInjective | LoxDotNet/Scanning/ReservedIdentifiers.cs:8-27 | no two reserved words map to the same token kind |
| Keywords.LookupIsCaseSensitive | LoxDotNet/Scanning/ReservedIdentifiers.cs:8-27 | a word with any character outside `a`-`z` is never a keyword |
| Keywords.CapitalisedPrintIsNoKeyword | LoxDotNet/Scanning/ReservedIdentifiers.cs:8-27 | `Print` is an identifier while `print` is the print keyword |
| Scanner.PeekLooksAhead | LoxDotNet/Scanning/Scanner.cs:136-154 | `Peek` sees the character at the cursor and `PeekNext` the one after it, both NUL past the end; `Match` hits exactly when `Peek` sees the expected character |
| Scanner.Match | LoxDotNet/Scanning/Scanner.cs:156-171 | the character is consumed exactly when one remains and it is the expected one |
| Scanner.ScanOperator | LoxDotNet/Scanning/Scanner.cs:49-60 | `!`, `=`, `<`, `>` give the two-character token when `=` follows and the one-character token otherwise; the lexeme is the consumed text |
| Scanner.ScanSlash | LoxDotNet/Scanning/Scanner.cs:61-78 | `//` skips to the end of the line; `/` followed by `*` goes to the block comment handler as written; any other `/` is a Slash token; there is no step exactly where the handler reads past the end |
| Scanner.ScanBlockComment | LoxDotNet/Scanning/Scanner.cs:184-207 | the comment ends two characters after the place where the loop as written stops, and the line counter has moved over the line breaks the loop passed; with no stopping place, "Unclosed block comment" is reported at the end of input; there is no step where the two final `Advance` calls read past the end |
| Scanner.BlockCommentAsWritten | LoxDotNet/Scanning/Scanner.cs:184-207 | the comment loop of the source stops at the first position where the current character is `*` or the next one is `/`, counting the line breaks before it; it reads past the end when that position is the last character, which is then `*`; it is unclosed when no such position exists |
| Scanner.CommentEnd | LoxDotNet/Scanning/Scanner.cs:184-207 | the loop the handler evidently intends (the corrected half of the Findings row), not the one it runs: the comment ends just after the first `*/` pair, or at the end of input when there is none |
| Scanner.ScanBlockCommentIntended | LoxDotNet/Scanning/Scanner.cs:184-207 | the corrected comment step: it ends just after the first `*/` pair past the opener, counting every line break inside; without one it runs to the end of input and reports "Unclosed block comment" there; it never reads past the end |
| Scanner.ScanString | LoxDotNet/Scanning/Scanner.cs:209-232 | a string token exists exactly when a closing quote follows; its literal is the text between the quotes, newlines included and counted; otherwise "Unterminated string" is reported at the end of input |
| Scanner.ScanNumber | LoxDotNet/Scanning/Scanner.cs:234-253 | the longest run of digits, with a fraction only when a digit follows the dot; the token is maximal and a trailing dot is left for the next token |
| Scanner.ScanIdentifier | LoxDotNet/Scanning/Scanner.cs:255-270 | the longest alphanumeric word; its kind is the keyword kind when the word is reserved and Identifier otherwise |
| Scanner.ScanOneChar | LoxDotNet/Scanning/Scanner.cs:37-104 | single-character tokens, skipped whitespace, a newline that bumps the line, and "Unexpected character" for anything else |
| Scanner.ScanOther | LoxDotNet/Scanning/Scanner.cs:37-104 | every character but `/`, tried in the `switch` order, gives one step that consumes it and counts every newline it passes: a token spelled by the consumed text on the step's line, or an error on that line, never both, never Eof |
| Scanner.ScanToken | LoxDotNet/Scanning/Scanner.cs:32-107 | every step consumes at least one character and yields a token whose lexeme is the consumed text, or an error, or nothing; it counts the newlines it consumed, all of them unless a block comment's two final `Advance` calls pass over one; there is no step only for a block comment in input ending in `*` |
| Scanner.ScanFrom | LoxDotNet/Scanning/Scanner.cs:19-30 | scanning the rest of the input yields tokens tiling the text in order with non-decreasing lines, ending in one Eof token; each line is at most the newlines before it, and exactly that when no `\n/` or `*\n` pair can hide one from the comment handler |
| Scanner.ScanTokens | LoxDotNet/Scanning/Scanner.cs:19-30 | when no step throws: exactly one Eof token, at the end; every other token's lexeme is the source slice it was scanned from, the slices are in order and do not overlap; lines start at 1 and count the newlines before each token, exactly when no pair hides one; no result only for input ending in `*` |
| ScannerExamples.AsWrittenCommentClosesAtStar | LoxDotNet/Scanning/Scanner.cs:187-206 | in `/* a*b */` the loop as written stops at the `*` at index 4; the two `Advance` calls consume that `*` and the `b`, so the comment ends at index 6, where the first `*/` pair is at index 7 |
| ScannerExamples.StarInCommentScansStarSlash | LoxDotNet/Scanning/Scanner.cs:184-207 | the scan of `/* a*b */` is a STAR token, a SLASH token and Eof: the ` */` left after the early end is scanned as code |
| ScannerExamples.AsWrittenCommentReadsPastEnd | LoxDotNet/Scanning/Scanner.cs:187-206 | for `/**` the loop stops at the final `*`; the first `Advance` consumes it and the second reads beyond the input, so the scan has no result |
| ScannerExamples.AsWrittenCommentDropsLine | LoxDotNet/Scanning/Scanner.cs:187-206 | for a slash, a star, a line break and a slash, the loop stops at the line break, which the uncounted `Advance` calls consume; the comment counts as closed |
| ScannerExamples.BreakThenSlashScansEofOnLineOne | LoxDotNet/Scanning/Scanner.cs:184-207 | that source scans to a lone Eof token on line 1 although it holds a line break |
| ScannerExamples.IntendedSkipsStarInComment | LoxDotNet/Scanning/Scanner.cs:184-207 | the intended comment step skips all of `/* a*b */` |
| ScannerExamples.IntendedReportsOpenerThenStar | LoxDotNet/Scanning/Scanner.cs:184-207 | the intended comment step reports `/**` unclosed instead of reading past the end |
| ScannerExamples.IntendedReportsBreakThenSlash | LoxDotNet/Scanning/Scanner.cs:184-207 | the intended comment step reports the line-break-and-slash comment unclosed, on line 2 |
| ScannerExamples.AsWrittenAgreesAtStarSlash | LoxDotNet/Scanning/Scanner.cs:184-207 | where the loop as written first stops at a real `*/` pair, it ends the comment where the intended loop does |
| ScannerExamples.DigitStartsNumber | LoxDotNet/Scanning/Scanner.cs:93-97 | a digit always starts a number token |
| ScannerExamples.TrailingDotIsNotAFraction | LoxDotNet/Scanning/Scanner.cs:242-252 | the number rule scans `1.` as the number `1`, with the dot left over |
| ScannerExamples.LetterStartsWord | LoxDotNet/Scanning/Scanner.cs:92-100 | a letter or underscore always starts an identifier or keyword |
| ScannerExamples.KeywordsAreWholeWords | LoxDotNet/Scanning/Scanner.cs:255-270 | the identifier rule scans `or` on its own as the keyword Or |
| ScannerExamples.LongerWordIsIdentifier | LoxDotNet/Scanning/Scanner.cs:255-270 | the identifier rule scans `orchid` as one Identifier token, not the keyword `or` followed by more |
| Parser.Peek | LoxDotNet/Parsing/Parser.cs:51-54 | the current token is Eof exactly when the cursor is on the last token |
| Parser.Previous | LoxDotNet/Parsing/Parser.cs:56-59 | the token before the cursor is never Eof |
| Parser.IsAtEnd | LoxDotNet/Parsing/Parser.cs:61-64 | the cursor is at the end exactly when it is on the final Eof token |
| Parser.Check | LoxDotNet/Parsing/Parser.cs:31-39 | true exactly when the cursor is before the end and the current token has the kind; never true for Eof |
| Parser.Advance | LoxDotNet/Parsing/Parser.cs:41-49 | moves one token forward except at the end, and returns the token just passed |
| Parser.Match | LoxDotNet/Parsing/Parser.cs:17-29 | consumes one token exactly when it is not Eof and its kind is among the given kinds |
| Parser.BinaryLoopIsLeftFold | LoxDotNet/Parsing/Parser.cs:71-97 | the operator loop builds the left fold of the operator and operand pairs it reads, so operators group to the left |
| Parser.Comparison | LoxDotNet/Parsing/Parser.cs:85-97 | the rule never moves the cursor backwards and leaves it valid on the same tokens |
| Parser.Equality | LoxDotNet/Parsing/Parser.cs:71-83 | the rule never moves the cursor backwards and leaves it valid on the same tokens |
| Parser.Expression | LoxDotNet/Parsing/Parser.cs:66-69 | an expression is an equality, with the same cursor guarantees |
| Parser.EqualityGroupsLeft | LoxDotNet/Parsing/Parser.cs:71-83 | `a == b != c` parses as `(a == b) != c` and stops on Eof |
| Parser.ScannerFeedsParser | LoxDotNet/Scanning/Scanner.cs:19-30 | the scanner's output, whenever the scanner does not throw, is a token list the parser's cursor can start on: non-empty, Eof last and nowhere else |
| AstPrinter.Print | LoxDotNet/Parsing/AstPrinter.cs:10-19 | one printed line per statement, in order, and no output at all as soon as any statement cannot be printed |
| AstPrinter.LiteralText | LoxDotNet/Parsing/AstPrinter.cs:36-49 | nil prints as `null`, a string between double quotes with nothing escaped, a boolean as `True` or `False`, a number as its formatted text |
| AstPrinter.ParenthesizeBalanced | LoxDotNet/Parsing/AstPrinter.cs:109-122 | the name and the parts, each after a space, inside one pair of parentheses: balanced when the parts are and the name has none |
| AstPrinter.LeafText | LoxDotNet/Parsing/AstPrinter.cs:36-64 | a variable prints as its bare name, a literal as its literal text (`null`, or a quoted string) |
| AstPrinter.AssignText | LoxDotNet/Parsing/AstPrinter.cs:21-24 | an assignment prints as `(set name value)` |
| AstPrinter.BinaryText | LoxDotNet/Parsing/AstPrinter.cs:26-29 | a binary expression prints as `(op left right)` |
| AstPrinter.GroupingText | LoxDotNet/Parsing/AstPrinter.cs:31-34 | a grouping prints as `(group inner)` |
| AstPrinter.UnaryText | LoxDotNet/Parsing/AstPrinter.cs:56-59 | a unary expression prints as `(op operand)` |
| AstPrinter.ConditionalText | LoxDotNet/Parsing/AstPrinter.cs:66-69 | a conditional prints as `(conditional condition then else)` |
| AstPrinter.SimpleStmtText | LoxDotNet/Parsing/AstPrinter.cs:89-107 | `print e;` prints as `(print e)`, `var n = e;` as `(define n e)`, and an expression statement as its expression, at any nesting level |
| AstPrinter.BlockText | LoxDotNet/Parsing/AstPrinter.cs:71-87 | a block prints as `{`, a line break, each statement one level deeper after that many tabs on its own line, and `}` at the block's own level |
| AstPrinter.BlockLinesText | LoxDotNet/Parsing/AstPrinter.cs:77-80 | the body lines are the statements' texts in order, each indented and ended by a line break |
| AstPrinter.BlockLinesFails | LoxDotNet/Parsing/AstPrinter.cs:77-80 | a block's body fails to print exactly when one of its statements does |
| AstPrinter.PrintExprFailsIffLogical | LoxDotNet/Parsing/AstPrinter.cs:51-54 | printing an expression fails exactly when it contains a logical operator somewhere |
| AstPrinter.PrintExprBalanced | LoxDotNet/Parsing/AstPrinter.cs:109-122 | a printed expression has balanced parentheses, given that names and literals contribute none |
| AstPrinter.ExampleProduct | LoxDotNet/Parsing/AstPrinter.cs:26-59 | `-a * (b)` prints as `(* (- a) (group b))` |
| AstPrinter.NestedBlockExample | LoxDotNet/Parsing/AstPrinter.cs:71-87 | a block inside a block prints braces on their own lines, with one tab per nesting level |
| AstPrinter.UnprintableStatements | LoxDotNet/Parsing/AstPrinter.cs:94-107 | an `if` statement and a `var` without an initializer both make the printer fail |
| Values.FromLiteral | LoxDotNet/Interpreting/Interpreter.cs:93-96 | a literal evaluates to the value of the same kind and payload; only `nil` gives nil |
| Values.IsTruthy | LoxDotNet/Interpreting/Interpreter.cs:177-186 | everything is truthy except nil and false |
| Values.IsEqual | LoxDotNet/Interpreting/Interpreter.cs:188-201 | nil equals only nil, values of different kinds are never equal, strings and booleans compare by content |
| Values.IsEqualReflexive | LoxDotNet/Interpreting/Interpreter.cs:188-201 | every value equals itself when number equality is reflexive |
| Values.IsEqualSymmetric | LoxDotNet/Interpreting/Interpreter.cs:188-201 | equality is symmetric when number equality is |
| Values.IsEqualIsStructural | LoxDotNet/Interpreting/Interpreter.cs:188-201 | for non-function values, Lox equality is identity of values when number equality is |
| Values.NoCoercion | LoxDotNet/Interpreting/Interpreter.cs:188-201 | a number never equals a string, and false does not equal nil |
| Values.StripPointZero | LoxDotNet/Interpreting/Interpreter.cs:241-249 | a trailing `.0` is removed, and any other text is kept |
| Values.FunctionText | LoxDotNet/Interpreting/LoxFunction.cs:45-48 | a function prints as `<fn ` + its name + `>` |
| Values.Stringify | LoxDotNet/Interpreting/Interpreter.cs:234-252 | nil prints as `nil`, strings as themselves, booleans as .NET's `True`/`False`, numbers as their formatted text less the trailing `.0` when it ends in one and unchanged otherwise, functions as `<fn ` + name + `>` including the closing `>` |
| Values.StringifyIsNotInjective | LoxDotNet/Interpreting/Interpreter.cs:234-252 | nil and the string "nil" print identically although they are not equal |
| Values.StringifyDropsPointZero | LoxDotNet/Interpreting/Interpreter.cs:241-249 | a number whose text ends in `.0` prints without it |
| Environment.NewScope | LoxDotNet/Interpreting/Environment.cs:11-14 | a new, empty scope enclosed by the given one, with every existing scope untouched |
| Environment.Chain | LoxDotNet/Interpreting/Environment.cs:43-56 | the enclosing chain starts at the scope, follows each link, and ends at the global scope |
| Environment.Define | LoxDotNet/Interpreting/Environment.cs:16-19 | binds or rebinds the name in this scope only, keeping every other scope and every link |
| Environment.Get | LoxDotNet/Interpreting/Environment.cs:43-56 | a failure is always the "Undefined variable" error at the name |
| Environment.Assign | LoxDotNet/Interpreting/Environment.cs:21-36 | never adds a name or changes a link; a failure is always the "Undefined variable" error |
| Environment.AncestorIsChainElement | LoxDotNet/Interpreting/Environment.cs:63-72 | the ancestor at a distance is the chain's element at that position, and there is none past the chain's end |
| Environment.AssignAt | LoxDotNet/Interpreting/Environment.cs:38-41 | the write succeeds exactly when the chain reaches that far; it then binds or adds the name in that one scope, and every other scope and every link is unchanged |
| Environment.GetAt | LoxDotNet/Interpreting/Environment.cs:58-61 | the read succeeds only when the chain reaches that far and that scope holds the name, and gives that scope's binding |
| Environment.GetAtDoesNotSearchOutward | LoxDotNet/Interpreting/Environment.cs:58-72 | a read at a distance whose scope lacks the name fails, even when an outer scope holds it and `Get` finds it |
| Environment.AssignAtThenGetAt | LoxDotNet/Interpreting/Environment.cs:38-61 | a write at a distance succeeds exactly when the chain reaches that far, and a read at the same distance returns the written value |
| Environment.GetFindsNearest | LoxDotNet/Interpreting/Environment.cs:43-56 | a read returns the binding of the innermost scope on the chain holding the name |
| Environment.GetFailsWhenUnbound | LoxDotNet/Interpreting/Environment.cs:43-56 | a read fails exactly when no scope on the chain holds the name |
| Environment.NearestExists | LoxDotNet/Interpreting/Environment.cs:43-56 | a name held somewhere on the chain has an innermost holder |
| Environment.GetAtAgreesWithGet | LoxDotNet/Interpreting/Environment.cs:43-61 | reading at the innermost holder's distance gives what the dynamic read gives |
| Environment.AssignUpdatesNearest | LoxDotNet/Interpreting/Environment.cs:21-36 | assignment rebinds the name in the innermost scope holding it and nowhere else |
| Environment.AssignFailsWhenUnbound | LoxDotNet/Interpreting/Environment.cs:21-36 | assignment fails exactly when no scope on the chain holds the name |
| Environment.ChainDependsOnLinks | LoxDotNet/Interpreting/Environment.cs:11-14 | the chain depends only on the links, so rebinding values or appending scopes does not change it |
| Environment.DefineThenGet | LoxDotNet/Interpreting/Environment.cs:16-56 | a name read right after it is defined gives the defined value |
| Environment.AssignThenGet | LoxDotNet/Interpreting/Environment.cs:21-56 | assigning a readable name succeeds, and reading it back gives the assigned value |
| Environment.SharedScopeSeesAssignment | LoxDotNet/Interpreting/Environment.cs:21-56 | two scopes whose innermost holder of a name is the same scope see each other's assignments to it |
| Environment.DefineLeavesOtherNames | LoxDotNet/Interpreting/Environment.cs:16-56 | defining one name never changes what any other name reads as, from any scope |
| Environment.GetIgnoresAppend | LoxDotNet/Interpreting/Environment.cs:43-56 | scopes created later do not change what an existing scope reads |
| Interpreter.CheckNumberOperand | LoxDotNet/Interpreting/Interpreter.cs:218-224 | succeeds exactly on numbers, giving the number, and otherwise fails with "Operand must be a number" |
| Interpreter.CheckNumberOperands | LoxDotNet/Interpreting/Interpreter.cs:226-232 | succeeds exactly when both operands are numbers, and otherwise fails with "Operands must be numbers" |
| Interpreter.StringOrDouble | LoxDotNet/Interpreting/Interpreter.cs:203-216 | `+` adds two numbers or concatenates two strings, and fails on every other pair |
| Interpreter.BinaryOp | LoxDotNet/Interpreting/Interpreter.cs:35-74 | arithmetic gives numbers and comparisons booleans, or the operand error; `==` and `!=` always succeed with a boolean; the comma yields its right operand |
| Interpreter.UnaryOp | LoxDotNet/Interpreting/Interpreter.cs:103-117 | negation succeeds exactly on numbers; `!` always succeeds |
| Interpreter.Evaluate | LoxDotNet/Interpreting/Interpreter.cs:28-117 | evaluation prints nothing, keeps the current environment, and creates no scope and no name; it only rebinds values |
| Interpreter.Execute | LoxDotNet/Interpreting/Interpreter.cs:119-153 | a statement leaves the current environment in place and may only add names to it, append scopes and append output |
| Interpreter.ExecuteBlock | LoxDotNet/Interpreting/Interpreter.cs:155-170 | the caller's environment is restored after the block, whether it completed or failed |
| Interpreter.ExecuteAll | LoxDotNet/Interpreting/Interpreter.cs:161-164 | running statements in turn keeps the current environment and only appends output |
| Interpreter.Interpret | LoxDotNet/Interpreting/Interpreter.cs:13-26 | the program's output only grows, and the global environment stays current |
| Interpreter.NotEqualNegatesEqual | LoxDotNet/Interpreting/Interpreter.cs:65-68 | `a != b` is the negation of `a == b` for all values |
| Interpreter.OnlyPlusConcatenates | LoxDotNet/Interpreting/Interpreter.cs:35-74 | two strings can be joined with `+`, and every other arithmetic or comparison operator rejects them |
| Interpreter.DoubleBang | LoxDotNet/Interpreting/Interpreter.cs:103-117 | `!!v` is the truthiness of `v` |
| Interpreter.ConditionalIgnoresOtherBranch | LoxDotNet/Interpreting/Interpreter.cs:76-86 | the conditional operator's result does not depend on the branch it does not take |
| Interpreter.CommaKeepsLeftEffects | LoxDotNet/Interpreting/Interpreter.cs:35-74 | `a, b` evaluates `b` in the state `a` left behind and yields `b`'s result |
| Interpreter.AssignThenRead | LoxDotNet/Interpreting/Interpreter.cs:28-33 | an assignment yields the assigned value, and reading the variable right after gives the same value |
| Interpreter.AssignToUndefinedFails | LoxDotNet/Interpreting/Interpreter.cs:28-33 | assigning to a name no scope holds fails with "Undefined variable" after evaluating the right-hand side |
| Interpreter.VarWithoutInitializerIsNil | LoxDotNet/Interpreting/Interpreter.cs:138-148 | `var x;` binds `x` to nil |
| Interpreter.PrintWritesOneLine | LoxDotNet/Interpreting/Interpreter.cs:131-136 | `print e` appends exactly the text of e's value as one line |
| Interpreter.BlockDeclarationsDoNotLeak | LoxDotNet/Interpreting/Interpreter.cs:155-170 | declarations inside a block are invisible after it: no existing scope gains a name |
| Interpreter.ErrorStopsExecution | LoxDotNet/Interpreting/Interpreter.cs:13-26 | once a list of statements fails, anything appended after it does not run: the longer list ends exactly as the failing one did |
| Interpreter.ExecuteAllSequences | LoxDotNet/Interpreting/Interpreter.cs:161-164 | running a list that completes and then another list is running the two joined together |
| Interpreter.BlockEntry | LoxDotNet/Interpreting/Interpreter.cs:119-123 | a block's scope is a new, empty scope whose parent is the current environment, and no existing scope changes |
| Interpreter.BlockRunsInChildScope | LoxDotNet/Interpreting/Interpreter.cs:119-123 | a block runs its statements in a fresh child of the current environment, then makes the caller's environment current again, and every name it does not declare reads as it does outside |
| Interpreter.BlockSeesEnclosingScope | LoxDotNet/Interpreting/Interpreter.cs:119-169 | `{ print x; }` prints the value `x` has outside the block |
| Interpreter.VarBindsInitializer | LoxDotNet/Interpreting/Interpreter.cs:138-148 | `var x = e;` binds `x` in the current scope to e's value, and fails exactly when e does |
| Callable.BindParameters | LoxDotNet/Interpreting/LoxFunction.cs:27-31 | the frame gains exactly the parameter names and no other scope changes |
| Callable.BindParametersBindsArguments | LoxDotNet/Interpreting/LoxFunction.cs:27-31 | with distinct parameter names, each parameter is bound to the argument at its position, and other names keep their values |
| Callable.RepeatedParameterTakesLastArgument | LoxDotNet/Interpreting/LoxFunction.cs:27-31 | with a repeated parameter name the later argument wins |
| Callable.ArityIsFrameSize | LoxDotNet/Interpreting/LoxFunction.cs:20-31 | with distinct parameter names, the call frame binds exactly as many names as the arity |
| Callable.CallFrame | LoxDotNet/Interpreting/LoxFunction.cs:27-31 | a call runs in one new scope enclosed by the closure, holding exactly the parameter names, with every existing scope untouched |
| Callable.CallFrameScoping | LoxDotNet/Interpreting/LoxFunction.cs:25-31 | the body sees its parameters bound to the arguments and otherwise exactly what the closure sees, not the caller's variables |
| Callable.CallResult | LoxDotNet/Interpreting/LoxFunction.cs:25-43 | a `return` gives its value, running off the end gives nil, an error propagates, and the body's effects are kept |
| Callable.InterpretedCallReturnsNil | LoxDotNet/Interpreting/LoxFunction.cs:25-43 | when the interpreter runs the body, the caller's environment is current again afterwards and a successful call gives nil |
| Resolver.BeginScope | LoxDotNet/Resolving/Resolver.cs:279-282 | pushes one empty scope on top of the stack and changes nothing else |
| Resolver.EndScope | LoxDotNet/Resolving/Resolver.cs:284-287 | pops the innermost scope and changes nothing else |
| Resolver.EndScopeUndoesBeginScope | LoxDotNet/Resolving/Resolver.cs:279-287 | opening a scope and closing it again restores the resolver exactly |
| Resolver.ResolveBlock | LoxDotNet/Resolving/Resolver.cs:45-51 | a block declares nothing in the enclosing scopes and only adds distances and errors |
| Resolver.ResolveFunctionStmt | LoxDotNet/Resolving/Resolver.cs:144-152 | a function declaration adds exactly its own name to the innermost scope |
| Resolver.ResolveIf | LoxDotNet/Resolving/Resolver.cs:161-171 | an `if` adds exactly the names its branches declare, and only adds distances and errors |
| Resolver.ResolveReturn | LoxDotNet/Resolving/Resolver.cs:194-211 | a `return` declares nothing and only adds distances and errors |
| Resolver.ResolveVar | LoxDotNet/Resolving/Resolver.cs:259-268 | a `var` adds exactly its own name to the innermost scope |
| Resolver.Declare | LoxDotNet/Resolving/Resolver.cs:335-349 | does nothing at the top level; otherwise adds the name to the innermost scope as declared, and reports a redeclaration in that scope |
| Resolver.Define | LoxDotNet/Resolving/Resolver.cs:351-359 | does nothing at the top level; otherwise marks the name as defined in the innermost scope |
| Resolver.ResolveLocal | LoxDotNet/Resolving/Resolver.cs:299-315 | records a distance exactly when some scope holds the name, namely the outermost such scope, and a read marks that variable as read |
| Resolver.ResolveVariable | LoxDotNet/Resolving/Resolver.cs:247-257 | reports a read of a name still declared in the innermost scope, then resolves it as a read |
| Resolver.ResolveExpr | LoxDotNet/Resolving/Resolver.cs:29-257 | resolving an expression declares nothing, and only adds distances and resolver errors |
| Resolver.ResolveFunction | LoxDotNet/Resolving/Resolver.cs:317-333 | a function body leaves the scope stack, the function kind and the class kind as they were |
| Resolver.FunctionScope | LoxDotNet/Resolving/Resolver.cs:317-327 | the body's scope holds exactly the parameters, each defined, under the given function kind; the enclosing scopes are untouched, and a report is made exactly when a parameter name repeats |
| Resolver.RepeatedParameterIsReported | LoxDotNet/Resolving/Resolver.cs:322-327 | `fun f(a, a) {}` reports the second `a` as already declared, and nothing else |
| Resolver.ParameterReadIsLocal | LoxDotNet/Resolving/Resolver.cs:322-327 | when no enclosing scope holds the name, a parameter read in the body resolves to the function's own scope at distance 0 without a report; when one does, the outermost holder is recorded instead (see `Resolver.ShadowedNameResolvesOutward`) |
| Resolver.ResolveStmt | LoxDotNet/Resolving/Resolver.cs:45-277 | a statement adds exactly the names it declares to the innermost scope; every other scope, and the function and class kinds, come out unchanged |
| Resolver.ResolveClass | LoxDotNet/Resolving/Resolver.cs:54-99 | a class declares its own name, and the scopes it opens for `super` and `this` are closed again |
| Resolver.ClassEntry | LoxDotNet/Resolving/Resolver.cs:56-60 | inside the class, the class's own name is added to the innermost scope |
| Resolver.SuperclassEntry | LoxDotNet/Resolving/Resolver.cs:62-69 | a class named as its own superclass is reported right after the class name, and no such report is made otherwise |
| Resolver.SuperScope | LoxDotNet/Resolving/Resolver.cs:71-72 | with a superclass, a new scope binding only `super` is pushed around the class body |
| Resolver.ThisScope | LoxDotNet/Resolving/Resolver.cs:75-76 | a new scope binding only `this` is pushed around the methods |
| Resolver.ThisInMethodResolvesToClassScope | LoxDotNet/Resolving/Resolver.cs:75-87 | when no scope around the class holds `this`, `this` inside a method resolves one scope out, to the class's `this` scope, without a report; in a class nested in another class's method the outer `this` scope is recorded instead |
| Resolver.SuperInMethodResolvesToSuperScope | LoxDotNet/Resolving/Resolver.cs:62-87 | when no scope around the class holds `super`, `super.m` inside a method resolves two scopes out, past the `this` scope, to the class's `super` scope; otherwise the outermost holder is recorded instead |
| Resolver.ResolveMethod | LoxDotNet/Resolving/Resolver.cs:78-87 | a method leaves the scope stack, the function kind and the class kind as they were |
| Resolver.ResolveStmts | LoxDotNet/Resolving/Resolver.cs:21-27 | a statement list adds exactly the names its statements declare |
| Resolver.ResolveProgram | LoxDotNet/Resolving/Resolver.cs:21-27 | a whole program ends at the top level, outside any function or class, with only the resolver's own messages reported |
| Resolver.OutermostAgreesWithInnermostIffUnshadowed | LoxDotNet/Resolving/Resolver.cs:299-315 | the recorded scope is the innermost holder exactly when the name is not shadowed |
| Resolver.ShadowedNameResolvesOutward | LoxDotNet/Resolving/Resolver.cs:301-305 | with the name in both scopes of a two-deep stack, the outer scope is recorded, although the inner one holds it |
| Resolver.GlobalsAreNotTracked | LoxDotNet/Resolving/Resolver.cs:335-359 | at the top level a declaration changes nothing but its initializer's effects, and a reference records no distance |
| Resolver.RedeclarationInBlockIsReported | LoxDotNet/Resolving/Resolver.cs:342-348 | declaring the same name twice in one block is reported |
| Resolver.OwnInitializerIsReported | LoxDotNet/Resolving/Resolver.cs:247-268 | `{ var a = a; }` is reported as a read in its own initializer |
| Resolver.DeclarationEndsDefined | LoxDotNet/Resolving/Resolver.cs:259-268 | after a local `var` declaration the variable is defined |
| Resolver.ReturnChecks | LoxDotNet/Resolving/Resolver.cs:194-211 | `return` outside a function is reported, a value returned from an initializer is reported, and any other `return` is silent |
| Resolver.ThisAndSuperChecks | LoxDotNet/Resolving/Resolver.cs:222-238 | `this` outside a class is reported and inside one is not; `super` is never checked |
| Resolver.BreakIsUnchecked | LoxDotNet/Resolving/Resolver.cs:101-104 | `break` is accepted anywhere, inside a loop or not |
| Resolver.EmptyClassBodyIsSilent | LoxDotNet/Resolving/Resolver.cs:75-89 | a class without methods reports nothing in its body |
| Resolver.SelfInheritanceIsReported | LoxDotNet/Resolving/Resolver.cs:62-67 | `class A < A` is reported as inheriting from itself, wherever it stands and whatever its methods, right after any report on the name itself |
| Resolver.InitializerReturnIsReported | LoxDotNet/Resolving/Resolver.cs:194-211 | `return nil;` inside a method named `init` is reported |

## Left out

- The driver is not modelled. This covers `Lox.cs`: file and REPL input, exit codes, `hadError` flags, and the wiring of scanner, parser and interpreter. The resolver, in particular, is not invoked by the driver at all.
  - Error reporting keeps only the token and the message. The console formatting is not modelled.
- The parser's rules below `Comparison` are a parameter of the model. A `Term` rule is assumed to read a prefix and never to move the cursor backwards. The rules above `Expression`, and statements, are not part of this model.
- Numbers are not modelled. IEEE arithmetic, comparison, `double.Equals`, `double.Parse` and `double.ToString` are supplied through the `NumOps` parameter. The scanner keeps a number's lexeme as its literal.
  - Culture-dependent formatting is not modelled.
- Characters are not modelled as UTF-16 code units. They are Dafny `char`. `Environment.NewLine` in the printer is `"\n"`.
- Console output is the `out` list of the interpreter state.
- The exception plumbing is not modelled.
  - `Return` is not modelled as an exception.
  - `RuntimeException` is not a class.
  - The `ICallable` interface is not modelled.
  - All three are results, options and completions instead.
- Interpreter visitors that are missing from the interpreter are not modelled. This covers `Call`, `Get`, `Set`, `This`, `Super`, function expressions, `Logical`, `If`, `While`, `Return`, `Break`, `Class` and function statements. The interpreter is only specified on the kinds it has visitors for.
- The resolver's `Conditional` visitor is not modelled. It throws, and the resolver is only specified on trees without conditional expressions.
- `Interpreter.Resolve` is not modelled, and neither are `Interpreter.Execute` calls using `GetAt`/`AssignAt` from the resolver's distances. The interpreter reads and writes variables dynamically through `Get`/`Assign`. The resolver's distances are recorded but not consumed.
- The printer's nesting counter after an exception is not modelled. It is left incremented, but output is abandoned at that point anyway.
- `LoxClass` and `LoxInstance` are not modelled. Neither is the native `clock` function.
- The AST generator and the old `Expr.cs`/`Stmt.cs` are not modelled.
- Function values are compared by an identity number rather than by reference.
- Callable.Call: requires at least as many arguments as parameters. Nothing in LoxDotNet calls `Call` (there is no `VisitCallExpr`), so nothing checks the count. With fewer arguments the original would index past the list, which is not modelled.
- Parser.Advance: requires that the cursor is not on the only token. `Previous()` on the first token would index position -1 in the original.
- Resolver.Define: requires the name to be in the innermost scope whenever a scope is open. `Declare` always puts it there first. The original's dictionary indexer would throw otherwise.
- Scanner.ScanToken, Scanner.ScanFrom, Scanner.ScanTokens: the line numbers are exact only for sources without a line break followed by `/` or a `*` followed by a line break (`NoDroppedLines`). At such a pair the block comment handler can consume a line break without counting it, and only upper bounds are promised. `ScannerExamples.BreakThenSlashScansEofOnLineOne` shows one.
- The `IndexOutOfRangeException` the block comment handler throws when it reads past the end is not modelled as an exception. The scan step is `None` there, and so is the whole scan.
- Environment.Get: states only the failure's message. Which binding it returns is stated by `Environment.GetFindsNearest` and `Environment.GetFailsWhenUnbound`.

## Findings

| source | as written | input that shows it | evidently intended | confidence | as-written member | corrected member |
|---|---|---|---|---|---|---|
| LoxDotNet/Scanning/Scanner.cs:187 | the block-comment loop runs while the current character is not `*` AND the next is not `/`, so it stops at any `*` or before any `/` | `/* a*b */`: the loop stops at the `*` at index 4, the two `Advance` calls consume that `*` and the `b`, and ` */` is scanned as STAR and SLASH; `/**`: the loop stops on the last `*`, and the second `Advance` reads beyond the input; a slash, a star, a line break and a slash: the comment counts as closed and the line break goes uncounted | stop only at a `*` followed by `/` | not executed | Scanner.BlockCommentAsWritten, used by Scanner.ScanBlockComment (with ScannerExamples.AsWrittenCommentClosesAtStar, ScannerExamples.StarInCommentScansStarSlash, ScannerExamples.AsWrittenCommentReadsPastEnd and ScannerExamples.AsWrittenCommentDropsLine) | Scanner.ScanBlockCommentIntended, built on Scanner.CommentEnd (with ScannerExamples.IntendedSkipsStarInComment and ScannerExamples.AsWrittenAgreesAtStarSlash) |

=== FILE: ast.dfy ===
/** The syntax tree. The original's generated node classes declare only a
    few kinds, while the resolver, interpreter and printer visit many more;
    this closed datatype holds every kind some visitor handles. Nodes the
    resolver records a scope distance for carry an `id`, standing for the
    node's object identity. */
module Ast {
  import opened Wrappers
  import opened Tokens

  /** A double, as its IEEE-754 bit pattern. Arithmetic on it is supplied
      from outside the model (see `Values.NumOps`). */
  type Num = bv64

  /** The value of a literal node: nil, a boolean, a number or a string. */
  datatype Lit = LitNil | LitBool(b: bool) | LitNumber(n: Num) | LitString(s: string)

  datatype Expr =
    | Assign(id: nat, name: Token, value: Expr)
    | Binary(left: Expr, op: Token, right: Expr)
    | Call(callee: Expr, paren: Token, arguments: seq<Expr>)
    | Conditional(ifExpr: Expr, thenBranch: Expr, elseBranch: Expr)
    | FunctionExpr(decl: FunctionDecl)
    | Get(obj: Expr, name: Token)
    | Grouping(expression: Expr)
    | Literal(lit: Lit)
    | Logical(left: Expr, op: Token, right: Expr)
    | Set(obj: Expr, name: Token, value: Expr)
    | Super(id: nat, keyword: Token, methodName: Token)
    | This(id: nat, keyword: Token)
    | Unary(op: Token, right: Expr)
    | Variable(id: nat, name: Token)

  /** A function literal: parameters and body. */
  datatype FunctionDecl = FunctionDecl(params: seq<Token>, body: seq<Stmt>)

  /** A method of a class declaration. */
  datatype Method = Method(name: Token, decl: FunctionDecl)

  /** The superclass clause of a class declaration: a variable reference. */
  datatype SuperclassRef = SuperclassRef(id: nat, name: Token)

  datatype Stmt =
    | Block(statements: seq<Stmt>)
    | Break(keyword: Token)
    | Class(name: Token, superclass: Option<SuperclassRef>, methods: seq<Method>)
    | Expression(expression: Expr)
    | FunctionStmt(name: Token, decl: FunctionDecl)
    | If(condition: Expr, thenBranch: Stmt, elseBranch: Option<Stmt>)
    | Print(expression: Expr)
    | Return(keyword: Token, returnValue: Option<Expr>)
    | Var(name: Token, initializer: Option<Expr>)
    | While(condition: Expr, body: Stmt)
}

=== FILE: ast_printer.dfy ===
/** The debugging printer: expressions as parenthesised prefix forms,
    statements one per line, blocks as braces with tab indentation. The
    visitors that throw in the original (logical expressions, `if`, and a
    `var` without an initializer, which dereferences null) give `None`. */
module AstPrinter {
  import opened Wrappers
  import opened Tokens
  import opened Ast

  /** Node kinds the printer has a visitor for. */
  predicate PrintableExpr(e: Expr) {
    match e
    case Assign(_, _, value) => PrintableExpr(value)
    case Binary(left, _, right) => PrintableExpr(left) && PrintableExpr(right)
    case Conditional(c, t, f) => PrintableExpr(c) && PrintableExpr(t) && PrintableExpr(f)
    case Grouping(inner) => PrintableExpr(inner)
    case Literal(_) => true
    case Logical(left, _, right) => PrintableExpr(left) && PrintableExpr(right)
    case Unary(_, right) => PrintableExpr(right)
    case Variable(_, _) => true
    case _ => false
  }

  predicate PrintableStmt(s: Stmt) {
    match s
    case Block(statements) => forall k :: 0 <= k < |statements| ==> PrintableStmt(statements[k])
    case Expression(e) => PrintableExpr(e)
    case If(c, t, f) => PrintableExpr(c) && PrintableStmt(t) && (f.Some? ==> PrintableStmt(f.value))
    case Print(e) => PrintableExpr(e)
    case Var(_, init) => init.Some? ==> PrintableExpr(init.value)
    case _ => false
  }

  /** `Parenthesize`: the name, then each part after a space, in
      parentheses. */
  function Parenthesize(name: string, parts: seq<string>): string {
    "(" + name + Spaced(parts) + ")"
  }

  function Spaced(parts: seq<string>): string {
    if parts == [] then "" else " " + parts[0] + Spaced(parts[1..])
  }

  /** `VisitLiteralExpr`: null prints as "null", a string in double
      quotes, anything else through its `ToString`. */
  function LiteralText(lit: Lit, format: Num -> string): (r: string)
    ensures lit.LitNil? ==> r == "null"
    ensures lit.LitString? ==>
              && |r| == |lit.s| + 2 && r[0] == Quote && r[|r| - 1] == Quote
              && r[1..|r| - 1] == lit.s
    ensures lit.LitBool? ==> r == (if lit.b then "True" else "False")
    ensures lit.LitNumber? ==> r == format(lit.n)
  {
    match lit
    case LitNil => "null"
    case LitString(s) =>
      var r := [Quote] + s + [Quote];
      assert r[1..|r| - 1] == s;
      r
    case LitBool(b) => if b then "True" else "False"
    case LitNumber(n) => format(n)
  }

  function PrintExpr(e: Expr, format: Num -> string): (r: Option<string>)
    requires PrintableExpr(e)
    decreases e
  {
    match e
    case Assign(_, name, value) =>
      var v :- PrintExpr(value, format);
      Some(Parenthesize("set " + name.lexeme, [v]))
    case Binary(left, op, right) =>
      var l :- PrintExpr(left, format);
      var r :- PrintExpr(right, format);
      Some(Parenthesize(op.lexeme, [l, r]))
    case Grouping(inner) =>
      var i :- PrintExpr(inner, format);
      Some(Parenthesize("group", [i]))
    case Literal(lit) => Some(LiteralText(lit, format))
    case Logical(_, _, _) => None
    case Unary(op, right) =>
      var r :- PrintExpr(right, format);
      Some(Parenthesize(op.lexeme, [r]))
    case Variable(_, name) => Some(name.lexeme)
    case Conditional(c, t, f) =>
      var a :- PrintExpr(c, format);
      var b :- PrintExpr(t, format);
      var d :- PrintExpr(f, format);
      Some(Parenthesize("conditional", [a, b, d]))
    case _ => None
  }

  function Tabs(n: nat): (r: string)
    ensures |r| == n && forall k :: 0 <= k < n ==> r[k] == '\t'
  {
    if n == 0 then "" else "\t" + Tabs(n - 1)
  }

  /** A statement at nesting level `nest` (the original's `_nestLevel`). */
  function PrintStmt(s: Stmt, nest: nat, format: Num -> string): (r: Option<string>)
    requires PrintableStmt(s)
    decreases s, 1
  {
    match s
    case Block(statements) =>
      var lines :- BlockLines(statements, nest + 1, format);
      Some("{\n" + lines + Tabs(nest) + "}\n")
    case Expression(e) => PrintExpr(e, format)
    case If(_, _, _) => None
    case Print(e) =>
      var v :- PrintExpr(e, format);
      Some(Parenthesize("print", [v]))
    case Var(name, init) =>
      if init.None? then None
      else
        var v :- PrintExpr(init.value, format);
        Some(Parenthesize("define " + name.lexeme, [v]))
    case _ => None
  }

  /** The lines of a block's body: each statement at level `nest`,
      indented by `nest` tabs, on its own line. */
  function BlockLines(statements: seq<Stmt>, nest: nat, format: Num -> string): (r: Option<string>)
    requires forall k :: 0 <= k < |statements| ==> PrintableStmt(statements[k])
    decreases statements, 0
  {
    if statements == [] then Some("")
    else
      var first :- PrintStmt(statements[0], nest, format);
      var rest :- BlockLines(statements[1..], nest, format);
      Some(Tabs(nest) + first + "\n" + rest)
  }

  /** `Print`: every statement's text, in order, each at level zero; one
      statement whose visitor throws makes the whole call fail. */
  function Print(statements: seq<Stmt>, format: Num -> string): (r: Option<seq<string>>)
    requires forall k :: 0 <= k < |statements| ==> PrintableStmt(statements[k])
    ensures r.Some? ==> |r.value| == |statements|
    ensures r.Some? ==> forall k :: 0 <= k < |statements| ==> PrintStmt(statements[k], 0, format) == Some(r.value[k])
    ensures r.None? <==> exists k :: 0 <= k < |statements| && PrintStmt(statements[k], 0, format).None?
  {
    if statements == [] then Some([])
    else
      var first := PrintStmt(statements[0], 0, format);
      var rest := Print(statements[1..], format);
      if first.None? || rest.None? then
        assert rest.None? ==> exists k :: 1 <= k < |statements| && PrintStmt(statements[k], 0, format).None? by {
          if rest.None? {
            var j :| 0 <= j < |statements[1..]| && PrintStmt(statements[1..][j], 0, format).None?;
            assert statements[1..][j] == statements[j + 1];
          }
        }
        None
      else
        var r := [first.value] + rest.value;
        assert forall k :: 1 <= k < |statements| ==> statements[k] == statements[1..][k - 1];
        Some(r)
  }

  // ---------------------------------------------------------------------
  // When printing fails, and the shape of what it prints.

  /** The expression holds a logical node, whose visitor throws. */
  predicate HasLogical(e: Expr) {
    match e
    case Assign(_, _, value) => HasLogical(value)
    case Binary(left, _, right) => HasLogical(left) || HasLogical(right)
    case Conditional(c, t, f) => HasLogical(c) || HasLogical(t) || HasLogical(f)
    case Grouping(inner) => HasLogical(inner)
    case Logical(_, _, _) => true
    case Unary(_, right) => HasLogical(right)
    case _ => false
  }

  /** Expression printing fails exactly on a logical node. */
  lemma {:induction false} PrintExprFailsIffLogical(e: Expr, format: Num -> string)
    requires PrintableExpr(e)
    ensures PrintExpr(e, format).None? <==> HasLogical(e)
    decreases e
  {
    match e
    case Assign(_, _, value) => PrintExprFailsIffLogical(value, format);
    case Binary(left, _, right) =>
      PrintExprFailsIffLogical(left, format);
      PrintExprFailsIffLogical(right, format);
    case Grouping(inner) => PrintExprFailsIffLogical(inner, format);
    case Literal(_) =>
    case Logical(_, _, _) =>
    case Unary(_, right) => PrintExprFailsIffLogical(right, format);
    case Variable(_, _) =>
    case Conditional(c, t, f) =>
      PrintExprFailsIffLogical(c, format);
      PrintExprFailsIffLogical(t, format);
      PrintExprFailsIffLogical(f, format);
  }

  function Count(s: string, c: char): nat {
    if s == [] then 0 else (if s[0] == c then 1 else 0) + Count(s[1..], c)
  }

  lemma {:induction false} CountConcat(a: string, b: string, c: char)
    ensures Count(a + b, c) == Count(a, c) + Count(b, c)
  {
    if a == [] {
      assert a + b == b;
    } else {
      assert (a + b)[0] == a[0];
      assert (a + b)[1..] == a[1..] + b;
      CountConcat(a[1..], b, c);
    }
  }

  /** Opening and closing parentheses occur equally often. */
  predicate Balanced(s: string) {
    Count(s, '(') == Count(s, ')')
  }

  predicate ParenFree(s: string) {
    forall k :: 0 <= k < |s| ==> s[k] != '(' && s[k] != ')'
  }

  lemma {:induction false} ParenFreeCounts(s: string)
    requires ParenFree(s)
    ensures Count(s, '(') == 0 && Count(s, ')') == 0
  {
    if s != [] {
      ParenFreeCounts(s[1..]);
    }
  }

  lemma BalancedConcat(a: string, b: string)
    requires Balanced(a) && Balanced(b)
    ensures Balanced(a + b)
  {
    CountConcat(a, b, '(');
    CountConcat(a, b, ')');
  }

  lemma {:induction false} SpacedBalanced(parts: seq<string>)
    requires forall k :: 0 <= k < |parts| ==> Balanced(parts[k])
    ensures Balanced(Spaced(parts))
  {
    if parts != [] {
      SpacedBalanced(parts[1..]);
      ParenFreeCounts(" ");
      BalancedConcat(" ", parts[0]);
      BalancedConcat(" " + parts[0], Spaced(parts[1..]));
    }
  }

  lemma ParenthesizeBalanced(name: string, parts: seq<string>)
    requires ParenFree(name)
    requires forall k :: 0 <= k < |parts| ==> Balanced(parts[k])
    ensures Balanced(Parenthesize(name, parts))
  {
    SpacedBalanced(parts);
    ParenFreeCounts(name);
    CountConcat("(", name, '(');
    CountConcat("(", name, ')');
    CountConcat("(" + name, Spaced(parts), '(');
    CountConcat("(" + name, Spaced(parts), ')');
    CountConcat("(" + name + Spaced(parts), ")", '(');
    CountConcat("(" + name + Spaced(parts), ")", ')');
  }

  /** Every name, operator, string literal and number text in the
      expression is free of parentheses. */
  predicate TextsParenFree(e: Expr, format: Num -> string) {
    match e
    case Assign(_, name, value) => ParenFree(name.lexeme) && TextsParenFree(value, format)
    case Binary(left, op, right) => ParenFree(op.lexeme) && TextsParenFree(left, format) && TextsParenFree(right, format)
    case Conditional(c, t, f) => TextsParenFree(c, format) && TextsParenFree(t, format) && TextsParenFree(f, format)
    case Grouping(inner) => TextsParenFree(inner, format)
    case Literal(lit) => ParenFree(LiteralText(lit, format))
    case Logical(left, _, right) => TextsParenFree(left, format) && TextsParenFree(right, format)
    case Unary(op, right) => ParenFree(op.lexeme) && TextsParenFree(right, format)
    case Variable(_, name) => ParenFree(name.lexeme)
    case _ => true
  }

  /** The printed form is parenthesised consistently: as many opening as
      closing parentheses, once the texts it copies have none. */
  lemma {:induction false} PrintExprBalanced(e: Expr, format: Num -> string)
    requires PrintableExpr(e) && TextsParenFree(e, format) && PrintExpr(e, format).Some?
    ensures Balanced(PrintExpr(e, format).value)
    decreases e
  {
    match e
    case Assign(_, name, value) =>
      PrintExprBalanced(value, format);
      ParenFreePrefix("set ", name.lexeme);
      ParenthesizeBalanced("set " + name.lexeme, [PrintExpr(value, format).value]);
    case Binary(left, op, right) =>
      PrintExprBalanced(left, format);
      PrintExprBalanced(right, format);
      ParenthesizeBalanced(op.lexeme, [PrintExpr(left, format).value, PrintExpr(right, format).value]);
    case Grouping(inner) =>
      PrintExprBalanced(inner, format);
      ParenthesizeBalanced("group", [PrintExpr(inner, format).value]);
    case Literal(lit) => ParenFreeCounts(LiteralText(lit, format));
    case Unary(op, right) =>
      PrintExprBalanced(right, format);
      ParenthesizeBalanced(op.lexeme, [PrintExpr(right, format).value]);
    case Variable(_, name) => ParenFreeCounts(name.lexeme);
    case Conditional(c, t, f) =>
      PrintExprBalanced(c, format);
      PrintExprBalanced(t, format);
      PrintExprBalanced(f, format);
      ParenthesizeBalanced("conditional", [PrintExpr(c, format).value, PrintExpr(t, format).value, PrintExpr(f, format).value]);
  }

  lemma ParenFreePrefix(a: string, b: string)
    requires ParenFree(a) && ParenFree(b)
    ensures ParenFree(a + b)
  {
  }

  lemma SpacedOne(a: string)
    ensures Spaced([a]) == " " + a
  {
    assert [a][1..] == [];
  }

  lemma SpacedTwo(a: string, b: string)
    ensures Spaced([a, b]) == " " + a + " " + b
  {
    assert [a, b][1..] == [b];
    SpacedOne(b);
    assert " " + a + (" " + b) == " " + a + " " + b;
  }

  lemma UnaryText(op: Token, e: Expr, format: Num -> string, t: string)
    requires PrintableExpr(e) && PrintExpr(e, format) == Some(t)
    ensures PrintExpr(Unary(op, e), format) == Some("(" + op.lexeme + " " + t + ")")
  {
    SpacedOne(t);
    assert PrintExpr(Unary(op, e), format) == Some(Parenthesize(op.lexeme, [t]));
    assert "(" + op.lexeme + (" " + t) + ")" == "(" + op.lexeme + " " + t + ")";
  }

  lemma GroupingText(e: Expr, format: Num -> string, t: string)
    requires PrintableExpr(e) && PrintExpr(e, format) == Some(t)
    ensures PrintExpr(Grouping(e), format) == Some("(group " + t + ")")
  {
    SpacedOne(t);
    assert PrintExpr(Grouping(e), format) == Some(Parenthesize("group", [t]));
    assert "(" + "group" + (" " + t) + ")" == "(group " + t + ")";
  }

  lemma BinaryText(left: Expr, op: Token, right: Expr, format: Num -> string, a: string, b: string)
    requires PrintableExpr(left) && PrintExpr(left, format) == Some(a)
    requires PrintableExpr(right) && PrintExpr(right, format) == Some(b)
    ensures PrintExpr(Binary(left, op, right), format) == Some("(" + op.lexeme + " " + a + " " + b + ")")
  {
    SpacedTwo(a, b);
    assert PrintExpr(Binary(left, op, right), format) == Some(Parenthesize(op.lexeme, [a, b]));
    assert "(" + op.lexeme + (" " + a + " " + b) + ")" == "(" + op.lexeme + " " + a + " " + b + ")";
  }

  lemma SpacedThree(a: string, b: string, c: string)
    ensures Spaced([a, b, c]) == " " + a + " " + b + " " + c
  {
    assert [a, b, c][1..] == [b, c];
    SpacedTwo(b, c);
    assert " " + a + (" " + b + " " + c) == " " + a + " " + b + " " + c;
  }

  /** An assignment prints as `(set name value)`. */
  lemma AssignText(id: nat, name: Token, value: Expr, format: Num -> string, t: string)
    requires PrintableExpr(value) && PrintExpr(value, format) == Some(t)
    ensures PrintExpr(Assign(id, name, value), format) == Some("(set " + name.lexeme + " " + t + ")")
  {
    SpacedOne(t);
    assert PrintExpr(Assign(id, name, value), format) == Some(Parenthesize("set " + name.lexeme, [t]));
    assert "(" + ("set " + name.lexeme) + (" " + t) + ")" == "(set " + name.lexeme + " " + t + ")";
  }

  /** A conditional prints as `(conditional condition then else)`. */
  lemma ConditionalText(c: Expr, th: Expr, el: Expr, format: Num -> string, a: string, b: string, d: string)
    requires PrintableExpr(c) && PrintExpr(c, format) == Some(a)
    requires PrintableExpr(th) && PrintExpr(th, format) == Some(b)
    requires PrintableExpr(el) && PrintExpr(el, format) == Some(d)
    ensures PrintExpr(Conditional(c, th, el), format) == Some("(conditional " + a + " " + b + " " + d + ")")
  {
    assert PrintExpr(Conditional(c, th, el), format) == Some(Parenthesize("conditional", [a, b, d]));
    ConditionalString(a, b, d);
  }

  lemma ConditionalString(a: string, b: string, d: string)
    ensures Parenthesize("conditional", [a, b, d]) == "(conditional " + a + " " + b + " " + d + ")"
  {
    SpacedThree(a, b, d);
    assert "(" + "conditional" + (" " + a + " " + b + " " + d) + ")"
        == "(conditional " + a + " " + b + " " + d + ")";
  }

  /** The leaves: a variable prints as its bare name; a literal prints as
      `null`, as its string between double quotes with nothing escaped,
      as `True` or `False`, or as its number's text. */
  lemma LeafText(id: nat, name: Token, lit: Lit, format: Num -> string)
    ensures PrintExpr(Variable(id, name), format) == Some(name.lexeme)
    ensures PrintExpr(Literal(lit), format) == Some(LiteralText(lit, format))
    ensures lit.LitNil? ==> PrintExpr(Literal(lit), format) == Some("null")
    ensures lit.LitString? ==> PrintExpr(Literal(lit), format) == Some([Quote] + lit.s + [Quote])
  {
    if lit.LitString? {
      var r := LiteralText(lit, format);
      assert r == [r[0]] + r[1..|r| - 1] + [r[|r| - 1]];
    }
  }

  /** `print e;` prints as `(print e)`, `var n = e;` as `(define n e)`, an
      expression statement as its expression; the nesting level does not
      matter to any of them. */
  lemma SimpleStmtText(name: Token, e: Expr, nest: nat, format: Num -> string, t: string)
    requires PrintableExpr(e) && PrintExpr(e, format) == Some(t)
    ensures PrintStmt(Stmt.Print(e), nest, format) == Some("(print " + t + ")")
    ensures PrintStmt(Stmt.Var(name, Some(e)), nest, format) == Some("(define " + name.lexeme + " " + t + ")")
    ensures PrintStmt(Expression(e), nest, format) == Some(t)
  {
    SpacedOne(t);
    assert PrintStmt(Stmt.Print(e), nest, format) == Some(Parenthesize("print", [t]));
    assert "(" + "print" + (" " + t) + ")" == "(print " + t + ")";
    assert PrintStmt(Stmt.Var(name, Some(e)), nest, format) == Some(Parenthesize("define " + name.lexeme, [t]));
    assert "(" + ("define " + name.lexeme) + (" " + t) + ")" == "(define " + name.lexeme + " " + t + ")";
  }

  /** The body of a block whose statements print as `texts`: each text
      after `nest` tabs, on its own line. */
  function IndentedLines(texts: seq<string>, nest: nat): string {
    if texts == [] then "" else Tabs(nest) + texts[0] + "\n" + IndentedLines(texts[1..], nest)
  }

  /** A block prints as an opening brace line, then each statement at one
      level deeper, indented and on its own line, then the closing brace
      at the block's own level. */
  lemma BlockText(statements: seq<Stmt>, nest: nat, format: Num -> string, texts: seq<string>)
    requires forall k :: 0 <= k < |statements| ==> PrintableStmt(statements[k])
    requires |texts| == |statements|
    requires forall k :: 0 <= k < |statements| ==> PrintStmt(statements[k], nest + 1, format) == Some(texts[k])
    ensures PrintStmt(Block(statements), nest, format)
         == Some("{\n" + IndentedLines(texts, nest + 1) + Tabs(nest) + "}\n")
  {
    BlockLinesText(statements, nest + 1, format, texts);
  }

  /** The lines of a block's body are the statements' texts, indented. */
  lemma {:induction false} BlockLinesText(statements: seq<Stmt>, nest: nat, format: Num -> string, texts: seq<string>)
    requires forall k :: 0 <= k < |statements| ==> PrintableStmt(statements[k])
    requires |texts| == |statements|
    requires forall k :: 0 <= k < |statements| ==> PrintStmt(statements[k], nest, format) == Some(texts[k])
    ensures BlockLines(statements, nest, format) == Some(IndentedLines(texts, nest))
    decreases |statements|
  {
    if statements != [] {
      BlockLinesText(statements[1..], nest, format, texts[1..]);
    }
  }

  /** A block's body fails to print exactly when one of its statements
      does. */
  lemma {:induction false} BlockLinesFails(statements: seq<Stmt>, nest: nat, format: Num -> string)
    requires forall k :: 0 <= k < |statements| ==> PrintableStmt(statements[k])
    ensures BlockLines(statements, nest, format).None? <==>
              exists k :: 0 <= k < |statements| && PrintStmt(statements[k], nest, format).None?
    decreases |statements|
  {
    if statements != [] {
      BlockLinesFails(statements[1..], nest, format);
      if BlockLines(statements[1..], nest, format).None? {
        var j :| 0 <= j < |statements[1..]| && PrintStmt(statements[1..][j], nest, format).None?;
        assert statements[1..][j] == statements[j + 1];
      }
      if exists k :: 1 <= k < |statements| && PrintStmt(statements[k], nest, format).None? {
        var j :| 1 <= j < |statements| && PrintStmt(statements[j], nest, format).None?;
        assert statements[1..][j - 1] == statements[j];
      }
    }
  }

  /** The classic example: `-123 * (45.67)` prints as
      `(* (- 123) (group 45.67))`, whatever texts the two numbers format
      to. */
  lemma ExampleProduct(minus: Token, star: Token, a: Num, b: Num, format: Num -> string)
    requires minus.lexeme == "-" && star.lexeme == "*"
    ensures var e := Binary(Unary(minus, Literal(LitNumber(a))), star, Grouping(Literal(LitNumber(b))));
            PrintableExpr(e) && PrintExpr(e, format) == Some("(* (- " + format(a) + ") (group " + format(b) + "))")
  {
    var ta, tb := format(a), format(b);
    UnaryText(minus, Literal(LitNumber(a)), format, ta);
    GroupingText(Literal(LitNumber(b)), format, tb);
    var l, r := "(" + minus.lexeme + " " + ta + ")", "(group " + tb + ")";
    BinaryText(Unary(minus, Literal(LitNumber(a))), star, Grouping(Literal(LitNumber(b))), format, l, r);
    ProductText(ta, tb);
  }

  lemma ProductText(ta: string, tb: string)
    ensures "(" + "*" + " " + ("(" + "-" + " " + ta + ")") + " " + ("(group " + tb + ")") + ")"
         == "(* (- " + ta + ") (group " + tb + "))"
  {
    var l, r := "(" + "-" + " " + ta + ")", "(group " + tb + ")";
    assert "(" + "*" + " " == "(* " && "(" + "-" + " " == "(- ";
    assert "(" + "*" + " " + l == "(* " + ("(- " + ta + ")");
    assert "(* " + ("(- " + ta + ")") == "(* (- " + ta + ")";
    assert "(* (- " + ta + ")" + " " + r + ")" == "(* (- " + ta + ")" + (" " + "(group " + tb + ")" + ")");
    assert " " + "(group " + tb + ")" + ")" == " (group " + tb + "))";
  }

  /** A block prints as an opening brace line, one line per statement
      indented one tab deeper than the block, and a closing brace at the
      block's own level. The inner block's text already ends in a line
      break, so the outer block adds an empty line after it. */
  lemma NestedBlockExample(v: Token, format: Num -> string)
    requires v.lexeme == "x"
    ensures var s := Block([Block([Expression(Variable(0, v))])]);
            PrintableStmt(s) && PrintStmt(s, 0, format) == Some("{\n\t{\n\t\tx\n\t}\n\n}\n")
  {
    var inner := Block([Expression(Variable(0, v))]);
    InnerBlockText(v, format);
    SingleStatementBlock(inner, 0, format, "{\n\t\tx\n\t}\n");
    TabsOneTwo();
    OuterBlockString();
  }

  lemma OuterBlockString()
    ensures "{\n" + "\t" + "{\n\t\tx\n\t}\n" + "\n" + "" + "}\n" == "{\n\t{\n\t\tx\n\t}\n\n}\n"
  {
    assert "{\n" + "\t" + "{\n\t\tx\n\t}\n" == "{\n\t{\n\t\tx\n\t}\n";
  }

  /** The inner block of the nested example, at level one. */
  lemma InnerBlockText(v: Token, format: Num -> string)
    requires v.lexeme == "x"
    ensures PrintStmt(Block([Expression(Variable(0, v))]), 1, format) == Some("{\n\t\tx\n\t}\n")
  {
    var x := Expression(Variable(0, v));
    TabsOneTwo();
    assert PrintStmt(x, 2, format) == Some("x");
    SingleStatementBlock(x, 1, format, "x");
    assert "{\n" + "\t\t" + "x" + "\n" + "\t" + "}\n" == "{\n\t\tx\n\t}\n";
  }

  lemma TabsOneTwo()
    ensures Tabs(0) == "" && Tabs(1) == "\t" && Tabs(2) == "\t\t"
  {
    assert Tabs(1) == "\t" + Tabs(0);
    assert Tabs(2) == "\t" + Tabs(1);
  }

  /** A block of one statement: the brace, the statement one level
      deeper on its own line, and the closing brace at the block's level. */
  lemma SingleStatementBlock(s: Stmt, nest: nat, format: Num -> string, t: string)
    requires PrintableStmt(s) && PrintStmt(s, nest + 1, format) == Some(t)
    ensures PrintStmt(Block([s]), nest, format) == Some("{\n" + Tabs(nest + 1) + t + "\n" + Tabs(nest) + "}\n")
  {
    assert [s][1..] == [];
    assert BlockLines([s], nest + 1, format) == Some(Tabs(nest + 1) + t + "\n" + "");
    assert "{\n" + (Tabs(nest + 1) + t + "\n" + "") + Tabs(nest) + "}\n"
        == "{\n" + Tabs(nest + 1) + t + "\n" + Tabs(nest) + "}\n";
  }

  /** `if` and `var x;` cannot be printed. */
  lemma UnprintableStatements(c: Expr, t: Stmt, name: Token, format: Num -> string)
    requires PrintableExpr(c) && PrintableStmt(t)
    ensures PrintStmt(Stmt.If(c, t, None), 0, format).None?
    ensures PrintStmt(Stmt.Var(name, None), 0, format).None?
  {
  }
}

=== FILE: callable.dfy ===
/** Calling a function value: a fresh environment enclosed by the
    function's closure, parameters bound to arguments, then the body run
    as a block. How the body runs is a parameter; `return` reaches the
    caller as a completion rather than as an exception. */
module Callable {
  import opened Wrappers
  import opened Tokens
  import opened Ast
  import opened Values
  import Env = Environment
  import I = Interpreter

  /** How a function body ended: it ran off its end, executed `return`
      with a value, or failed with a runtime error. */
  datatype Completion = Normal | Returned(value: Value) | Failed(error: RuntimeError)

  /** Runs a body as `ExecuteBlock(body, scope)` does. */
  type BodyRunner = (I.State, seq<Stmt>, nat) -> (I.State, Completion)

  /** `Arity`: the number of declared parameters. */
  function Arity(f: LoxFunction): nat {
    |f.decl.params|
  }

  /** The parameter loop of `Call`: defines each parameter, in order, as
      the argument at the same position. */
  function BindParameters(arena: Env.Arena, scope: nat, params: seq<Token>, args: seq<Value>): (r: Env.Arena)
    requires Env.Wf(arena) && scope < |arena| && |args| >= |params|
    ensures Env.Wf(r) && |r| == |arena|
    ensures forall i :: 0 <= i < |arena| && i != scope ==> r[i] == arena[i]
    ensures forall i :: 0 <= i < |arena| ==> r[i].enclosing == arena[i].enclosing
    ensures r[scope].values.Keys == arena[scope].values.Keys + set p | p in params :: p.lexeme
    decreases |params|
  {
    if params == [] then arena
    else
      var r := BindParameters(Env.Define(arena, scope, params[0].lexeme, args[0]), scope, params[1..], args[1..]);
      assert (set p | p in params :: p.lexeme) == {params[0].lexeme} + set p | p in params[1..] :: p.lexeme;
      r
  }

  /** Parameter names are pairwise distinct. */
  predicate DistinctNames(params: seq<Token>) {
    forall i, j :: 0 <= i < j < |params| ==> params[i].lexeme != params[j].lexeme
  }

  /** With distinct parameter names, each parameter is bound to its own
      argument, and names that are not parameters keep their bindings. */
  lemma BindParametersBindsArguments(arena: Env.Arena, scope: nat, params: seq<Token>, args: seq<Value>)
    requires Env.Wf(arena) && scope < |arena| && |args| >= |params| && DistinctNames(params)
    ensures forall i :: 0 <= i < |params| ==>
              BindParameters(arena, scope, params, args)[scope].values[params[i].lexeme] == args[i]
    ensures forall x :: x in arena[scope].values && (forall i :: 0 <= i < |params| ==> params[i].lexeme != x) ==>
              BindParameters(arena, scope, params, args)[scope].values[x] == arena[scope].values[x]
  {
    forall i | 0 <= i < |params|
      ensures BindParameters(arena, scope, params, args)[scope].values[params[i].lexeme] == args[i]
    {
      BindingBinds(arena, scope, params, args, i);
    }
    forall x | x in arena[scope].values && (forall i :: 0 <= i < |params| ==> params[i].lexeme != x)
      ensures BindParameters(arena, scope, params, args)[scope].values[x] == arena[scope].values[x]
    {
      BindingKeeps(arena, scope, params, args, x);
    }
  }

  /** Binding the parameters leaves any other name as it was. */
  lemma {:induction false} BindingKeeps(arena: Env.Arena, scope: nat, params: seq<Token>, args: seq<Value>, x: string)
    requires Env.Wf(arena) && scope < |arena| && |args| >= |params|
    requires x in arena[scope].values
    requires forall i :: 0 <= i < |params| ==> params[i].lexeme != x
    ensures BindParameters(arena, scope, params, args)[scope].values[x] == arena[scope].values[x]
    decreases |params|
  {
    if params != [] {
      var arena1 := Env.Define(arena, scope, params[0].lexeme, args[0]);
      assert params[0].lexeme != x;
      forall k | 0 <= k < |params[1..]|
        ensures params[1..][k].lexeme != x
      {
        assert params[1..][k] == params[k + 1];
      }
      BindingKeeps(arena1, scope, params[1..], args[1..], x);
    }
  }

  /** With distinct names, the parameter at position `i` ends up bound to
      the argument at position `i`. */
  lemma {:induction false} BindingBinds(arena: Env.Arena, scope: nat, params: seq<Token>, args: seq<Value>, i: nat)
    requires Env.Wf(arena) && scope < |arena| && |args| >= |params| && DistinctNames(params)
    requires i < |params|
    ensures BindParameters(arena, scope, params, args)[scope].values[params[i].lexeme] == args[i]
    decreases |params|
  {
    var arena1 := Env.Define(arena, scope, params[0].lexeme, args[0]);
    var rest := params[1..];
    if i == 0 {
      forall k | 0 <= k < |rest|
        ensures rest[k].lexeme != params[0].lexeme
      {
        assert rest[k] == params[k + 1];
      }
      BindingKeeps(arena1, scope, rest, args[1..], params[0].lexeme);
    } else {
      assert DistinctNames(rest) by {
        forall j, k | 0 <= j < k < |rest|
          ensures rest[j].lexeme != rest[k].lexeme
        {
          assert rest[j] == params[j + 1] && rest[k] == params[k + 1];
        }
      }
      BindingBinds(arena1, scope, rest, args[1..], i - 1);
      assert rest[i - 1] == params[i] && args[1..][i - 1] == args[i];
    }
  }

  /** With a repeated parameter name the later argument wins, since each
      definition overwrites the previous one. */
  lemma RepeatedParameterTakesLastArgument(arena: Env.Arena, scope: nat, p: Token, q: Token, a: Value, b: Value)
    requires Env.Wf(arena) && scope < |arena| && p.lexeme == q.lexeme
    ensures BindParameters(arena, scope, [p, q], [a, b])[scope].values[p.lexeme] == b
  {
    var arena1 := Env.Define(arena, scope, p.lexeme, a);
    assert [p, q][1..] == [q] && [a, b][1..] == [b];
    assert [q][1..] == [] && [b][1..] == [];
    assert BindParameters(arena, scope, [p, q], [a, b]) == BindParameters(arena1, scope, [q], [b]);
  }

  /** The environment a call runs its body in: a new scope enclosed by the
      closure, holding the parameters. */
  function CallFrame(arena: Env.Arena, f: LoxFunction, args: seq<Value>): (r: (Env.Arena, nat))
    requires Env.Wf(arena) && f.closure < |arena| && |args| >= Arity(f)
    ensures Env.Wf(r.0) && |r.0| == |arena| + 1 && r.1 == |arena|
    ensures r.0[..|arena|] == arena
    ensures r.0[r.1].enclosing == Some(f.closure)
    ensures r.0[r.1].values.Keys == set p | p in f.decl.params :: p.lexeme
  {
    var (arena1, scope) := Env.NewScope(arena, Some(f.closure));
    var arena2 := BindParameters(arena1, scope, f.decl.params, args);
    assert arena2[..|arena|] == arena by {
      forall i | 0 <= i < |arena|
        ensures arena2[i] == arena[i]
      {
        assert arena1[i] == arena[i];
      }
    }
    (arena2, scope)
  }

  /** With distinct parameter names the call frame binds exactly
      `Arity(f)` names, one per parameter. */
  lemma ArityIsFrameSize(arena: Env.Arena, f: LoxFunction, args: seq<Value>)
    requires Env.Wf(arena) && f.closure < |arena| && |args| >= Arity(f)
    requires DistinctNames(f.decl.params)
    ensures var (frame, scope) := CallFrame(arena, f, args);
            |frame[scope].values.Keys| == Arity(f)
  {
    DistinctNamesCount(f.decl.params);
  }

  /** Distinct names: as many names as parameters. */
  lemma {:induction false} DistinctNamesCount(params: seq<Token>)
    requires DistinctNames(params)
    ensures |set p | p in params :: p.lexeme| == |params|
    decreases |params|
  {
    if params != [] {
      var rest := params[1..];
      assert DistinctNames(rest) by {
        forall j, k | 0 <= j < k < |rest|
          ensures rest[j].lexeme != rest[k].lexeme
        {
          assert rest[j] == params[j + 1] && rest[k] == params[k + 1];
        }
      }
      DistinctNamesCount(rest);
      var names := set p | p in rest :: p.lexeme;
      assert params[0].lexeme !in names;
      assert (set p | p in params :: p.lexeme) == {params[0].lexeme} + names;
    }
  }

  /** `Call`: binds the arguments in a fresh frame and runs the body there;
      a `return` gives its value, running off the end gives nil, and a
      runtime error propagates. Nothing in LoxDotNet calls `Call` or checks
      the argument count, so the precondition asks for at least as many
      arguments as parameters; with fewer, the original would index past
      the argument list. */
  function Call(st: I.State, f: LoxFunction, args: seq<Value>, run: BodyRunner): (r: (I.State, Result<Value, RuntimeError>))
    requires I.Good(st) && f.closure < |st.arena| && |args| >= Arity(f)
  {
    var (arena, scope) := CallFrame(st.arena, f, args);
    var (st1, completion) := run(st.(arena := arena), f.decl.body, scope);
    match completion
    case Normal => (st1, Ok(NilVal))
    case Returned(v) => (st1, Ok(v))
    case Failed(err) => (st1, Err(err))
  }

  /** What the body sees: its parameters, bound to the arguments, and
      otherwise exactly what the closure sees. The caller's environment
      plays no part (lexical, not dynamic, scope). */
  lemma CallFrameScoping(arena: Env.Arena, f: LoxFunction, args: seq<Value>, name: Token)
    requires Env.Wf(arena) && f.closure < |arena| && |args| >= Arity(f)
    requires DistinctNames(f.decl.params)
    ensures var (frame, scope) := CallFrame(arena, f, args);
            forall i :: 0 <= i < Arity(f) ==> Env.Get(frame, scope, f.decl.params[i]) == Ok(args[i])
    ensures var (frame, scope) := CallFrame(arena, f, args);
            (forall i :: 0 <= i < Arity(f) ==> f.decl.params[i].lexeme != name.lexeme) ==>
              Env.Get(frame, scope, name) == Env.Get(arena, f.closure, name)
  {
    var (arena1, scope) := Env.NewScope(arena, Some(f.closure));
    var frame := CallFrame(arena, f, args).0;
    BindParametersBindsArguments(arena1, scope, f.decl.params, args);
    forall i | 0 <= i < Arity(f)
      ensures Env.Get(frame, scope, f.decl.params[i]) == Ok(args[i])
    {
      assert f.decl.params[i] in f.decl.params;
    }
    if forall i :: 0 <= i < Arity(f) ==> f.decl.params[i].lexeme != name.lexeme {
      assert name.lexeme !in frame[scope].values;
      Env.GetIgnoresAppend(arena, frame, f.closure, name);
    }
  }

  /** The completion decides the result: a `return` value, nil, or the
      error; whatever the body did to the state is kept. */
  lemma CallResult(st: I.State, f: LoxFunction, args: seq<Value>, run: BodyRunner)
    requires I.Good(st) && f.closure < |st.arena| && |args| >= Arity(f)
    ensures var frame := CallFrame(st.arena, f, args);
            var ran := run(st.(arena := frame.0), f.decl.body, frame.1);
            var r := Call(st, f, args, run);
            && r.0 == ran.0
            && (ran.1.Returned? ==> r.1 == Ok(ran.1.value))
            && (ran.1.Normal? ==> r.1 == Ok(NilVal))
            && (ran.1.Failed? ==> r.1 == Err(ran.1.error))
  {
  }

  /** The interpreter as the body runner: `ExecuteBlock` on the body, for
      bodies made of statement kinds it has visitors for. It has none for
      `return`, so such a body always completes normally or fails. */
  function InterpreterRunner(ops: NumOps): BodyRunner {
    (st: I.State, body: seq<Stmt>, scope: nat) =>
      if I.Good(st) && scope < |st.arena| && I.AllInterpretable(body) then
        var (st1, err) := I.ExecuteBlock(ops, st, body, scope);
        (st1, if err.Some? then Failed(err.value) else Normal)
      else (st, Normal)
  }

  /** Under the interpreter, a call whose body succeeds returns nil, and
      the caller's current environment is back in place. */
  lemma InterpretedCallReturnsNil(ops: NumOps, st: I.State, f: LoxFunction, args: seq<Value>)
    requires I.Good(st) && f.closure < |st.arena| && |args| >= Arity(f)
    requires I.AllInterpretable(f.decl.body)
    ensures var r := Call(st, f, args, InterpreterRunner(ops));
            && r.0.env == st.env
            && (r.1.Ok? ==> r.1.value == NilVal)
  {
  }
}

=== FILE: environment.dfy ===
/** Environments: dictionaries of variables linked to an enclosing
    environment. The original links mutable objects; here every scope lives
    in an arena (a sequence) and is named by its index, so an environment
    shared by several closures is one index several values refer to. */
module Environment {
  import opened Wrappers
  import opened Tokens
  import opened Values

  /** One environment: its variables and the index of its enclosing
      environment, if any. */
  datatype Scope = Scope(values: map<string, Value>, enclosing: Option<nat>)

  type Arena = seq<Scope>

  /** Every scope's enclosing scope was created before it, so chains of
      enclosing scopes are finite and acyclic. */
  predicate Wf(arena: Arena) {
    forall i :: 0 <= i < |arena| ==> (arena[i].enclosing.Some? ==> arena[i].enclosing.value < i)
  }

  /** The error `Get` and `Assign` raise for a name no scope holds. */
  function UndefinedVariable(name: Token): RuntimeError {
    RuntimeError(name, "Undefined variable '" + name.lexeme + "'.")
  }

  /** `new Environment(enclosing)`: a fresh, empty scope at the end of the
      arena; everything already there is kept. */
  function NewScope(arena: Arena, enclosing: Option<nat>): (r: (Arena, nat))
    requires Wf(arena) && (enclosing.Some? ==> enclosing.value < |arena|)
    ensures Wf(r.0) && |r.0| == |arena| + 1 && r.1 == |arena|
    ensures r.0[..|arena|] == arena
    ensures r.0[r.1] == Scope(map[], enclosing)
  {
    (arena + [Scope(map[], enclosing)], |arena|)
  }

  /** The scopes a lookup from `e` visits, innermost first: `e`, its
      enclosing scope, that scope's enclosing scope, and so on to a scope
      without one. */
  function Chain(arena: Arena, e: nat): (c: seq<nat>)
    requires Wf(arena) && e < |arena|
    ensures |c| > 0 && c[0] == e
    ensures forall k :: 0 <= k < |c| ==> c[k] < |arena|
    ensures forall k :: 0 <= k < |c| - 1 ==> arena[c[k]].enclosing == Some(c[k + 1])
    ensures arena[c[|c| - 1]].enclosing.None?
    decreases e
  {
    match arena[e].enclosing
    case None => [e]
    case Some(p) => [e] + Chain(arena, p)
  }

  /** Scope `c[k]` of the chain from `e` is the innermost one holding
      `name`. */
  predicate Nearest(arena: Arena, e: nat, name: string, k: nat)
    requires Wf(arena) && e < |arena|
  {
    var c := Chain(arena, e);
    && k < |c|
    && name in arena[c[k]].values
    && forall j :: 0 <= j < k ==> name !in arena[c[j]].values
  }

  /** No scope of the chain from `e` holds `name`. */
  predicate Unbound(arena: Arena, e: nat, name: string)
    requires Wf(arena) && e < |arena|
  {
    var c := Chain(arena, e);
    forall j :: 0 <= j < |c| ==> name !in arena[c[j]].values
  }

  /** `Define`: binds (or rebinds) a name in scope `e` itself. */
  function Define(arena: Arena, e: nat, name: string, value: Value): (r: Arena)
    requires Wf(arena) && e < |arena|
    ensures Wf(r) && |r| == |arena|
    ensures r[e].values == arena[e].values[name := value]
    ensures forall i :: 0 <= i < |arena| && i != e ==> r[i] == arena[i]
    ensures forall i :: 0 <= i < |arena| ==> r[i].enclosing == arena[i].enclosing
  {
    arena[e := arena[e].(values := arena[e].values[name := value])]
  }

  /** `Get`: the value bound to the name in the innermost scope holding it,
      searching outward; an error if none does. */
  function Get(arena: Arena, e: nat, name: Token): (r: Result<Value, RuntimeError>)
    requires Wf(arena) && e < |arena|
    ensures r.Err? ==> r.error == UndefinedVariable(name)
    decreases e
  {
    if name.lexeme in arena[e].values then Ok(arena[e].values[name.lexeme])
    else
      match arena[e].enclosing
      case Some(p) => Get(arena, p, name)
      case None => Err(UndefinedVariable(name))
  }

  /** `Assign`: overwrites the name in the innermost scope holding it; an
      error, and no change, if none does. */
  function Assign(arena: Arena, e: nat, name: Token, value: Value): (r: Result<Arena, RuntimeError>)
    requires Wf(arena) && e < |arena|
    ensures r.Ok? ==> Wf(r.value) && |r.value| == |arena|
    ensures r.Ok? ==> forall i :: 0 <= i < |arena| ==> r.value[i].enclosing == arena[i].enclosing
    ensures r.Ok? ==> forall i :: 0 <= i < |arena| ==> r.value[i].values.Keys == arena[i].values.Keys
    ensures r.Err? ==> r.error == UndefinedVariable(name)
    decreases e
  {
    if name.lexeme in arena[e].values then Ok(Define(arena, e, name.lexeme, value))
    else
      match arena[e].enclosing
      case Some(p) => Assign(arena, p, name, value)
      case None => Err(UndefinedVariable(name))
  }

  /** `Ancestor`: the scope `distance` steps out from `e`. The original
      dereferences a null enclosing environment when the chain is shorter,
      which is `None` here. */
  function Ancestor(arena: Arena, e: nat, distance: nat): (r: Option<nat>)
    requires Wf(arena) && e < |arena|
    ensures r.Some? ==> r.value < |arena|
    decreases distance
  {
    if distance == 0 then Some(e)
    else
      match arena[e].enclosing
      case None => None
      case Some(p) => Ancestor(arena, p, distance - 1)
  }

  /** `GetAt`: reads the name from the scope `distance` steps out; `None`
      where the original fails (no such scope, or a missing key). */
  function GetAt(arena: Arena, e: nat, distance: nat, name: string): (r: Option<Value>)
    requires Wf(arena) && e < |arena|
    ensures r.Some? ==> Ancestor(arena, e, distance).Some?
    ensures Ancestor(arena, e, distance).Some? ==>
              var a := Ancestor(arena, e, distance).value;
              && (r.Some? <==> name in arena[a].values)
              && (r.Some? ==> r.value == arena[a].values[name])
  {
    var a := Ancestor(arena, e, distance);
    if a.Some? && name in arena[a.value].values then Some(arena[a.value].values[name]) else None
  }

  /** `AssignAt`: writes the name into the scope `distance` steps out,
      adding it if it is not there; `None` if there is no such scope. */
  function AssignAt(arena: Arena, e: nat, distance: nat, name: Token, value: Value): (r: Option<Arena>)
    requires Wf(arena) && e < |arena|
    ensures r.Some? <==> Ancestor(arena, e, distance).Some?
    ensures r.Some? ==> Wf(r.value) && |r.value| == |arena|
    ensures r.Some? ==>
              var a := Ancestor(arena, e, distance).value;
              && r.value[a].values == arena[a].values[name.lexeme := value]
              && forall i :: 0 <= i < |arena| && i != a ==> r.value[i] == arena[i]
    ensures r.Some? ==> forall i :: 0 <= i < |arena| ==> r.value[i].enclosing == arena[i].enclosing
  {
    var a := Ancestor(arena, e, distance);
    if a.Some? then Some(Define(arena, a.value, name.lexeme, value)) else None
  }

  // ---------------------------------------------------------------------
  // The chain of a scope, and lookups against it.

  lemma ChainStep(arena: Arena, e: nat, p: nat)
    requires Wf(arena) && e < |arena| && arena[e].enclosing == Some(p)
    ensures Chain(arena, e) == [e] + Chain(arena, p)
    ensures forall j :: 1 <= j < |Chain(arena, e)| ==> Chain(arena, e)[j] == Chain(arena, p)[j - 1]
  {
  }

  /** Nearest holders seen from `e` and from its enclosing scope `p`
      differ by one step. */
  lemma NearestStep(arena: Arena, e: nat, p: nat, name: string, k: nat)
    requires Wf(arena) && e < |arena| && arena[e].enclosing == Some(p)
    requires name !in arena[e].values
    ensures Nearest(arena, e, name, k + 1) <==> Nearest(arena, p, name, k)
  {
    ChainStep(arena, e, p);
    var c, outer := Chain(arena, e), Chain(arena, p);
    if Nearest(arena, p, name, k) {
      forall j | 0 <= j < k + 1
        ensures name !in arena[c[j]].values
      {
        if j > 0 {
          assert c[j] == outer[j - 1];
        }
      }
    }
    if Nearest(arena, e, name, k + 1) {
      forall j | 0 <= j < k
        ensures name !in arena[outer[j]].values
      {
        assert c[j + 1] == outer[j];
      }
    }
  }

  lemma UnboundStep(arena: Arena, e: nat, p: nat, name: string)
    requires Wf(arena) && e < |arena| && arena[e].enclosing == Some(p)
    ensures Unbound(arena, e, name) <==> name !in arena[e].values && Unbound(arena, p, name)
  {
    ChainStep(arena, e, p);
    var c, outer := Chain(arena, e), Chain(arena, p);
    if name !in arena[e].values && Unbound(arena, p, name) {
      forall j | 0 <= j < |c|
        ensures name !in arena[c[j]].values
      {
        if j > 0 {
          assert c[j] == outer[j - 1];
        }
      }
    }
    if Unbound(arena, e, name) {
      assert c[0] == e;
      forall j | 0 <= j < |outer|
        ensures name !in arena[outer[j]].values
      {
        assert c[j + 1] == outer[j];
      }
    }
  }

  /** `Ancestor` walks the chain: it is the chain's element at that
      distance, or `None` past the chain's end. */
  lemma {:induction false} AncestorIsChainElement(arena: Arena, e: nat, distance: nat)
    requires Wf(arena) && e < |arena|
    ensures Ancestor(arena, e, distance)
         == if distance < |Chain(arena, e)| then Some(Chain(arena, e)[distance]) else None
    decreases distance
  {
    if distance > 0 {
      match arena[e].enclosing
      case None =>
      case Some(p) =>
        ChainStep(arena, e, p);
        AncestorIsChainElement(arena, p, distance - 1);
    }
  }

  /** `Get` returns the binding of the innermost scope that holds the
      name. */
  lemma {:induction false} GetFindsNearest(arena: Arena, e: nat, name: Token, k: nat)
    requires Wf(arena) && e < |arena| && Nearest(arena, e, name.lexeme, k)
    ensures Get(arena, e, name) == Ok(arena[Chain(arena, e)[k]].values[name.lexeme])
    decreases e
  {
    if k > 0 {
      var p := arena[e].enclosing.value;
      ChainStep(arena, e, p);
      NearestStep(arena, e, p, name.lexeme, k - 1);
      GetFindsNearest(arena, p, name, k - 1);
    }
  }

  /** `Get` fails exactly when no scope of the chain holds the name. */
  lemma {:induction false} GetFailsWhenUnbound(arena: Arena, e: nat, name: Token)
    requires Wf(arena) && e < |arena|
    ensures Get(arena, e, name).Err? <==> Unbound(arena, e, name.lexeme)
    decreases e
  {
    match arena[e].enclosing
    case None =>
    case Some(p) =>
      UnboundStep(arena, e, p, name.lexeme);
      GetFailsWhenUnbound(arena, p, name);
  }

  /** Either some scope of the chain is the nearest holder, or the name
      is unbound. */
  lemma {:induction false} NearestExists(arena: Arena, e: nat, name: string)
    requires Wf(arena) && e < |arena| && !Unbound(arena, e, name)
    ensures exists k: nat :: Nearest(arena, e, name, k)
    decreases e
  {
    if name in arena[e].values {
      assert Nearest(arena, e, name, 0);
    } else {
      var p := arena[e].enclosing.value;
      UnboundStep(arena, e, p, name);
      NearestExists(arena, p, name);
      var k: nat :| Nearest(arena, p, name, k);
      NearestStep(arena, e, p, name, k);
    }
  }

  /** `GetAt` at the distance of the nearest holder reads what `Get`
      reads: a resolved distance gives the dynamic lookup's answer. */
  lemma GetAtAgreesWithGet(arena: Arena, e: nat, name: Token, k: nat)
    requires Wf(arena) && e < |arena| && Nearest(arena, e, name.lexeme, k)
    ensures GetAt(arena, e, k, name.lexeme).Some?
    ensures Get(arena, e, name) == Ok(GetAt(arena, e, k, name.lexeme).value)
  {
    AncestorIsChainElement(arena, e, k);
    GetFindsNearest(arena, e, name, k);
  }

  /** `GetAt` looks in the one scope the distance names and nowhere
      else: when that scope lacks the name it fails, even though an outer
      scope holds the name and `Get` finds it there. */
  lemma GetAtDoesNotSearchOutward(name: Token, value: Value)
    ensures var arena := [Scope(map[name.lexeme := value], None), Scope(map[], Some(0))];
            && Wf(arena)
            && GetAt(arena, 1, 0, name.lexeme).None?
            && Get(arena, 1, name) == Ok(value)
  {
    var arena := [Scope(map[name.lexeme := value], None), Scope(map[], Some(0))];
    assert Ancestor(arena, 1, 0) == Some(1);
  }

  /** `Assign` succeeds exactly when `Get` does, and then it rebinds the
      name in the nearest scope holding it and changes nothing else. */
  lemma {:induction false} AssignUpdatesNearest(arena: Arena, e: nat, name: Token, value: Value, k: nat)
    requires Wf(arena) && e < |arena| && Nearest(arena, e, name.lexeme, k)
    ensures Assign(arena, e, name, value) == Ok(Define(arena, Chain(arena, e)[k], name.lexeme, value))
    decreases e
  {
    if k > 0 {
      var p := arena[e].enclosing.value;
      ChainStep(arena, e, p);
      NearestStep(arena, e, p, name.lexeme, k - 1);
      AssignUpdatesNearest(arena, p, name, value, k - 1);
    }
  }

  lemma {:induction false} AssignFailsWhenUnbound(arena: Arena, e: nat, name: Token, value: Value)
    requires Wf(arena) && e < |arena|
    ensures Assign(arena, e, name, value).Err? <==> Unbound(arena, e, name.lexeme)
    decreases e
  {
    match arena[e].enclosing
    case None =>
    case Some(p) =>
      UnboundStep(arena, e, p, name.lexeme);
      AssignFailsWhenUnbound(arena, p, name, value);
  }

  /** The chain from `e` depends only on the enclosing links of the
      scopes up to `e`: overwriting values and appending scopes keep it. */
  lemma {:induction false} ChainDependsOnLinks(arena: Arena, later: Arena, e: nat)
    requires Wf(arena) && Wf(later) && e < |arena| <= |later|
    requires forall i :: 0 <= i < |arena| ==> later[i].enclosing == arena[i].enclosing
    ensures Chain(later, e) == Chain(arena, e)
    decreases e
  {
    match arena[e].enclosing
    case None =>
    case Some(p) => ChainDependsOnLinks(arena, later, p);
  }

  /** A name just defined in a scope shadows every outer binding. */
  lemma DefineThenGet(arena: Arena, e: nat, name: Token, value: Value)
    requires Wf(arena) && e < |arena|
    ensures Get(Define(arena, e, name.lexeme, value), e, name) == Ok(value)
  {
  }

  /** After a successful assignment, reading the name gives the new
      value. */
  lemma AssignThenGet(arena: Arena, e: nat, name: Token, value: Value)
    requires Wf(arena) && e < |arena| && Get(arena, e, name).Ok?
    ensures Assign(arena, e, name, value).Ok?
    ensures Get(Assign(arena, e, name, value).value, e, name) == Ok(value)
  {
    GetFailsWhenUnbound(arena, e, name);
    NearestExists(arena, e, name.lexeme);
    var k: nat :| Nearest(arena, e, name.lexeme, k);
    SharedScopeSeesAssignment(arena, e, e, name, value, k, k);
  }

  /** Environments are shared: when two scopes reach the same nearest
      holder of a name (a closure and the block it was made in, say), an
      assignment through one is seen by a read through the other. */
  lemma SharedScopeSeesAssignment(arena: Arena, e1: nat, e2: nat, name: Token, value: Value, k1: nat, k2: nat)
    requires Wf(arena) && e1 < |arena| && e2 < |arena|
    requires Nearest(arena, e1, name.lexeme, k1) && Nearest(arena, e2, name.lexeme, k2)
    requires Chain(arena, e1)[k1] == Chain(arena, e2)[k2]
    ensures Assign(arena, e1, name, value).Ok?
    ensures Get(Assign(arena, e1, name, value).value, e2, name) == Ok(value)
  {
    var j := Chain(arena, e1)[k1];
    AssignUpdatesNearest(arena, e1, name, value, k1);
    var later := Define(arena, j, name.lexeme, value);
    ChainDependsOnLinks(arena, later, e2);
    var c := Chain(arena, e2);
    forall i | 0 <= i < k2
      ensures name.lexeme !in later[c[i]].values
    {
      assert c[i] != j;
    }
    assert Nearest(later, e2, name.lexeme, k2);
    GetFindsNearest(later, e2, name, k2);
  }

  /** Defining a name leaves every other name's lookup unchanged. */
  lemma {:induction false} DefineLeavesOtherNames(arena: Arena, e: nat, d: nat, name: string, value: Value, other: Token)
    requires Wf(arena) && e < |arena| && d < |arena| && other.lexeme != name
    ensures Get(Define(arena, d, name, value), e, other) == Get(arena, e, other)
    decreases e
  {
    match arena[e].enclosing
    case None =>
    case Some(p) => DefineLeavesOtherNames(arena, p, d, name, value, other);
  }

  /** Lookups from an existing scope do not see scopes appended later. */
  lemma {:induction false} GetIgnoresAppend(arena: Arena, later: Arena, e: nat, name: Token)
    requires Wf(arena) && Wf(later) && e < |arena| <= |later| && later[..|arena|] == arena
    ensures Get(later, e, name) == Get(arena, e, name)
    decreases e
  {
    assert later[e] == arena[e];
    match arena[e].enclosing
    case None =>
    case Some(p) => GetIgnoresAppend(arena, later, p, name);
  }

  /** `AssignAt` succeeds exactly when the chain reaches that far, and a
      `GetAt` at the same distance then reads the assigned value back. */
  lemma AssignAtThenGetAt(arena: Arena, e: nat, distance: nat, name: Token, value: Value)
    requires Wf(arena) && e < |arena|
    ensures AssignAt(arena, e, distance, name, value).Some? <==> distance < |Chain(arena, e)|
    ensures AssignAt(arena, e, distance, name, value).Some? ==>
              GetAt(AssignAt(arena, e, distance, name, value).value, e, distance, name.lexeme) == Some(value)
  {
    AncestorIsChainElement(arena, e, distance);
    var r := AssignAt(arena, e, distance, name, value);
    if r.Some? {
      ChainDependsOnLinks(arena, r.value, e);
      AncestorIsChainElement(r.value, e, distance);
    }
  }
}

=== FILE: interpreter.dfy ===
/** The tree-walking interpreter: evaluation of the expression kinds and
    execution of the statement kinds it has visitors for. Its mutable
    fields (the current environment, the console) are threaded through a
    `State`; a thrown `RuntimeException` is an `Err` result. */
module Interpreter {
  import opened Wrappers
  import opened Tokens
  import opened Ast
  import opened Values
  import Env = Environment

  /** The environment arena, the index of the current environment, and the
      lines printed so far. */
  datatype State = State(arena: Env.Arena, env: nat, out: seq<string>)

  predicate Good(st: State) {
    Env.Wf(st.arena) && st.env < |st.arena|
  }

  /** The expression kinds the interpreter has a visitor for. */
  predicate InterpretableExpr(e: Expr) {
    match e
    case Assign(_, _, value) => InterpretableExpr(value)
    case Binary(left, _, right) => InterpretableExpr(left) && InterpretableExpr(right)
    case Conditional(c, t, f) => InterpretableExpr(c) && InterpretableExpr(t) && InterpretableExpr(f)
    case Grouping(inner) => InterpretableExpr(inner)
    case Literal(_) => true
    case Unary(_, right) => InterpretableExpr(right)
    case Variable(_, _) => true
    case _ => false
  }

  /** The statement kinds the interpreter has a visitor for. */
  predicate InterpretableStmt(s: Stmt) {
    match s
    case Block(statements) => forall k :: 0 <= k < |statements| ==> InterpretableStmt(statements[k])
    case Expression(e) => InterpretableExpr(e)
    case Print(e) => InterpretableExpr(e)
    case Var(_, init) => init.Some? ==> InterpretableExpr(init.value)
    case _ => false
  }

  predicate AllInterpretable(stmts: seq<Stmt>) {
    forall k :: 0 <= k < |stmts| ==> InterpretableStmt(stmts[k])
  }

  /** Evaluation keeps the arena's shape: no scope is created, no link and
      no set of names changes (only values are overwritten). */
  predicate SameShape(a: Env.Arena, b: Env.Arena) {
    && |b| == |a|
    && forall i :: 0 <= i < |a| ==> b[i].enclosing == a[i].enclosing && b[i].values.Keys == a[i].values.Keys
  }

  /** What executing statements with `active` as the current environment
      may do to the arena and the output: append scopes, add names to the
      active scope only, and append output lines. */
  predicate Evolves(st: State, after: State, active: nat)
    requires active < |st.arena|
  {
    && |after.arena| >= |st.arena|
    && (forall i :: 0 <= i < |st.arena| ==> after.arena[i].enclosing == st.arena[i].enclosing)
    && (forall i :: 0 <= i < |st.arena| && i != active ==> after.arena[i].values.Keys == st.arena[i].values.Keys)
    && st.arena[active].values.Keys <= after.arena[active].values.Keys
    && st.out <= after.out
  }

  const ArithmeticOps: set<TokenType> := {Minus, Slash, Star}
  const ComparisonOps: set<TokenType> := {Greater, GreaterEqual, Less, LessEqual}

  /** `CheckNumberOperand` */
  function CheckNumberOperand(op: Token, operand: Value): (r: Result<Num, RuntimeError>)
    ensures r.Ok? <==> operand.NumVal?
    ensures r.Ok? ==> r.value == operand.n
    ensures r.Err? ==> r.error == RuntimeError(op, "Operand must be a number")
  {
    if operand.NumVal? then Ok(operand.n) else Err(RuntimeError(op, "Operand must be a number"))
  }

  /** `CheckNumberOperands` */
  function CheckNumberOperands(op: Token, left: Value, right: Value): (r: Result<(Num, Num), RuntimeError>)
    ensures r.Ok? <==> left.NumVal? && right.NumVal?
    ensures r.Ok? ==> r.value == (left.n, right.n)
    ensures r.Err? ==> r.error == RuntimeError(op, "Operands must be numbers")
  {
    if left.NumVal? && right.NumVal? then Ok((left.n, right.n))
    else Err(RuntimeError(op, "Operands must be numbers"))
  }

  /** `StringOrDouble` as `+` uses it: numbers add, strings concatenate,
      anything else is an error. There is no conversion between the two. */
  function StringOrDouble(ops: NumOps, op: Token, left: Value, right: Value): (r: Result<Value, RuntimeError>)
    ensures r.Ok? <==> (left.NumVal? && right.NumVal?) || (left.StrVal? && right.StrVal?)
    ensures left.StrVal? && right.StrVal? ==> r == Ok(StrVal(left.s + right.s))
    ensures left.NumVal? && right.NumVal? ==> r == Ok(NumVal(ops.add(left.n, right.n)))
    ensures r.Err? ==> r.error == RuntimeError(op, "Operands must be two numbers or two strings")
  {
    if left.NumVal? && right.NumVal? then Ok(NumVal(ops.add(left.n, right.n)))
    else if left.StrVal? && right.StrVal? then Ok(StrVal(left.s + right.s))
    else Err(RuntimeError(op, "Operands must be two numbers or two strings"))
  }

  /** The operator switch of `VisitBinaryExpr`, after both operands are
      evaluated. */
  function BinaryOp(ops: NumOps, op: Token, left: Value, right: Value): (r: Result<Value, RuntimeError>)
    ensures op.kind in ArithmeticOps + ComparisonOps ==>
              && (r.Ok? <==> left.NumVal? && right.NumVal?)
              && (r.Err? ==> r.error == RuntimeError(op, "Operands must be numbers"))
    ensures op.kind in ComparisonOps && r.Ok? ==> r.value.BoolVal?
    ensures op.kind in ArithmeticOps && r.Ok? ==> r.value.NumVal?
    ensures op.kind == Plus ==> r == StringOrDouble(ops, op, left, right)
    ensures op.kind in {BangEqual, EqualEqual} ==> r.Ok? && r.value.BoolVal?
    ensures op.kind !in ArithmeticOps + ComparisonOps + {Plus} ==> r.Ok?
    ensures op.kind == Comma ==> r == Ok(right)
  {
    match op.kind
    case Plus => StringOrDouble(ops, op, left, right)
    case Minus => var ns :- CheckNumberOperands(op, left, right); Ok(NumVal(ops.sub(ns.0, ns.1)))
    case Slash => var ns :- CheckNumberOperands(op, left, right); Ok(NumVal(ops.div(ns.0, ns.1)))
    case Star => var ns :- CheckNumberOperands(op, left, right); Ok(NumVal(ops.mul(ns.0, ns.1)))
    case Greater => var ns :- CheckNumberOperands(op, left, right); Ok(BoolVal(ops.greater(ns.0, ns.1)))
    case GreaterEqual => var ns :- CheckNumberOperands(op, left, right); Ok(BoolVal(ops.greaterEq(ns.0, ns.1)))
    case Less => var ns :- CheckNumberOperands(op, left, right); Ok(BoolVal(ops.less(ns.0, ns.1)))
    case LessEqual => var ns :- CheckNumberOperands(op, left, right); Ok(BoolVal(ops.lessEq(ns.0, ns.1)))
    case BangEqual => Ok(BoolVal(!IsEqual(ops, left, right)))
    case EqualEqual => Ok(BoolVal(IsEqual(ops, left, right)))
    case Comma => Ok(right)
    case _ => Ok(NilVal)
  }

  /** The operator switch of `VisitUnaryExpr`. */
  function UnaryOp(ops: NumOps, op: Token, right: Value): (r: Result<Value, RuntimeError>)
    ensures op.kind == Minus ==> (r.Ok? <==> right.NumVal?)
    ensures op.kind == Minus && r.Ok? ==> r.value == NumVal(ops.neg(right.n))
    ensures op.kind == Minus && r.Err? ==> r.error == RuntimeError(op, "Operand must be a number")
    ensures op.kind != Minus ==> r.Ok?
  {
    match op.kind
    case Minus => var n :- CheckNumberOperand(op, right); Ok(NumVal(ops.neg(n)))
    case Bang => Ok(BoolVal(!IsTruthy(right)))
    case _ => Ok(NilVal)
  }

  /** `Evaluate`: the value of an expression, and the state after it.
      Expressions never create scopes, declare names or print. */
  function Evaluate(ops: NumOps, st: State, e: Expr): (r: (State, Result<Value, RuntimeError>))
    requires Good(st) && InterpretableExpr(e)
    ensures Good(r.0) && r.0.env == st.env && r.0.out == st.out
    ensures SameShape(st.arena, r.0.arena)
    decreases e
  {
    match e
    case Assign(_, name, value) =>
      var (st1, v) := Evaluate(ops, st, value);
      if v.Err? then (st1, v)
      else
        var a := Env.Assign(st1.arena, st1.env, name, v.value);
        if a.Err? then (st1, Err(a.error)) else (st1.(arena := a.value), v)
    case Binary(left, op, right) =>
      var (st1, l) := Evaluate(ops, st, left);
      if l.Err? then (st1, l)
      else
        var (st2, r) := Evaluate(ops, st1, right);
        if r.Err? then (st2, r) else (st2, BinaryOp(ops, op, l.value, r.value))
    case Conditional(c, t, f) =>
      var (st1, cv) := Evaluate(ops, st, c);
      if cv.Err? then (st1, cv)
      else if IsTruthy(cv.value) then Evaluate(ops, st1, t)
      else Evaluate(ops, st1, f)
    case Grouping(inner) => Evaluate(ops, st, inner)
    case Literal(lit) => (st, Ok(FromLiteral(lit)))
    case Unary(op, right) =>
      var (st1, v) := Evaluate(ops, st, right);
      if v.Err? then (st1, v) else (st1, UnaryOp(ops, op, v.value))
    case Variable(_, name) => (st, Env.Get(st.arena, st.env, name))
  }

  /** `Execute`: runs one statement. The current environment is the same
      afterwards, whatever happened; only the current scope gains names. */
  function Execute(ops: NumOps, st: State, s: Stmt): (r: (State, Option<RuntimeError>))
    requires Good(st) && InterpretableStmt(s)
    ensures Good(r.0) && r.0.env == st.env
    ensures Evolves(st, r.0, st.env)
    decreases s
  {
    match s
    case Block(statements) =>
      var (arena1, scope) := Env.NewScope(st.arena, Some(st.env));
      var r := ExecuteBlock(ops, st.(arena := arena1), statements, scope);
      assert Evolves(st.(arena := arena1), r.0, scope);
      r
    case Expression(e) =>
      var (st1, v) := Evaluate(ops, st, e);
      (st1, if v.Err? then Some(v.error) else None)
    case Print(e) =>
      var (st1, v) := Evaluate(ops, st, e);
      if v.Err? then (st1, Some(v.error))
      else (st1.(out := st1.out + [Stringify(ops, v.value)]), None)
    case Var(name, init) =>
      var (st1, v) :=
        if init.Some? then Evaluate(ops, st, init.value) else (st, Ok(NilVal));
      if v.Err? then (st1, Some(v.error))
      else (st1.(arena := Env.Define(st1.arena, st1.env, name.lexeme, v.value)), None)
  }

  /** `ExecuteBlock`: runs the statements with `scope` as the current
      environment and restores the previous one afterwards, also when a
      statement fails (the original's `finally`). */
  function ExecuteBlock(ops: NumOps, st: State, stmts: seq<Stmt>, scope: nat): (r: (State, Option<RuntimeError>))
    requires Good(st) && scope < |st.arena| && AllInterpretable(stmts)
    ensures Good(r.0) && r.0.env == st.env
    ensures Evolves(st, r.0, scope)
    decreases stmts, 1
  {
    var (st1, err) := ExecuteAll(ops, st.(env := scope), stmts);
    (st1.(env := st.env), err)
  }

  /** The statement loop: runs the statements in order and stops at the
      first one that fails. */
  function ExecuteAll(ops: NumOps, st: State, stmts: seq<Stmt>): (r: (State, Option<RuntimeError>))
    requires Good(st) && AllInterpretable(stmts)
    ensures Good(r.0) && r.0.env == st.env
    ensures Evolves(st, r.0, st.env)
    decreases stmts, 0
  {
    if stmts == [] then (st, None)
    else
      var (st1, err) := Execute(ops, st, stmts[0]);
      if err.Some? then (st1, err)
      else
        var r := ExecuteAll(ops, st1, stmts[1..]);
        EvolvesTrans(st, st1, r.0, st.env);
        r
  }

  lemma EvolvesTrans(st: State, st1: State, st2: State, active: nat)
    requires active < |st.arena| && Evolves(st, st1, active) && Evolves(st1, st2, active)
    ensures Evolves(st, st2, active)
  {
  }

  /** `Interpret`: runs a program in the global environment; a runtime
      error ends the run and is reported. */
  function Interpret(ops: NumOps, st: State, stmts: seq<Stmt>): (r: (State, Option<RuntimeError>))
    requires Good(st) && AllInterpretable(stmts)
    ensures Good(r.0) && r.0.env == st.env && st.out <= r.0.out
  {
    ExecuteAll(ops, st, stmts)
  }

  // ---------------------------------------------------------------------
  // Properties of evaluation and execution.

  /** `!=` is the negation of `==`, on every pair of values. */
  lemma NotEqualNegatesEqual(ops: NumOps, ne: Token, eq: Token, left: Value, right: Value)
    requires ne.kind == BangEqual && eq.kind == EqualEqual
    ensures BinaryOp(ops, ne, left, right) == Ok(BoolVal(!BinaryOp(ops, eq, left, right).value.b))
  {
  }

  /** Arithmetic and comparison never look at non-numbers: mixing a
      string into `-` is an error even when `+` would accept it. */
  lemma OnlyPlusConcatenates(ops: NumOps, op: Token, a: string, b: string)
    requires op.kind in ArithmeticOps + ComparisonOps
    ensures BinaryOp(ops, op, StrVal(a), StrVal(b)) == Err(RuntimeError(op, "Operands must be numbers"))
    ensures BinaryOp(ops, op.(kind := Plus), StrVal(a), StrVal(b)) == Ok(StrVal(a + b))
  {
  }

  /** `!!x` is the truthiness of `x`. */
  lemma DoubleBang(ops: NumOps, bang: Token, v: Value)
    requires bang.kind == Bang
    ensures UnaryOp(ops, bang, UnaryOp(ops, bang, v).value) == Ok(BoolVal(IsTruthy(v)))
  {
  }

  /** The conditional operator evaluates only the branch it picks: the
      other branch's effects and errors never happen. */
  lemma ConditionalIgnoresOtherBranch(ops: NumOps, st: State, c: Expr, t: Expr, f: Expr, other: Expr)
    requires Good(st) && InterpretableExpr(Conditional(c, t, f)) && InterpretableExpr(other)
    ensures var cv := Evaluate(ops, st, c).1;
            cv.Ok? && IsTruthy(cv.value) ==>
              Evaluate(ops, st, Conditional(c, t, f)) == Evaluate(ops, st, Conditional(c, t, other))
    ensures var cv := Evaluate(ops, st, c).1;
            cv.Ok? && !IsTruthy(cv.value) ==>
              Evaluate(ops, st, Conditional(c, t, f)) == Evaluate(ops, st, Conditional(c, other, f))
  {
  }

  /** The comma operator evaluates both sides in order and yields the
      right one, so the left side's assignments are visible on the
      right. */
  lemma CommaKeepsLeftEffects(ops: NumOps, st: State, comma: Token, left: Expr, right: Expr)
    requires Good(st) && comma.kind == Comma && InterpretableExpr(left) && InterpretableExpr(right)
    requires Evaluate(ops, st, left).1.Ok?
    ensures Evaluate(ops, st, Binary(left, comma, right)) == Evaluate(ops, Evaluate(ops, st, left).0, right)
  {
    var (st1, l) := Evaluate(ops, st, left);
    var (st2, r) := Evaluate(ops, st1, right);
    assert Evaluate(ops, st, Binary(left, comma, right))
        == if r.Err? then (st2, r) else (st2, BinaryOp(ops, comma, l.value, r.value));
  }

  /** An assignment evaluates to the assigned value, and reading the
      variable right after gives that value. */
  lemma AssignThenRead(ops: NumOps, st: State, id: nat, name: Token, value: Expr, readId: nat)
    requires Good(st) && InterpretableExpr(value)
    ensures var (st1, r) := Evaluate(ops, st, Assign(id, name, value));
            r.Ok? ==> r == Evaluate(ops, st, value).1 && Evaluate(ops, st1, Variable(readId, name)) == (st1, r)
  {
    var (st0, v) := Evaluate(ops, st, value);
    if v.Ok? {
      var a := Env.Assign(st0.arena, st0.env, name, v.value);
      if a.Ok? {
        Env.AssignFailsWhenUnbound(st0.arena, st0.env, name, v.value);
        Env.GetFailsWhenUnbound(st0.arena, st0.env, name);
        Env.AssignThenGet(st0.arena, st0.env, name, v.value);
      }
    }
  }

  /** Assigning to a name no scope holds is the error "Undefined
      variable", raised after the right-hand side is evaluated. */
  lemma AssignToUndefinedFails(ops: NumOps, st: State, id: nat, name: Token, value: Expr)
    requires Good(st) && InterpretableExpr(value)
    requires Evaluate(ops, st, value).1.Ok?
    requires Env.Unbound(Evaluate(ops, st, value).0.arena, st.env, name.lexeme)
    ensures Evaluate(ops, st, Assign(id, name, value)) == (Evaluate(ops, st, value).0, Err(Env.UndefinedVariable(name)))
  {
    var (st0, v) := Evaluate(ops, st, value);
    Env.AssignFailsWhenUnbound(st0.arena, st0.env, name, v.value);
  }

  /** `var x;` binds `x` to nil in the current scope. */
  lemma VarWithoutInitializerIsNil(ops: NumOps, st: State, name: Token)
    requires Good(st)
    ensures Execute(ops, st, Stmt.Var(name, None)).1.None?
    ensures Env.Get(Execute(ops, st, Stmt.Var(name, None)).0.arena, st.env, name) == Ok(NilVal)
  {
    Env.DefineThenGet(st.arena, st.env, name, NilVal);
  }

  /** `print` writes exactly one line, the value's text, after whatever
      was printed before. */
  lemma PrintWritesOneLine(ops: NumOps, st: State, e: Expr)
    requires Good(st) && InterpretableExpr(e) && Evaluate(ops, st, e).1.Ok?
    ensures Execute(ops, st, Stmt.Print(e)).0.out == st.out + [Stringify(ops, Evaluate(ops, st, e).1.value)]
    ensures Execute(ops, st, Stmt.Print(e)).1.None?
  {
  }

  /** A block declares nothing outside itself: every existing scope keeps
      its set of names, so a name unbound before the block is unbound
      after it. */
  lemma BlockDeclarationsDoNotLeak(ops: NumOps, st: State, statements: seq<Stmt>, name: string)
    requires Good(st) && InterpretableStmt(Block(statements))
    ensures var after := Execute(ops, st, Block(statements)).0;
            forall i :: 0 <= i < |st.arena| ==> after.arena[i].values.Keys == st.arena[i].values.Keys
    ensures var after := Execute(ops, st, Block(statements)).0;
            Env.Unbound(st.arena, st.env, name) ==> Env.Unbound(after.arena, st.env, name)
  {
    var after := Execute(ops, st, Block(statements)).0;
    var (arena1, scope) := Env.NewScope(st.arena, Some(st.env));
    assert Evolves(st.(arena := arena1), after, scope);
    Env.ChainDependsOnLinks(st.arena, after.arena, st.env);
  }

  /** The scope a block runs in: a fresh, empty scope appended to the
      arena, enclosed by the current environment. */
  function BlockEntry(st: State): (inner: State)
    requires Good(st)
    ensures Good(inner) && inner.env == |st.arena| && inner.out == st.out
    ensures inner.arena[..|st.arena|] == st.arena
    ensures inner.arena[inner.env] == Env.Scope(map[], Some(st.env))
  {
    st.(arena := st.arena + [Env.Scope(map[], Some(st.env))], env := |st.arena|)
  }

  /** A block runs its statements in a fresh child of the current
      environment: on entry every name reads as it does outside, and
      afterwards the current environment is the outer one again. */
  lemma BlockRunsInChildScope(ops: NumOps, st: State, statements: seq<Stmt>)
    requires Good(st) && InterpretableStmt(Block(statements))
    ensures var inner := ExecuteAll(ops, BlockEntry(st), statements);
            Execute(ops, st, Block(statements)) == (inner.0.(env := st.env), inner.1)
    ensures forall name: Token :: Env.Get(BlockEntry(st).arena, BlockEntry(st).env, name) == Env.Get(st.arena, st.env, name)
  {
    var inner := BlockEntry(st);
    forall name: Token
      ensures Env.Get(inner.arena, inner.env, name) == Env.Get(st.arena, st.env, name)
    {
      Env.GetIgnoresAppend(st.arena, inner.arena, st.env, name);
    }
  }

  /** `var a = 1; { print a; }` prints 1: a block reads the names of the
      environment around it. */
  lemma BlockSeesEnclosingScope(ops: NumOps, st: State, id: nat, name: Token)
    requires Good(st) && Env.Get(st.arena, st.env, name).Ok?
    ensures var r := Execute(ops, st, Block([Stmt.Print(Variable(id, name))]));
            && r.1.None?
            && r.0.out == st.out + [Stringify(ops, Env.Get(st.arena, st.env, name).value)]
  {
    var ss := [Stmt.Print(Variable(id, name))];
    assert InterpretableStmt(ss[0]);
    BlockRunsInChildScope(ops, st, ss);
    var inner := BlockEntry(st);
    assert ss[1..] == [];
    assert ExecuteAll(ops, inner, ss) == Execute(ops, inner, ss[0]);
  }

  /** `var x = e;` binds `x`, in the current scope, to the value of `e`;
      when `e` fails nothing is bound and its error is the statement's. */
  lemma VarBindsInitializer(ops: NumOps, st: State, name: Token, e: Expr)
    requires Good(st) && InterpretableExpr(e)
    ensures var r := Execute(ops, st, Stmt.Var(name, Some(e)));
            var v := Evaluate(ops, st, e);
            && (r.1.None? <==> v.1.Ok?)
            && (v.1.Ok? ==> Env.Get(r.0.arena, st.env, name) == Ok(v.1.value))
            && (v.1.Ok? ==> r.0.arena[st.env].values == v.0.arena[st.env].values[name.lexeme := v.1.value])
            && (v.1.Err? ==> r == (v.0, Some(v.1.error)))
  {
    var (st1, v) := Evaluate(ops, st, e);
    if v.Ok? {
      Env.DefineThenGet(st1.arena, st.env, name, v.value);
    }
  }

  /** Statements after a failing one do not run: once a prefix of the
      program fails, whatever follows it leaves the result unchanged. */
  lemma {:induction false} ErrorStopsExecution(ops: NumOps, st: State, ss: seq<Stmt>, rest: seq<Stmt>)
    requires Good(st) && AllInterpretable(ss) && AllInterpretable(rest)
    requires ExecuteAll(ops, st, ss).1.Some?
    ensures AllInterpretable(ss + rest)
    ensures ExecuteAll(ops, st, ss + rest) == ExecuteAll(ops, st, ss)
    decreases |ss|
  {
    assert ss != [];
    assert (ss + rest)[0] == ss[0];
    assert (ss + rest)[1..] == ss[1..] + rest;
    var (st1, err) := Execute(ops, st, ss[0]);
    if err.None? {
      ErrorStopsExecution(ops, st1, ss[1..], rest);
    }
  }

  /** Running two pieces of a program one after the other is running the
      whole: when a prefix succeeds, the rest starts from the state it
      left. */
  lemma {:induction false} ExecuteAllSequences(ops: NumOps, st: State, ss: seq<Stmt>, rest: seq<Stmt>)
    requires Good(st) && AllInterpretable(ss) && AllInterpretable(rest)
    requires ExecuteAll(ops, st, ss).1.None?
    ensures AllInterpretable(ss + rest)
    ensures ExecuteAll(ops, st, ss + rest) == ExecuteAll(ops, ExecuteAll(ops, st, ss).0, rest)
    decreases |ss|
  {
    if ss == [] {
      assert ss + rest == rest;
    } else {
      assert (ss + rest)[0] == ss[0];
      assert (ss + rest)[1..] == ss[1..] + rest;
      var st1 := Execute(ops, st, ss[0]).0;
      ExecuteAllSequences(ops, st1, ss[1..], rest);
    }
  }
}

=== FILE: keywords.dfy ===
/** The reserved-identifier table the scanner consults for every identifier. */
module Keywords {
  import opened Wrappers
  import opened Tokens

  /** The keyword table: spelling to token kind. */
  const Reserved: map<string, TokenType> := map[
    "and" := And,
    "class" := Class,
    "else" := Else,
    "false" := False,
    "for" := For,
    "fun" := Fun,
    "if" := If,
    "nil" := Nil,
    "or" := Or,
    "print" := Print,
    "return" := Return,
    "super" := Super,
    "this" := This,
    "true" := True,
    "var" := Var,
    "while" := While,
    "break" := Break
  ]

  /** The seventeen keyword token kinds. */
  const KeywordKinds: set<TokenType> := {And, Class, Else, False, For, Fun, If, Nil, Or, Print, Return, Super, This, True, Var, While, Break}

  predicate IsLowerWord(s: string) {
    |s| > 0 && forall i :: 0 <= i < |s| ==> 'a' <= s[i] <= 'z'
  }

  /** Exact, case-sensitive lookup: the table uses the default string comparer. */
  function Lookup(text: string): (r: Option<TokenType>)
    ensures r.Some? ==> r.value in KeywordKinds && IsLowerWord(text)
    ensures r.None? ==> forall k :: k in Reserved ==> k != text
  {
    if text in Reserved then Some(Reserved[text]) else None
  }

  /** The spelling of a keyword kind; the inverse of the table. */
  function Spelling(kind: TokenType): (r: Option<string>)
  {
    match kind
    case And => Some("and")
    case Class => Some("class")
    case Else => Some("else")
    case False => Some("false")
    case For => Some("for")
    case Fun => Some("fun")
    case If => Some("if")
    case Nil => Some("nil")
    case Or => Some("or")
    case Print => Some("print")
    case Return => Some("return")
    case Super => Some("super")
    case This => Some("this")
    case True => Some("true")
    case Var => Some("var")
    case While => Some("while")
    case Break => Some("break")
    case _ => None
  }

  /** Every key of the table is one of the seventeen spellings. */
  lemma ReservedKeys()
    ensures forall k :: k in Reserved ==>
            k == "and" || k == "class" || k == "else" || k == "false" || k == "for" ||
            k == "fun" || k == "if" || k == "nil" || k == "or" || k == "print" ||
            k == "return" || k == "super" || k == "this" || k == "true" || k == "var" ||
            k == "while" || k == "break"
  {
  }

  // The table's entries, one per line of the original table, in groups.
  lemma ReservedEntries0()
    ensures Reserved["and"] == And
    ensures Reserved["class"] == Class
    ensures Reserved["else"] == Else
  {
  }

  lemma ReservedEntries1()
    ensures Reserved["false"] == False
    ensures Reserved["for"] == For
    ensures Reserved["fun"] == Fun
  {
  }

  lemma ReservedEntries2()
    ensures Reserved["if"] == If
    ensures Reserved["nil"] == Nil
    ensures Reserved["or"] == Or
    ensures Reserved["print"] == Print
  {
  }

  lemma ReservedEntries3()
    ensures Reserved["return"] == Return
    ensures Reserved["super"] == Super
    ensures Reserved["this"] == This
    ensures Reserved["true"] == True
    ensures Reserved["var"] == Var
    ensures Reserved["while"] == While
    ensures Reserved["break"] == Break
  {
  }

  /** Each entry of the table is spelled as its kind's spelling. */
  lemma SpellingOfEntries()
    ensures forall k :: k in Reserved ==> Spelling(Reserved[k]) == Some(k)
  {
    ReservedKeys();
    ReservedEntries0();
    ReservedEntries1();
    ReservedEntries2();
    ReservedEntries3();
  }

  /** Every keyword kind's spelling is in the table, under that kind. */
  lemma EntriesOfSpelling(kind: TokenType)
    requires Spelling(kind).Some?
    ensures Spelling(kind).value in Reserved && Reserved[Spelling(kind).value] == kind
  {
    ReservedEntries0();
    ReservedEntries1();
    ReservedEntries2();
    ReservedEntries3();
  }

  /** Lookup and Spelling are inverse: the table is injective, and every
      keyword kind has exactly one spelling. */
  lemma LookupSpellingRoundTrip(text: string, kind: TokenType)
    ensures Lookup(text) == Some(kind) <==> Spelling(kind) == Some(text)
  {
    SpellingOfEntries();
    if Spelling(kind) == Some(text) {
      EntriesOfSpelling(kind);
    }
  }

  /** The keyword kinds in four groups, to count them a group at a time. */
  function KeywordGroup(g: nat): set<TokenType> {
    match g
    case 0 => {And, Class, Else, False}
    case 1 => {For, Fun, If, Nil}
    case 2 => {Or, Print, Return, Super}
    case _ => {This, True, Var, While, Break}
  }

  lemma GroupSize(g: nat)
    ensures |KeywordGroup(g)| == if g < 3 then 4 else 5
  {
  }

  lemma GroupsPartitionKinds()
    ensures KeywordKinds == KeywordGroup(0) + KeywordGroup(1) + KeywordGroup(2) + KeywordGroup(3)
    ensures KeywordGroup(0) * KeywordGroup(1) == {}
    ensures (KeywordGroup(0) + KeywordGroup(1)) * KeywordGroup(2) == {}
    ensures (KeywordGroup(0) + KeywordGroup(1) + KeywordGroup(2)) * KeywordGroup(3) == {}
  {
  }

  lemma KeywordKindsCount()
    ensures |KeywordKinds| == 17
  {
    GroupSize(0);
    GroupSize(1);
    GroupSize(2);
    GroupSize(3);
    GroupsPartitionKinds();
  }

  /** The table's values are exactly the seventeen keyword kinds. */
  lemma ReservedValues()
    ensures Reserved.Values == KeywordKinds
  {
    SpellingOfEntries();
    forall v | v in Reserved.Values
      ensures v in KeywordKinds
    {
      var k :| k in Reserved && Reserved[k] == v;
    }
    forall v | v in KeywordKinds
      ensures v in Reserved.Values
    {
      EntriesOfSpelling(v);
    }
  }

  /** The table holds exactly seventeen keywords. */
  lemma ReservedSize()
    ensures |Reserved| == 17
  {
    ReservedValues();
    ReservedInjective();
    KeywordKindsCount();
    CardFromValues(Reserved);
  }

  lemma CardFromValues(m: map<string, TokenType>)
    requires |m.Values| == 17
    requires forall a, b :: a in m && b in m && a != b ==> m[a] != m[b]
    ensures |m| == 17
  {
    InjectiveCard(m);
  }

  /** Distinct keywords map to distinct token kinds. */
  lemma ReservedInjective()
    ensures forall a, b :: a in Reserved && b in Reserved && a != b ==> Reserved[a] != Reserved[b]
  {
    SpellingOfEntries();
  }

  lemma {:induction false} InjectiveCard(m: map<string, TokenType>)
    requires forall a, b :: a in m && b in m && a != b ==> m[a] != m[b]
    ensures |m.Keys| == |m.Values|
  {
    if m != map[] {
      var k :| k in m;
      var rest := m - {k};
      InjectiveCard(rest);
      assert rest.Values == m.Values - {m[k]} by {
        forall v | v in m.Values - {m[k]}
          ensures v in rest.Values
        {
          var a :| a in m && m[a] == v;
          assert a in rest;
        }
      }
      assert m.Keys == rest.Keys + {k};
    }
  }

  /** A text holding any character other than a lower-case letter is no
      keyword; in particular `Print` is an ordinary identifier. */
  lemma LookupIsCaseSensitive(text: string, i: nat)
    requires i < |text| && !('a' <= text[i] <= 'z')
    ensures Lookup(text) == None
  {
  }

  lemma CapitalisedPrintIsNoKeyword()
    ensures Lookup("Print") == None
    ensures Lookup("print") == Some(Print)
  {
  }
}

=== FILE: parser.dfy ===
/** The parser's token cursor and its two left-associative binary-operator
    rules. The rule for terms is not part of this model: it is a parameter
    of the rules that use it. */
module Parser {
  import opened Tokens
  import opened Ast
  import Scanner

  /** The token list and the index of the current token. */
  datatype Cursor = Cursor(tokens: seq<Token>, current: nat)

  /** What the parser relies on: the token list has exactly one EOF token,
      at its end (as `Scanner.ScanTokens` produces), and the cursor is on a
      token. */
  predicate Valid(p: Cursor) {
    && |p.tokens| > 0
    && p.tokens[|p.tokens| - 1].kind == Eof
    && (forall k :: 0 <= k < |p.tokens| - 1 ==> p.tokens[k].kind != Eof)
    && p.current < |p.tokens|
  }

  /** The current token: EOF exactly on the last position. */
  function Peek(p: Cursor): (r: Token)
    requires Valid(p)
    ensures r.kind == Eof <==> p.current == |p.tokens| - 1
  {
    p.tokens[p.current]
  }

  /** The token before the current one, which is never EOF. */
  function Previous(p: Cursor): (r: Token)
    requires Valid(p) && p.current > 0
    ensures r.kind != Eof
  {
    p.tokens[p.current - 1]
  }

  /** The cursor is at the end exactly when the current token is EOF, that
      is, when it is on the last token. */
  function IsAtEnd(p: Cursor): (r: bool)
    requires Valid(p)
    ensures r <==> p.current == |p.tokens| - 1
  {
    Peek(p).kind == Eof
  }

  /** `Check`: the current token has the given kind, and the cursor is not
      at the end; so checking for EOF itself always fails. */
  function Check(p: Cursor, kind: TokenType): (r: bool)
    requires Valid(p)
    ensures r ==> p.current < |p.tokens| - 1 && p.tokens[p.current].kind == kind
    ensures kind == Eof ==> !r
    ensures p.current < |p.tokens| - 1 && p.tokens[p.current].kind == kind ==> r
  {
    if IsAtEnd(p) then false else Peek(p).kind == kind
  }

  /** `Advance`: moves one token forward unless at EOF, and returns the
      token before the new cursor. At EOF with nothing before it the
      original indexes before the start of the list, so that case is
      excluded. */
  function Advance(p: Cursor): (r: (Cursor, Token))
    requires Valid(p) && (p.current > 0 || !IsAtEnd(p))
    ensures Valid(r.0) && r.0.tokens == p.tokens
    ensures r.0.current == if p.current == |p.tokens| - 1 then p.current else p.current + 1
    ensures r.0.current > 0 && r.1 == p.tokens[r.0.current - 1]
  {
    var next := if !IsAtEnd(p) then Cursor(p.tokens, p.current + 1) else p;
    (next, Previous(next))
  }

  /** `Match`: tries the kinds in order and consumes one token on the first
      hit; on a miss nothing is consumed. */
  function Match(p: Cursor, kinds: seq<TokenType>): (r: (bool, Cursor))
    requires Valid(p)
    ensures Valid(r.1) && r.1.tokens == p.tokens
    ensures r.0 <==> p.current < |p.tokens| - 1 && p.tokens[p.current].kind in kinds
    ensures r.1.current == if r.0 then p.current + 1 else p.current
  {
    if kinds == [] then (false, p)
    else if Check(p, kinds[0]) then (true, Advance(p).0)
    else
      var r := Match(p, kinds[1..]);
      r
  }

  /** A rule that parses one operand, standing for the term rule. */
  type OperandRule = Cursor -> (Expr, Cursor)

  /** An operand rule keeps the token list, keeps the cursor valid and
      never moves it backwards. */
  ghost predicate WellBehaved(operand: OperandRule) {
    forall p {:trigger operand(p)} :: Valid(p) ==>
      && Valid(operand(p).1)
      && operand(p).1.tokens == p.tokens
      && operand(p).1.current >= p.current
  }

  /** The fold that binary-operator rules perform: each (operator, operand)
      pair becomes the right side of a new node whose left side is
      everything before it. */
  function FoldLeft(first: Expr, rest: seq<(Token, Expr)>): Expr
    decreases |rest|
  {
    if rest == [] then first else FoldLeft(Binary(first, rest[0].0, rest[0].1), rest[1..])
  }

  /** The sequence of (operator, operand) pairs a rule
      `operand ( op operand )*` reads after its first operand, with the
      cursor after the last one: the repetition read as a list. */
  function OperatorChain(p: Cursor, ops: seq<TokenType>, operand: OperandRule): (r: (seq<(Token, Expr)>, Cursor))
    requires Valid(p) && WellBehaved(operand)
    ensures Valid(r.1) && r.1.tokens == p.tokens && r.1.current >= p.current
    decreases |p.tokens| - p.current
  {
    var (hit, p1) := Match(p, ops);
    if !hit then ([], p)
    else
      var op := Previous(p1);
      var (right, p2) := operand(p1);
      var (rest, p3) := OperatorChain(p2, ops, operand);
      ([(op, right)] + rest, p3)
  }

  /** The loop `while (Match(ops)) { op = Previous(); right = operand();
      expr = new Binary(expr, op, right); }` after the first operand. */
  function BinaryLoop(left: Expr, p: Cursor, ops: seq<TokenType>, operand: OperandRule): (r: (Expr, Cursor))
    requires Valid(p) && WellBehaved(operand)
    ensures Valid(r.1) && r.1.tokens == p.tokens && r.1.current >= p.current
    decreases |p.tokens| - p.current
  {
    var (hit, p1) := Match(p, ops);
    if !hit then (left, p)
    else
      var op := Previous(p1);
      var (right, p2) := operand(p1);
      BinaryLoop(Binary(left, op, right), p2, ops, operand)
  }

  /** The loop builds a left-nested tree: its result is the left fold of
      the operator chain, and it stops where the chain stops. */
  lemma {:induction false} BinaryLoopIsLeftFold(left: Expr, p: Cursor, ops: seq<TokenType>, operand: OperandRule)
    requires Valid(p) && WellBehaved(operand)
    ensures BinaryLoop(left, p, ops, operand).0 == FoldLeft(left, OperatorChain(p, ops, operand).0)
    ensures BinaryLoop(left, p, ops, operand).1 == OperatorChain(p, ops, operand).1
    decreases |p.tokens| - p.current
  {
    var (hit, p1) := Match(p, ops);
    if hit {
      var op := Previous(p1);
      var (right, p2) := operand(p1);
      BinaryLoopIsLeftFold(Binary(left, op, right), p2, ops, operand);
      var rest := OperatorChain(p2, ops, operand).0;
      assert OperatorChain(p, ops, operand).0 == [(op, right)] + rest;
      assert ([(op, right)] + rest)[1..] == rest;
    }
  }

  const ComparisonOps: seq<TokenType> := [Greater, GreaterEqual, Less, LessEqual]
  const EqualityOps: seq<TokenType> := [BangEqual, EqualEqual]

  /** `comparison -> term ( ( ">" | ">=" | "<" | "<=" ) term )*` */
  function Comparison(p: Cursor, term: OperandRule): (r: (Expr, Cursor))
    requires Valid(p) && WellBehaved(term)
    ensures Valid(r.1) && r.1.tokens == p.tokens && r.1.current >= p.current
  {
    var (first, p1) := term(p);
    BinaryLoop(first, p1, ComparisonOps, term)
  }

  /** The comparison rule, as an operand of the equality rule. */
  function ComparisonRule(term: OperandRule): (rule: OperandRule)
    requires WellBehaved(term)
    ensures WellBehaved(rule)
  {
    (q: Cursor) => if Valid(q) then Comparison(q, term) else (Literal(LitNil), q)
  }

  /** `equality -> comparison ( ( "!=" | "==" ) comparison )*` */
  function Equality(p: Cursor, term: OperandRule): (r: (Expr, Cursor))
    requires Valid(p) && WellBehaved(term)
    ensures Valid(r.1) && r.1.tokens == p.tokens && r.1.current >= p.current
  {
    var (first, p1) := Comparison(p, term);
    BinaryLoop(first, p1, EqualityOps, ComparisonRule(term))
  }

  /** `Expression` is `Equality`. */
  function Expression(p: Cursor, term: OperandRule): (r: (Expr, Cursor))
    requires Valid(p) && WellBehaved(term)
    ensures Valid(r.1) && r.1.tokens == p.tokens && r.1.current >= p.current
  {
    Equality(p, term)
  }

  /** A stand-in term rule for examples: one token becomes a variable. */
  function OneTokenTerm(): (rule: OperandRule)
    ensures WellBehaved(rule)
  {
    (q: Cursor) =>
      if Valid(q) && !IsAtEnd(q) then (Variable(0, Peek(q)), Cursor(q.tokens, q.current + 1))
      else (Literal(LitNil), q)
  }

  lemma OneTokenComparison(ts: seq<Token>, k: nat)
    requires Valid(Cursor(ts, k)) && k + 1 < |ts|
    requires ts[k + 1].kind !in ComparisonOps
    ensures Comparison(Cursor(ts, k), OneTokenTerm()) == (Variable(0, ts[k]), Cursor(ts, k + 1))
  {
    var term := OneTokenTerm();
    assert term(Cursor(ts, k)) == (Variable(0, ts[k]), Cursor(ts, k + 1));
    assert !Match(Cursor(ts, k + 1), ComparisonOps).0;
  }

  /** One round of an operator chain: the operator is the current token,
      the operand is what the rule reads after it. */
  lemma ChainStep(p: Cursor, ops: seq<TokenType>, operand: OperandRule)
    requires Valid(p) && WellBehaved(operand) && Match(p, ops).0
    ensures var q := Cursor(p.tokens, p.current + 1);
            OperatorChain(p, ops, operand).0
            == [(p.tokens[p.current], operand(q).0)] + OperatorChain(operand(q).1, ops, operand).0
  {
  }

  lemma ChainEnd(p: Cursor, ops: seq<TokenType>, operand: OperandRule)
    requires Valid(p) && WellBehaved(operand) && p.current == |p.tokens| - 1
    ensures OperatorChain(p, ops, operand).0 == []
  {
  }

  /** `rule` reads exactly the token at position `j`, as a variable. */
  predicate ReadsOneToken(rule: OperandRule, ts: seq<Token>, j: nat) {
    j + 1 < |ts| && rule(Cursor(ts, j)) == (Variable(0, ts[j]), Cursor(ts, j + 1))
  }

  /** With the one-token term, the comparison rule reads one token when no
      comparison operator follows it. */
  lemma OneTokenOperand(ts: seq<Token>, j: nat)
    requires Valid(Cursor(ts, j)) && j + 1 < |ts| && ts[j + 1].kind !in ComparisonOps
    ensures ReadsOneToken(ComparisonRule(OneTokenTerm()), ts, j)
  {
    OneTokenComparison(ts, j);
  }

  /** One round of the loop over an operator followed by a one-token
      operand. */
  lemma ChainStepOne(ts: seq<Token>, j: nat, ops: seq<TokenType>, rule: OperandRule)
    requires Valid(Cursor(ts, j)) && WellBehaved(rule)
    requires ts[j].kind in ops && ReadsOneToken(rule, ts, j + 1)
    ensures OperatorChain(Cursor(ts, j), ops, rule).0
         == [(ts[j], Variable(0, ts[j + 1]))] + OperatorChain(Cursor(ts, j + 2), ops, rule).0
  {
    var p, q := Cursor(ts, j), Cursor(ts, j + 1);
    assert Match(p, ops).0;
    ChainStep(p, ops, rule);
    assert p.tokens[p.current] == ts[j] && Cursor(p.tokens, p.current + 1) == q;
    assert rule(q).0 == Variable(0, ts[j + 1]) && rule(q).1 == Cursor(ts, j + 2);
  }

  /** An equality chain over two one-token operands. */
  lemma ExampleChain(ts: seq<Token>, rule: OperandRule)
    requires |ts| == 6 && Valid(Cursor(ts, 0)) && WellBehaved(rule)
    requires ts[1].kind == EqualEqual && ts[3].kind == BangEqual
    requires ReadsOneToken(rule, ts, 2) && ReadsOneToken(rule, ts, 4)
    ensures OperatorChain(Cursor(ts, 1), EqualityOps, rule).0
         == [(ts[1], Variable(0, ts[2])), (ts[3], Variable(0, ts[4]))]
  {
    var tail := OperatorChain(Cursor(ts, 5), EqualityOps, rule).0;
    ChainEnd(Cursor(ts, 5), EqualityOps, rule);
    ChainStepOne(ts, 3, EqualityOps, rule);
    ChainStepOne(ts, 1, EqualityOps, rule);
    assert tail == [];
  }

  /** With the one-token term, equality starts its loop after one token. */
  lemma EqualityAfterOneToken(ts: seq<Token>)
    requires Valid(Cursor(ts, 0)) && 1 < |ts| && ts[1].kind !in ComparisonOps
    ensures Equality(Cursor(ts, 0), OneTokenTerm())
         == BinaryLoop(Variable(0, ts[0]), Cursor(ts, 1), EqualityOps, ComparisonRule(OneTokenTerm()))
  {
    OneTokenComparison(ts, 0);
  }

  lemma FoldTwo(a: Expr, o1: Token, b: Expr, o2: Token, c: Expr)
    ensures FoldLeft(a, [(o1, b), (o2, c)]) == Binary(Binary(a, o1, b), o2, c)
  {
    var ab := Binary(a, o1, b);
    assert [(o1, b), (o2, c)][1..] == [(o2, c)];
    assert FoldLeft(a, [(o1, b), (o2, c)]) == FoldLeft(ab, [(o2, c)]);
    assert [(o2, c)][1..] == [];
    assert FoldLeft(ab, [(o2, c)]) == FoldLeft(Binary(ab, o2, c), []);
  }

  /** The loop over a chain of two operators builds the left-nested tree. */
  lemma LoopOverTwo(ts: seq<Token>, rule: OperandRule)
    requires |ts| == 6 && Valid(Cursor(ts, 0)) && WellBehaved(rule)
    requires ts[1].kind == EqualEqual && ts[3].kind == BangEqual
    requires ReadsOneToken(rule, ts, 2) && ReadsOneToken(rule, ts, 4)
    ensures BinaryLoop(Variable(0, ts[0]), Cursor(ts, 1), EqualityOps, rule).0
         == Binary(Binary(Variable(0, ts[0]), ts[1], Variable(0, ts[2])), ts[3], Variable(0, ts[4]))
  {
    ExampleChain(ts, rule);
    BinaryLoopIsLeftFold(Variable(0, ts[0]), Cursor(ts, 1), EqualityOps, rule);
    FoldTwo(Variable(0, ts[0]), ts[1], Variable(0, ts[2]), ts[3], Variable(0, ts[4]));
  }

  /** `a == b != c` groups to the left: `(a == b) != c`. */
  lemma EqualityGroupsLeft(a: Token, eq: Token, b: Token, ne: Token, c: Token, eof: Token)
    requires eq.kind == EqualEqual && ne.kind == BangEqual && eof.kind == Eof
    requires a.kind == Identifier && b.kind == Identifier && c.kind == Identifier
    ensures Equality(Cursor([a, eq, b, ne, c, eof], 0), OneTokenTerm()).0
         == Binary(Binary(Variable(0, a), eq, Variable(0, b)), ne, Variable(0, c))
  {
    var ts := [a, eq, b, ne, c, eof];
    assert Valid(Cursor(ts, 0));
    OneTokenOperand(ts, 2);
    OneTokenOperand(ts, 4);
    EqualityAfterOneToken(ts);
    LoopOverTwo(ts, ComparisonRule(OneTokenTerm()));
  }

  /** The scanner's output, whenever it has one, is a token list the
      parser accepts. */
  lemma ScannerFeedsParser(src: string)
    ensures Scanner.ScanTokens(src).Some? ==> Valid(Cursor(Scanner.ScanTokens(src).value.tokens, 0))
  {
  }
}

=== FILE: resolver.dfy ===
/** The static resolution pass: a walk over the syntax tree that keeps a
    stack of block scopes, reports misuse of declarations, `return` and
    `this`, and records for each variable reference how many scopes up
    its declaration was found. Errors are reported and the walk goes on,
    so they are collected in a list; the recorded distances are what the
    original hands to the interpreter. */
module Resolver {
  import opened Wrappers
  import opened Tokens
  import opened Ast

  /** How far a local has got: declared, defined, or read since. */
  datatype VariableState = Declared | Defined | Read

  /** A scope's entry for a name: the declaring token and its state. */
  datatype Entry = Entry(name: Token, state: VariableState)

  type Scope = map<string, Entry>

  /** The kind of function body being resolved, if any. */
  datatype FunctionType = NotInFunction | InFunction | InInitializer | InMethod

  /** Whether a class body is being resolved. */
  datatype ClassType = NotInClass | InClass

  /** A distance handed to the interpreter: the node (by identity) and the
      stack position at which its name was found. */
  datatype Local = Local(id: nat, depth: nat)

  /** A reported static error: the token it is reported at and the
      message. */
  datatype ResolveError = ResolveError(token: Token, message: string)

  /** The resolver's mutable state. The scope stack is a sequence whose
      element 0 is the top of the stack (the innermost scope), the order in
      which the original's `Stack.ElementAt` counts. */
  datatype Resolver = Resolver(
    scopes: seq<Scope>,
    currentFunction: FunctionType,
    currentClass: ClassType,
    locals: seq<Local>,
    errors: seq<ResolveError>)

  const AlreadyDeclared := "Already variable with this name in scope."
  const OwnInitializer := "Can't read local variable in its own initializer."
  const TopLevelReturn := "Can't return from top-level code"
  const InitializerReturn := "Can't return a value from an initializer."
  const ThisOutsideClass := "Can't use 'this' keyword outside of a class"
  const InheritsItself := "A class can't inherit from itself."

  /** Every message the resolver reports. */
  const Messages: set<string> :=
    {AlreadyDeclared, OwnInitializer, TopLevelReturn, InitializerReturn, ThisOutsideClass, InheritsItself}

  /** A resolver before any statement: no scopes (globals are not
      tracked), outside any function or class, nothing recorded. */
  const Fresh := Resolver([], NotInFunction, NotInClass, [], [])

  // ---------------------------------------------------------------------
  // What may be resolved
  // ---------------------------------------------------------------------

  /** Expressions without a conditional anywhere inside: the original
      throws `NotImplementedException` on `?:`. */
  predicate ResolvableExpr(e: Expr)
    decreases e, 0
  {
    match e
    case Assign(_, _, value) => ResolvableExpr(value)
    case Binary(left, _, right) => ResolvableExpr(left) && ResolvableExpr(right)
    case Call(callee, _, arguments) => ResolvableExpr(callee) && ResolvableExprs(arguments)
    case Conditional(_, _, _) => false
    case FunctionExpr(decl) => ResolvableStmts(decl.body)
    case Get(obj, _) => ResolvableExpr(obj)
    case Grouping(inner) => ResolvableExpr(inner)
    case Literal(_) => true
    case Logical(left, _, right) => ResolvableExpr(left) && ResolvableExpr(right)
    case Set(obj, _, value) => ResolvableExpr(obj) && ResolvableExpr(value)
    case Super(_, _, _) => true
    case This(_, _) => true
    case Unary(_, right) => ResolvableExpr(right)
    case Variable(_, _) => true
  }

  predicate ResolvableExprs(es: seq<Expr>)
    decreases es, 0
  {
    forall k :: 0 <= k < |es| ==> ResolvableExpr(es[k])
  }

  predicate ResolvableStmt(s: Stmt)
    decreases s, 0
  {
    match s
    case Block(statements) => ResolvableStmts(statements)
    case Break(_) => true
    case Class(_, _, methods) => ResolvableMethods(methods)
    case Expression(e) => ResolvableExpr(e)
    case FunctionStmt(_, decl) => ResolvableStmts(decl.body)
    case If(c, t, f) => ResolvableExpr(c) && ResolvableStmt(t) && (f.Some? ==> ResolvableStmt(f.value))
    case Print(e) => ResolvableExpr(e)
    case Return(_, value) => value.Some? ==> ResolvableExpr(value.value)
    case Var(_, init) => init.Some? ==> ResolvableExpr(init.value)
    case While(c, body) => ResolvableExpr(c) && ResolvableStmt(body)
  }

  predicate ResolvableStmts(ss: seq<Stmt>)
    decreases ss, 0
  {
    forall k :: 0 <= k < |ss| ==> ResolvableStmt(ss[k])
  }

  predicate ResolvableMethods(ms: seq<Method>)
    decreases ms, 0
  {
    forall k :: 0 <= k < |ms| ==> ResolvableMethod(ms[k])
  }

  predicate ResolvableMethod(m: Method)
    decreases m, 0
  {
    ResolvableStmts(m.decl.body)
  }

  // ---------------------------------------------------------------------
  // Frame conditions
  // ---------------------------------------------------------------------

  /** `r` came from `st` by recording more: both lists only grow, and every
      new error carries one of the resolver's messages. */
  predicate Grows(st: Resolver, r: Resolver) {
    && st.locals <= r.locals
    && st.errors <= r.errors
    && forall k :: |st.errors| <= k < |r.errors| ==> r.errors[k].message in Messages
  }

  lemma GrowsTrans(a: Resolver, b: Resolver, c: Resolver)
    requires Grows(a, b) && Grows(b, c)
    ensures Grows(a, c)
  {
    forall k | |a.errors| <= k < |c.errors|
      ensures c.errors[k].message in Messages
    {
      if k < |b.errors| {
        assert c.errors[k] == b.errors[k];
      }
    }
  }

  /** The scope stack has the same depth and every scope the same names;
      the function and class kinds are as before. */
  predicate SameNames(st: Resolver, r: Resolver) {
    && |r.scopes| == |st.scopes|
    && (forall i :: 0 <= i < |st.scopes| ==> r.scopes[i].Keys == st.scopes[i].Keys)
    && r.currentFunction == st.currentFunction
    && r.currentClass == st.currentClass
  }

  /** As `SameNames`, except that the innermost scope gained `names`. */
  predicate AddsNames(st: Resolver, r: Resolver, names: set<string>) {
    && |r.scopes| == |st.scopes|
    && (forall i :: 0 < i < |st.scopes| ==> r.scopes[i].Keys == st.scopes[i].Keys)
    && (|st.scopes| > 0 ==> r.scopes[0].Keys == st.scopes[0].Keys + names)
    && r.currentFunction == st.currentFunction
    && r.currentClass == st.currentClass
  }

  /** The names a statement declares in the current scope: a class,
      function or variable declaration its own name, and an `if` or
      `while` whatever a declaration standing directly as its branch or
      body declares (the tree allows it; the parser's grammar does not). */
  function DeclaredName(s: Stmt): set<string> {
    match s
    case Class(name, _, _) => {name.lexeme}
    case FunctionStmt(name, _) => {name.lexeme}
    case If(_, t, f) => DeclaredName(t) + if f.Some? then DeclaredName(f.value) else {}
    case Var(name, _) => {name.lexeme}
    case While(_, body) => DeclaredName(body)
    case _ => {}
  }

  function DeclaredNames(ss: seq<Stmt>): set<string> {
    if ss == [] then {} else DeclaredName(ss[0]) + DeclaredNames(ss[1..])
  }

  // ---------------------------------------------------------------------
  // Scope stack helpers
  // ---------------------------------------------------------------------

  /** `Lox.Error` when `cond` holds. */
  function ReportIf(st: Resolver, cond: bool, token: Token, message: string): (r: Resolver)
    requires message in Messages
    ensures SameNames(st, r) && Grows(st, r) && r.scopes == st.scopes && r.locals == st.locals
    ensures r.errors == if cond then st.errors + [ResolveError(token, message)] else st.errors
  {
    if cond then st.(errors := st.errors + [ResolveError(token, message)]) else st
  }

  /** `BeginScope`: pushes an empty scope. */
  function BeginScope(st: Resolver): (r: Resolver)
    ensures |r.scopes| == |st.scopes| + 1 && r.scopes[0] == map[] && r.scopes[1..] == st.scopes
    ensures r == st.(scopes := r.scopes)
  {
    st.(scopes := [map[]] + st.scopes)
  }

  /** `EndScope`: pops the innermost scope. */
  function EndScope(st: Resolver): (r: Resolver)
    requires |st.scopes| > 0
    ensures r.scopes == st.scopes[1..] && r == st.(scopes := r.scopes)
  {
    st.(scopes := st.scopes[1..])
  }

  /** Opening and closing a scope with nothing in between restores the
      resolver exactly; closing pops what opening pushed. */
  lemma EndScopeUndoesBeginScope(st: Resolver)
    ensures EndScope(BeginScope(st)) == st
    ensures |st.scopes| > 0 ==> BeginScope(EndScope(st)).scopes[1..] == st.scopes[1..]
  {
  }

  /** Puts an entry straight into the innermost scope (the `this` and
      `super` slots of a class). */
  function Bind(st: Resolver, name: string, entry: Entry): (r: Resolver)
    requires |st.scopes| > 0
    ensures AddsNames(st, r, {name}) && r.locals == st.locals && r.errors == st.errors
    ensures r.scopes[0][name] == entry && r.scopes[1..] == st.scopes[1..]
  {
    st.(scopes := [st.scopes[0][name := entry]] + st.scopes[1..])
  }

  /** `Declare`: nothing for a global; otherwise the name enters the
      innermost scope as Declared, with an error first if that scope
      already has it (the entry is reset all the same). */
  function Declare(st: Resolver, name: Token): (r: Resolver)
    ensures |st.scopes| == 0 ==> r == st
    ensures AddsNames(st, r, {name.lexeme}) && Grows(st, r) && r.locals == st.locals
    ensures |st.scopes| > 0 ==>
              && r.scopes[1..] == st.scopes[1..]
              && r.scopes[0][name.lexeme] == Entry(name, Declared)
              && forall x :: x in st.scopes[0] && x != name.lexeme ==> r.scopes[0][x] == st.scopes[0][x]
    ensures r.errors == st.errors +
              if |st.scopes| > 0 && name.lexeme in st.scopes[0] then [ResolveError(name, AlreadyDeclared)] else []
  {
    if |st.scopes| == 0 then st
    else
      var st1 := ReportIf(st, name.lexeme in st.scopes[0], name, AlreadyDeclared);
      Bind(st1, name.lexeme, Entry(name, Declared))
  }

  /** `Define`: nothing for a global; otherwise the innermost scope's
      entry for the name becomes Defined. The original indexes the scope
      directly, so the name must be there (it always follows `Declare`). */
  function Define(st: Resolver, name: Token): (r: Resolver)
    requires |st.scopes| == 0 || name.lexeme in st.scopes[0]
    ensures |st.scopes| == 0 ==> r == st
    ensures SameNames(st, r) && r.locals == st.locals && r.errors == st.errors
    ensures |st.scopes| > 0 ==>
              && r.scopes[1..] == st.scopes[1..]
              && r.scopes[0][name.lexeme] == st.scopes[0][name.lexeme].(state := Defined)
              && forall x :: x in st.scopes[0] && x != name.lexeme ==> r.scopes[0][x] == st.scopes[0][x]
  {
    if |st.scopes| == 0 then st
    else Bind(st, name.lexeme, st.scopes[0][name.lexeme].(state := Defined))
  }

  /** `name` is in scope `i` and in none of the scopes beyond it (further
      from the top of the stack). */
  predicate IsOutermost(scopes: seq<Scope>, name: string, i: nat) {
    i < |scopes| && name in scopes[i] && forall j :: i < j < |scopes| ==> name !in scopes[j]
  }

  /** The search loop of `ResolveLocal`: positions `i - 1` down to 0, the
      first (largest) position whose scope has the name. */
  function Search(scopes: seq<Scope>, name: string, i: nat): (r: Option<nat>)
    requires i <= |scopes|
    ensures r.Some? ==> r.value < i && name in scopes[r.value] && forall j :: r.value < j < i ==> name !in scopes[j]
    ensures r.None? ==> forall j :: 0 <= j < i ==> name !in scopes[j]
    decreases i
  {
    if i == 0 then None
    else if name in scopes[i - 1] then Some(i - 1)
    else Search(scopes, name, i - 1)
  }

  /** `ResolveLocal`: records the position of the scope holding the name
      and, for a read, marks that entry Read. Positions are visited from
      `Count - 1` down to 0 and position 0 is the top of the stack, so of
      several scopes holding the name the OUTERMOST one is found. Nothing
      is recorded when no scope holds it (a global). */
  function ResolveLocal(st: Resolver, id: nat, name: Token, isRead: bool): (r: Resolver)
    ensures SameNames(st, r) && Grows(st, r) && r.errors == st.errors
    ensures r.locals == st.locals <==> forall j :: 0 <= j < |st.scopes| ==> name.lexeme !in st.scopes[j]
    ensures r.locals != st.locals ==>
              && |r.locals| == |st.locals| + 1
              && r.locals[|st.locals|].id == id
              && IsOutermost(st.scopes, name.lexeme, r.locals[|st.locals|].depth)
    ensures r.locals != st.locals && isRead ==>
              r.scopes[r.locals[|st.locals|].depth][name.lexeme].state == Read
    ensures !isRead ==> r.scopes == st.scopes
  {
    match Search(st.scopes, name.lexeme, |st.scopes|)
    case None => st
    case Some(i) =>
      var scopes :=
        if isRead then st.scopes[i := st.scopes[i][name.lexeme := st.scopes[i][name.lexeme].(state := Read)]]
        else st.scopes;
      st.(scopes := scopes, locals := st.locals + [Local(id, i)])
  }

  /** `VisitVariableExpr`: an error if the innermost scope has the name
      still Declared (a read inside its own initializer), then a read
      resolution. */
  function ResolveVariable(st: Resolver, id: nat, name: Token): (r: Resolver)
    ensures SameNames(st, r) && Grows(st, r)
    ensures r.errors == st.errors +
              if |st.scopes| > 0 && name.lexeme in st.scopes[0] && st.scopes[0][name.lexeme].state == Declared
              then [ResolveError(name, OwnInitializer)] else []
  {
    var reading := |st.scopes| > 0 && name.lexeme in st.scopes[0] && st.scopes[0][name.lexeme].state == Declared;
    ResolveLocal(ReportIf(st, reading, name, OwnInitializer), id, name, true)
  }

  // ---------------------------------------------------------------------
  // The walk
  // ---------------------------------------------------------------------

  /** Resolves an expression. Expressions declare nothing: every scope
      keeps its names, and only entries' states, the recorded distances
      and the errors change. */
  function ResolveExpr(st: Resolver, e: Expr): (r: Resolver)
    requires ResolvableExpr(e)
    ensures SameNames(st, r) && Grows(st, r)
    decreases e, 2
  {
    match e
    case Assign(id, name, value) =>
      var st1 := ResolveExpr(st, value);
      var r := ResolveLocal(st1, id, name, false);
      GrowsTrans(st, st1, r);
      r
    case Binary(left, _, right) =>
      var st1 := ResolveExpr(st, left);
      var r := ResolveExpr(st1, right);
      GrowsTrans(st, st1, r);
      r
    case Call(callee, _, arguments) =>
      var st1 := ResolveExpr(st, callee);
      var r := ResolveExprs(st1, arguments);
      GrowsTrans(st, st1, r);
      r
    case FunctionExpr(decl) => ResolveFunction(st, decl, InFunction)
    case Get(obj, _) => ResolveExpr(st, obj)
    case Grouping(inner) => ResolveExpr(st, inner)
    case Literal(_) => st
    case Logical(left, _, right) =>
      var st1 := ResolveExpr(st, left);
      var r := ResolveExpr(st1, right);
      GrowsTrans(st, st1, r);
      r
    case Set(obj, _, value) =>
      var st1 := ResolveExpr(st, value);
      var r := ResolveExpr(st1, obj);
      GrowsTrans(st, st1, r);
      r
    case Super(id, keyword, _) => ResolveLocal(st, id, keyword, true)
    case This(id, keyword) =>
      var st1 := ReportIf(st, st.currentClass == NotInClass, keyword, ThisOutsideClass);
      var r := ResolveLocal(st1, id, keyword, true);
      GrowsTrans(st, st1, r);
      r
    case Unary(_, right) => ResolveExpr(st, right)
    case Variable(id, name) => ResolveVariable(st, id, name)
  }

  /** The arguments of a call, in order. */
  function ResolveExprs(st: Resolver, es: seq<Expr>): (r: Resolver)
    requires ResolvableExprs(es)
    ensures SameNames(st, r) && Grows(st, r)
    decreases es, 2
  {
    if es == [] then st
    else
      var st1 := ResolveExpr(st, es[0]);
      var r := ResolveExprs(st1, es[1..]);
      GrowsTrans(st, st1, r);
      r
  }

  /** Declares and defines each parameter in the innermost scope. */
  function DeclareParams(st: Resolver, params: seq<Token>): (r: Resolver)
    ensures AddsNames(st, r, ParamNames(params)) && Grows(st, r)
    decreases |params|
  {
    if params == [] then st
    else
      var st1 := Define(Declare(st, params[0]), params[0]);
      var r := DeclareParams(st1, params[1..]);
      assert ParamNames(params) == {params[0].lexeme} + ParamNames(params[1..]);
      GrowsTrans(st, st1, r);
      r
  }

  /** The names of a parameter list. */
  function ParamNames(params: seq<Token>): set<string> {
    set p | p in params :: p.lexeme
  }

  /** No parameter repeats another or a name the scope already holds. */
  predicate FreshParams(scope: Scope, params: seq<Token>) {
    && (forall k :: 0 <= k < |params| ==> params[k].lexeme !in scope)
    && (forall j, k :: 0 <= j < k < |params| ==> params[j].lexeme != params[k].lexeme)
  }

  /** Declaring the parameters touches no scope but the innermost, and
      no entry of it but the parameters'. */
  lemma {:induction false} DeclareParamsFrame(st: Resolver, params: seq<Token>)
    requires |st.scopes| > 0
    ensures var r := DeclareParams(st, params);
            && r.scopes[1..] == st.scopes[1..] && r.locals == st.locals
            && (forall x :: x in st.scopes[0] && x !in ParamNames(params) ==> r.scopes[0][x] == st.scopes[0][x])
    decreases |params|
  {
    if params != [] {
      var st1 := Define(Declare(st, params[0]), params[0]);
      assert DeclareParams(st1, params[1..]) == DeclareParams(st, params);
      DeclareParamsFrame(st1, params[1..]);
      assert ParamNames(params) == {params[0].lexeme} + ParamNames(params[1..]);
    }
  }

  /** Declaring the parameters leaves each of them Defined in the
      innermost scope. */
  lemma {:induction false} DeclareParamsDefinesEach(st: Resolver, params: seq<Token>)
    requires |st.scopes| > 0
    ensures var r := DeclareParams(st, params);
            forall k :: 0 <= k < |params| ==> r.scopes[0][params[k].lexeme].state == Defined
    decreases |params|
  {
    if params != [] {
      var p := params[0];
      var rest := params[1..];
      var st1 := Define(Declare(st, p), p);
      var r := DeclareParams(st1, rest);
      assert r == DeclareParams(st, params);
      DeclareParamsDefinesEach(st1, rest);
      DeclareParamsFrame(st1, rest);
      assert st1.scopes[0][p.lexeme].state == Defined;
      forall k | 0 <= k < |params|
        ensures r.scopes[0][params[k].lexeme].state == Defined
      {
        if k > 0 {
          assert params[k] == rest[k - 1];
        } else if p.lexeme in ParamNames(rest) {
          var i :| 0 <= i < |rest| && rest[i].lexeme == p.lexeme;
        }
      }
    }
  }

  /** Declaring the parameters reports exactly when one of them repeats a
      name already in the innermost scope, and reports nothing else. */
  lemma {:induction false} DeclareParamsReports(st: Resolver, params: seq<Token>)
    requires |st.scopes| > 0
    ensures var r := DeclareParams(st, params);
            && (r.errors == st.errors <==> FreshParams(st.scopes[0], params))
            && (forall k :: |st.errors| <= k < |r.errors| ==> r.errors[k].message == AlreadyDeclared)
    decreases |params|
  {
    if params != [] {
      var p := params[0];
      var st1 := Define(Declare(st, p), p);
      var r := DeclareParams(st1, params[1..]);
      assert r == DeclareParams(st, params);
      DeclareParamsReports(st1, params[1..]);
      assert st1.errors == st.errors <==> p.lexeme !in st.scopes[0];
      FreshParamsStep(st.scopes[0], st1.scopes[0], params);
      forall k | |st.errors| <= k < |r.errors|
        ensures r.errors[k].message == AlreadyDeclared
      {
        if k < |st1.errors| {
          assert r.errors[k] == st1.errors[k];
        }
      }
    }
  }

  /** Freshness one parameter at a time: the first is not in the scope,
      and the rest are fresh for the scope that holds the first too. */
  lemma FreshParamsStep(scope: Scope, scope1: Scope, params: seq<Token>)
    requires |params| > 0 && scope1.Keys == scope.Keys + {params[0].lexeme}
    ensures FreshParams(scope, params) <==> params[0].lexeme !in scope && FreshParams(scope1, params[1..])
  {
    var rest := params[1..];
    if FreshParams(scope, params) {
      forall k | 0 <= k < |rest|
        ensures rest[k].lexeme !in scope1
      {
        assert rest[k] == params[k + 1];
      }
      forall j, k | 0 <= j < k < |rest|
        ensures rest[j].lexeme != rest[k].lexeme
      {
        assert rest[j] == params[j + 1] && rest[k] == params[k + 1];
      }
    }
    if params[0].lexeme !in scope && FreshParams(scope1, rest) {
      forall k | 0 <= k < |params|
        ensures params[k].lexeme !in scope
      {
        if k > 0 {
          assert params[k] == rest[k - 1];
        }
      }
      forall j, k | 0 <= j < k < |params|
        ensures params[j].lexeme != params[k].lexeme
      {
        assert params[k] == rest[k - 1];
        if j > 0 {
          assert params[j] == rest[j - 1];
        }
      }
    }
  }

  /** The scope a function body is resolved in: pushed on the stack, it
      holds exactly the parameters, each Defined, with the function kind
      set to `kind`. A repeated parameter is reported, once per repeat. */
  function FunctionScope(st: Resolver, params: seq<Token>, kind: FunctionType): (r: Resolver)
    ensures |r.scopes| == |st.scopes| + 1 && r.scopes[1..] == st.scopes
    ensures r.scopes[0].Keys == ParamNames(params)
    ensures forall k :: 0 <= k < |params| ==> r.scopes[0][params[k].lexeme].state == Defined
    ensures r.currentFunction == kind && r.currentClass == st.currentClass
    ensures Grows(st, r) && r.locals == st.locals
    ensures r.errors == st.errors <==> forall j, k :: 0 <= j < k < |params| ==> params[j].lexeme != params[k].lexeme
    ensures forall k :: |st.errors| <= k < |r.errors| ==> r.errors[k].message == AlreadyDeclared
  {
    var st1 := BeginScope(st.(currentFunction := kind));
    DeclareParamsFrame(st1, params);
    DeclareParamsDefinesEach(st1, params);
    DeclareParamsReports(st1, params);
    DeclareParams(st1, params)
  }

  /** `ResolveFunction`: the body is resolved in a new scope holding the
      parameters, with the function kind set to `kind`; both the scope and
      the kind are gone again afterwards. */
  function ResolveFunction(st: Resolver, decl: FunctionDecl, kind: FunctionType): (r: Resolver)
    requires ResolvableStmts(decl.body)
    ensures SameNames(st, r) && Grows(st, r)
    decreases decl, 2
  {
    var st2 := FunctionScope(st, decl.params, kind);
    var st3 := ResolveStmts(st2, decl.body);
    GrowsTrans(st, st2, st3);
    var r := EndScope(st3).(currentFunction := st.currentFunction);
    assert forall i :: 0 <= i < |st.scopes| ==> r.scopes[i] == st3.scopes[i + 1];
    r
  }

  /** Resolves a statement. Only the innermost scope can gain a name, and
      only the one the statement declares. */
  function ResolveStmt(st: Resolver, s: Stmt): (r: Resolver)
    requires ResolvableStmt(s)
    ensures AddsNames(st, r, DeclaredName(s)) && Grows(st, r)
    decreases s, 4
  {
    match s
    case Block(_) => ResolveBlock(st, s)
    case Break(_) => st
    case Class(_, _, _) => ResolveClass(st, s)
    case Expression(e) => ResolveExpr(st, e)
    case FunctionStmt(_, _) => ResolveFunctionStmt(st, s)
    case If(_, _, _) => ResolveIf(st, s)
    case Print(e) => ResolveExpr(st, e)
    case Return(_, _) => ResolveReturn(st, s)
    case Var(_, _) => ResolveVar(st, s)
    case While(c, body) =>
      var st1 := ResolveExpr(st, c);
      var r := ResolveStmt(st1, body);
      GrowsTrans(st, st1, r);
      r
  }

  /** `VisitBlockStmt`: the statements in a new scope, popped afterwards. */
  function ResolveBlock(st: Resolver, s: Stmt): (r: Resolver)
    requires s.Block? && ResolvableStmts(s.statements)
    ensures SameNames(st, r) && Grows(st, r)
    decreases s, 3
  {
    var st1 := ResolveStmts(BeginScope(st), s.statements);
    var r := EndScope(st1);
    assert forall i :: 0 <= i < |st.scopes| ==> r.scopes[i] == st1.scopes[i + 1];
    r
  }

  /** `VisitFunctionStmt`: the name is declared and defined before the
      body is resolved, so the function can call itself. */
  function ResolveFunctionStmt(st: Resolver, s: Stmt): (r: Resolver)
    requires s.FunctionStmt? && ResolvableStmts(s.decl.body)
    ensures AddsNames(st, r, {s.name.lexeme}) && Grows(st, r)
    decreases s, 3
  {
    var st1 := Define(Declare(st, s.name), s.name);
    var r := ResolveFunction(st1, s.decl, InFunction);
    GrowsTrans(st, st1, r);
    r
  }

  /** `VisitIfStmt`: condition, then branch, else branch if present. */
  function ResolveIf(st: Resolver, s: Stmt): (r: Resolver)
    requires s.If? && ResolvableStmt(s)
    ensures AddsNames(st, r, DeclaredName(s)) && Grows(st, r)
    decreases s, 3
  {
    var st1 := ResolveExpr(st, s.condition);
    var st2 := ResolveStmt(st1, s.thenBranch);
    GrowsTrans(st, st1, st2);
    if s.elseBranch.Some? then
      var r := ResolveStmt(st2, s.elseBranch.value);
      GrowsTrans(st, st2, r);
      r
    else st2
  }

  /** `VisitReturnStmt`: a return outside any function, and a return with
      a value inside an initializer, are reported; the value is resolved
      either way. */
  function ResolveReturn(st: Resolver, s: Stmt): (r: Resolver)
    requires s.Return? && ResolvableStmt(s)
    ensures SameNames(st, r) && Grows(st, r)
    decreases s, 3
  {
    var st1 := ReportIf(st, st.currentFunction == NotInFunction, s.keyword, TopLevelReturn);
    var st2 := ReportIf(st1, st.currentFunction == InInitializer && s.returnValue.Some?, s.keyword, InitializerReturn);
    GrowsTrans(st, st1, st2);
    if s.returnValue.Some? then
      var r := ResolveExpr(st2, s.returnValue.value);
      GrowsTrans(st, st2, r);
      r
    else st2
  }

  /** `VisitVarStmt`: declared before the initializer is resolved, defined
      after. */
  function ResolveVar(st: Resolver, s: Stmt): (r: Resolver)
    requires s.Var? && ResolvableStmt(s)
    ensures AddsNames(st, r, {s.name.lexeme}) && Grows(st, r)
    decreases s, 3
  {
    var st1 := Declare(st, s.name);
    var st2 := if s.initializer.Some? then ResolveExpr(st1, s.initializer.value) else st1;
    GrowsTrans(st, st1, st2);
    Define(st2, s.name)
  }

  /** `VisitClassStmt`: declares the class name; reports a class named as
      its own superclass and resolves the superclass reference; then
      resolves the methods inside a scope binding `this` (inside one
      binding `super` when there is a superclass), `init` as an
      initializer and every other method as a method. */
  function ResolveClass(st: Resolver, s: Stmt): (r: Resolver)
    requires s.Class? && ResolvableMethods(s.methods)
    ensures AddsNames(st, r, {s.name.lexeme}) && Grows(st, r)
    decreases s, 3
  {
    var st1 := ClassEntry(st, s);
    var st2 :=
      if s.superclass.Some? then
        var st4 := SuperclassEntry(st, s);
        var st5 := ResolveSuperScope(st4, s);
        GrowsTrans(st1, st4, st5);
        st5
      else ResolveClassBody(st1, s);
    GrowsTrans(st, st1, st2);
    st2.(currentClass := st.currentClass)
  }

  /** The resolver once a class's name is declared and defined, inside the
      class. */
  function ClassEntry(st: Resolver, s: Stmt): (r: Resolver)
    requires s.Class?
    ensures AddsNames(st.(currentClass := InClass), r, {s.name.lexeme}) && Grows(st, r)
    ensures r.currentClass == InClass && r.locals == st.locals && r.errors == Declare(st, s.name).errors
  {
    Define(Declare(st.(currentClass := InClass), s.name), s.name)
  }

  /** Then, with a superclass: a class named as its own superclass is
      reported, first of all, and the superclass name is resolved as a
      read. The report is made exactly when the two names agree. */
  function SuperclassEntry(st: Resolver, s: Stmt): (r: Resolver)
    requires s.Class? && s.superclass.Some?
    ensures SameNames(ClassEntry(st, s), r) && Grows(ClassEntry(st, s), r)
    ensures var before := ClassEntry(st, s).errors;
            s.name.lexeme == s.superclass.value.name.lexeme ==>
              |before| < |r.errors| && r.errors[|before|] == ResolveError(s.superclass.value.name, InheritsItself)
    ensures var before := ClassEntry(st, s).errors;
            s.name.lexeme != s.superclass.value.name.lexeme ==>
              forall k :: |before| <= k < |r.errors| ==> r.errors[k].message != InheritsItself
  {
    var st1 := ClassEntry(st, s);
    var sup := s.superclass.value;
    var st3 := ReportIf(st1, s.name.lexeme == sup.name.lexeme, sup.name, InheritsItself);
    var r := ResolveVariable(st3, sup.id, sup.name);
    GrowsTrans(st1, st3, r);
    r
  }

  /** The scope binding `super`, around the class body. */
  function ResolveSuperScope(st: Resolver, s: Stmt): (r: Resolver)
    requires s.Class? && ResolvableMethods(s.methods)
    ensures SameNames(st, r) && Grows(st, r)
    decreases s, 2
  {
    var st1 := SuperScope(st, s);
    var st2 := ResolveClassBody(st1, s);
    var r := EndScope(st2);
    assert forall i :: 0 <= i < |st.scopes| ==> r.scopes[i] == st2.scopes[i + 1];
    r
  }

  /** The scope binding `this`, holding the methods' resolution. */
  function ResolveClassBody(st: Resolver, s: Stmt): (r: Resolver)
    requires s.Class? && ResolvableMethods(s.methods)
    ensures SameNames(st, r) && Grows(st, r)
    decreases s, 1
  {
    var st1 := ThisScope(st, s);
    var st2 := ResolveMethods(st1, s.methods);
    var r := EndScope(st2);
    assert forall i :: 0 <= i < |st.scopes| ==> r.scopes[i] == st2.scopes[i + 1];
    r
  }

  /** The methods of a class, in order. */
  function ResolveMethods(st: Resolver, ms: seq<Method>): (r: Resolver)
    requires ResolvableMethods(ms)
    ensures SameNames(st, r) && Grows(st, r)
    decreases ms, 2
  {
    if ms == [] then st
    else
      var st1 := ResolveMethod(st, ms[0]);
      var r := ResolveMethods(st1, ms[1..]);
      GrowsTrans(st, st1, r);
      r
  }

  /** A method named `init` is resolved as an initializer, any other as a
      method. */
  function ResolveMethod(st: Resolver, m: Method): (r: Resolver)
    requires ResolvableMethod(m)
    ensures SameNames(st, r) && Grows(st, r)
    decreases m, 2
  {
    ResolveFunction(st, m.decl, if m.name.lexeme == "init" then InInitializer else InMethod)
  }

  /** `Resolve(List<Stmt>)`: the statements in order. */
  function ResolveStmts(st: Resolver, ss: seq<Stmt>): (r: Resolver)
    requires ResolvableStmts(ss)
    ensures AddsNames(st, r, DeclaredNames(ss)) && Grows(st, r)
    decreases ss, 2
  {
    if ss == [] then st
    else
      var st1 := ResolveStmt(st, ss[0]);
      var r := ResolveStmts(st1, ss[1..]);
      GrowsTrans(st, st1, r);
      r
  }

  /** Resolving a program from the fresh state ends outside every scope,
      function and class. */
  function ResolveProgram(ss: seq<Stmt>): (r: Resolver)
    requires ResolvableStmts(ss)
    ensures r.scopes == [] && r.currentFunction == NotInFunction && r.currentClass == NotInClass
    ensures forall k :: 0 <= k < |r.errors| ==> r.errors[k].message in Messages
  {
    ResolveStmts(Fresh, ss)
  }

  // ---------------------------------------------------------------------
  // Properties
  // ---------------------------------------------------------------------

  /** A reference definition: the innermost scope holding the name, the
      search a stack walked from its top would make. */
  function Innermost(scopes: seq<Scope>, name: string, i: nat): (r: Option<nat>)
    requires i <= |scopes|
    ensures r.Some? ==> i <= r.value < |scopes| && name in scopes[r.value] && forall j :: i <= j < r.value ==> name !in scopes[j]
    ensures r.None? ==> forall j :: i <= j < |scopes| ==> name !in scopes[j]
    decreases |scopes| - i
  {
    if i == |scopes| then None
    else if name in scopes[i] then Some(i)
    else Innermost(scopes, name, i + 1)
  }

  /** At most one scope on the stack holds the name. */
  predicate Unshadowed(scopes: seq<Scope>, name: string) {
    forall i, j :: 0 <= i < j < |scopes| && name in scopes[i] ==> name !in scopes[j]
  }

  /** `ResolveLocal` records the scope an innermost-first search would
      find exactly when the name is not shadowed: with a name bound in two
      scopes on the stack it resolves to the outer one. */
  lemma OutermostAgreesWithInnermostIffUnshadowed(st: Resolver, id: nat, name: Token, isRead: bool)
    requires exists j :: 0 <= j < |st.scopes| && name.lexeme in st.scopes[j]
    ensures var r := ResolveLocal(st, id, name, isRead);
            && |r.locals| == |st.locals| + 1
            && Innermost(st.scopes, name.lexeme, 0).Some?
            && (r.locals[|st.locals|].depth == Innermost(st.scopes, name.lexeme, 0).value
                <==> Unshadowed(st.scopes, name.lexeme))
  {
    var r := ResolveLocal(st, id, name, isRead);
    var d := r.locals[|st.locals|].depth;
    var inner := Innermost(st.scopes, name.lexeme, 0);
    assert inner.Some?;
    if d == inner.value {
      forall i, j | 0 <= i < j < |st.scopes| && name.lexeme in st.scopes[i]
        ensures name.lexeme !in st.scopes[j]
      {
        assert inner.value <= i;
      }
    } else {
      assert inner.value < d;
      assert !Unshadowed(st.scopes, name.lexeme) by {
        assert name.lexeme in st.scopes[inner.value] && name.lexeme in st.scopes[d];
      }
    }
  }

  /** With the name in the innermost scope and in the outermost one, the
      recorded distance is that of the outermost. */
  lemma ShadowedNameResolvesOutward(st: Resolver, id: nat, name: Token)
    requires |st.scopes| == 2 && name.lexeme in st.scopes[0] && name.lexeme in st.scopes[1]
    ensures ResolveLocal(st, id, name, true).locals == st.locals + [Local(id, 1)]
    ensures Innermost(st.scopes, name.lexeme, 0) == Some(0)
  {
  }

  /** Globals are not tracked: at the top level a variable declaration
      changes nothing, a redeclaration goes unreported, and a reference
      records no distance. */
  lemma GlobalsAreNotTracked(st: Resolver, name: Token, init: Option<Expr>, id: nat)
    requires st.scopes == [] && (init.Some? ==> ResolvableExpr(init.value))
    ensures init.None? ==> ResolveStmt(st, Stmt.Var(name, init)) == st
    ensures ResolveStmt(st, Stmt.Var(name, init)).errors == ResolveExprOrSkip(st, init).errors
    ensures ResolveExpr(st, Variable(id, name)) == st
  {
  }

  /** The initializer of a declaration, if there is one. */
  function ResolveExprOrSkip(st: Resolver, init: Option<Expr>): Resolver
    requires init.Some? ==> ResolvableExpr(init.value)
  {
    if init.Some? then ResolveExpr(st, init.value) else st
  }

  /** `{ var a; var a; }` reports the second declaration once, whatever
      surrounds the block. */
  lemma RedeclarationInBlockIsReported(st: Resolver, a: Token, b: Token)
    requires a.lexeme == b.lexeme
    ensures ResolveStmt(st, Block([Stmt.Var(a, None), Stmt.Var(b, None)])).errors
              == st.errors + [ResolveError(b, AlreadyDeclared)]
  {
    var ss := [Stmt.Var(a, None), Stmt.Var(b, None)];
    var st0 := BeginScope(st);
    var st1 := Define(Declare(st0, a), a);
    assert ResolveStmt(st0, ss[0]) == st1;
    assert st1.errors == st.errors && a.lexeme in st1.scopes[0];
    var st2 := Define(Declare(st1, b), b);
    assert ResolveStmt(st1, ss[1]) == st2;
    assert st2.errors == st.errors + [ResolveError(b, AlreadyDeclared)];
    assert ss[1..][1..] == [];
    assert ResolveStmts(st1, ss[1..]) == st2;
    assert ResolveStmts(st0, ss) == st2;
    assert ResolveStmt(st, Block(ss)) == EndScope(st2);
  }

  /** `{ var a = a; }` reports the read of `a` inside its own initializer. */
  lemma OwnInitializerIsReported(st: Resolver, a: Token, id: nat, b: Token)
    requires a.lexeme == b.lexeme
    ensures var block := Block([Stmt.Var(a, Some(Variable(id, b)))]);
            && ResolvableStmt(block)
            && ResolveStmt(st, block).errors == st.errors + [ResolveError(b, OwnInitializer)]
  {
    var s := Stmt.Var(a, Some(Variable(id, b)));
    assert ResolvableStmt(s);
    assert ResolvableStmt(Block([s]));
    var st0 := BeginScope(st);
    var st3 := ResolveStmt(st0, s);
    OwnInitializerStep(st0, s);
    assert [s][1..] == [];
    assert ResolveStmts(st0, [s]) == st3;
    assert ResolveStmt(st, Block([s])) == EndScope(st3);
  }

  /** The declaration inside that block, in a fresh innermost scope. */
  lemma OwnInitializerStep(st0: Resolver, s: Stmt)
    requires |st0.scopes| > 0 && st0.scopes[0] == map[]
    requires s.Var? && s.initializer.Some? && s.initializer.value.Variable?
    requires s.initializer.value.name.lexeme == s.name.lexeme
    ensures ResolveStmt(st0, s).errors == st0.errors + [ResolveError(s.initializer.value.name, OwnInitializer)]
  {
    var b := s.initializer.value.name;
    var st1 := Declare(st0, s.name);
    assert st1.errors == st0.errors;
    assert st1.scopes[0][b.lexeme].state == Declared;
    var st2 := ResolveVariable(st1, s.initializer.value.id, b);
    assert ResolveExpr(st1, s.initializer.value) == st2;
    assert ResolveVar(st0, s) == Define(st2, s.name);
  }

  /** However its initializer reads the name, a local declaration ends
      Defined in the innermost scope. */
  lemma DeclarationEndsDefined(st: Resolver, s: Stmt)
    requires s.Var? && ResolvableStmt(s) && |st.scopes| > 0
    ensures ResolveStmt(st, s).scopes[0][s.name.lexeme].state == Defined
  {
  }

  /** `return` at the top level is reported; inside a function or method
      it is not, and inside an initializer only a value is. */
  lemma ReturnChecks(st: Resolver, keyword: Token, value: Option<Expr>)
    requires value.Some? ==> ResolvableExpr(value.value)
    ensures var r := ResolveStmt(st, Stmt.Return(keyword, value));
            && |r.errors| >= |st.errors| + (if st.currentFunction == NotInFunction || (st.currentFunction == InInitializer && value.Some?) then 1 else 0)
            && (st.currentFunction == NotInFunction ==>
                  r.errors[..|st.errors| + 1] == st.errors + [ResolveError(keyword, TopLevelReturn)])
            && (st.currentFunction == InInitializer && value.Some? ==>
                  r.errors[..|st.errors| + 1] == st.errors + [ResolveError(keyword, InitializerReturn)])
            && ((st.currentFunction == InFunction || st.currentFunction == InMethod
                 || (st.currentFunction == InInitializer && value.None?)) ==>
                  r == ResolveExprOrSkip(st, value))
  {
    var r := ResolveStmt(st, Stmt.Return(keyword, value));
    if value.Some? {
      var st2 := ReportIf(ReportIf(st, st.currentFunction == NotInFunction, keyword, TopLevelReturn),
                          st.currentFunction == InInitializer, keyword, InitializerReturn);
      assert r == ResolveExpr(st2, value.value);
      assert st2.errors <= r.errors;
    }
  }

  /** `this` outside a class is reported; inside one it is not. `super`
      is never checked. */
  lemma ThisAndSuperChecks(st: Resolver, id: nat, keyword: Token, methodName: Token)
    ensures var r := ResolveExpr(st, Expr.This(id, keyword));
            |r.errors| == |st.errors| + (if st.currentClass == NotInClass then 1 else 0)
    ensures st.currentClass == NotInClass ==>
              ResolveExpr(st, Expr.This(id, keyword)).errors == st.errors + [ResolveError(keyword, ThisOutsideClass)]
    ensures ResolveExpr(st, Expr.Super(id, keyword, methodName)).errors == st.errors
  {
  }

  /** `break` is never checked, inside a loop or not. */
  lemma BreakIsUnchecked(st: Resolver, keyword: Token)
    ensures ResolveStmt(st, Stmt.Break(keyword)) == st
  {
  }

  /** A class without methods reports nothing inside its body. */
  lemma EmptyClassBodyIsSilent(st: Resolver, s: Stmt)
    requires s.Class? && s.methods == []
    ensures ResolveClassBody(st, s).errors == st.errors
    ensures ResolveSuperScope(st, s).errors == st.errors
  {
    var st1 := Bind(BeginScope(st), "this", Entry(s.name, Read));
    assert ResolveMethods(st1, s.methods) == st1;
    var st2 := Bind(BeginScope(st), "super", Entry(s.name, Read));
    var st3 := Bind(BeginScope(st2), "this", Entry(s.name, Read));
    assert ResolveMethods(st3, s.methods) == st3;
    assert ResolveClassBody(st2, s).errors == st.errors;
  }

  /** `class A < A { ... }` is reported, wherever it stands and whatever
      its methods: the report comes right after the class name's own
      (a redeclaration in the same scope), before anything the superclass
      reference or the methods report. */
  lemma SelfInheritanceIsReported(st: Resolver, s: Stmt)
    requires s.Class? && s.superclass.Some? && s.superclass.value.name.lexeme == s.name.lexeme
    requires ResolvableMethods(s.methods)
    ensures var i := |st.errors| + if |st.scopes| > 0 && s.name.lexeme in st.scopes[0] then 1 else 0;
            var r := ResolveStmt(st, s);
            i < |r.errors| && r.errors[i] == ResolveError(s.superclass.value.name, InheritsItself)
  {
    var i := |st.errors| + if |st.scopes| > 0 && s.name.lexeme in st.scopes[0] then 1 else 0;
    var st1 := ClassEntry(st, s);
    assert |st1.errors| == i;
    var st4 := SuperclassEntry(st, s);
    assert i < |st4.errors| && st4.errors[i] == ResolveError(s.superclass.value.name, InheritsItself);
    var r := ResolveSuperScope(st4, s);
    assert st4.errors <= r.errors;
    assert i < |r.errors| && r.errors[i] == ResolveError(s.superclass.value.name, InheritsItself);
    ClassWithSuperclass(st, s);
  }

  /** With a superclass, a class records what its `super` scope records. */
  lemma ClassWithSuperclass(st: Resolver, s: Stmt)
    requires s.Class? && s.superclass.Some? && ResolvableMethods(s.methods)
    ensures ResolveStmt(st, s).errors == ResolveSuperScope(SuperclassEntry(st, s), s).errors
    ensures ResolveStmt(st, s).locals == ResolveSuperScope(SuperclassEntry(st, s), s).locals
  {
    assert ResolveStmt(st, s) == ResolveClass(st, s);
  }

  /** `fun f(a, a) {}` reports the second parameter once, wherever it
      stands. */
  lemma RepeatedParameterIsReported(st: Resolver, a: Token, b: Token)
    requires a.lexeme == b.lexeme
    ensures ResolveFunction(st, FunctionDecl([a, b], []), InFunction).errors == st.errors + [ResolveError(b, AlreadyDeclared)]
  {
    var st0 := BeginScope(st.(currentFunction := InFunction));
    var st1 := Define(Declare(st0, a), a);
    var st2 := Define(Declare(st1, b), b);
    TwoParams(st0, a, b);
    assert DeclareParams(st0, [a, b]) == st2;
    assert FunctionScope(st, [a, b], InFunction) == st2;
    EmptyBody(st, [a, b], InFunction);
  }

  /** Declaring two parameters is declaring and defining one, then the
      other. */
  lemma TwoParams(st: Resolver, a: Token, b: Token)
    ensures DeclareParams(st, [a, b]) == Define(Declare(Define(Declare(st, a), a), b), b)
  {
    var ps := [a, b];
    var st1 := Define(Declare(st, a), a);
    DeclareParamsStep(st, ps);
    assert ps[0] == a && ps[1..] == [b];
    DeclareParamsStep(st1, [b]);
    assert [b][0] == b && [b][1..] == [];
  }

  /** One parameter of the loop. */
  lemma DeclareParamsStep(st: Resolver, params: seq<Token>)
    requires params != []
    ensures DeclareParams(st, params) == DeclareParams(Define(Declare(st, params[0]), params[0]), params[1..])
  {
  }

  /** A function without statements records what its parameters do. */
  lemma EmptyBody(st: Resolver, params: seq<Token>, kind: FunctionType)
    ensures ResolveFunction(st, FunctionDecl(params, []), kind).errors == FunctionScope(st, params, kind).errors
    ensures ResolveFunction(st, FunctionDecl(params, []), kind).locals == FunctionScope(st, params, kind).locals
  {
  }

  /** In `fun f(a) { a; }` the read of `a` is resolved to the function's
      own scope, at distance 0, and is not an error (the parameter is
      already Defined), when no enclosing scope holds `a`. */
  lemma ParameterReadIsLocal(st: Resolver, a: Token, id: nat, b: Token)
    requires a.lexeme == b.lexeme
    requires forall j :: 0 <= j < |st.scopes| ==> a.lexeme !in st.scopes[j]
    ensures var decl := FunctionDecl([a], [Stmt.Expression(Variable(id, b))]);
            && ResolvableStmts(decl.body)
            && ResolveFunction(st, decl, InFunction).locals == st.locals + [Local(id, 0)]
            && ResolveFunction(st, decl, InFunction).errors == st.errors
  {
    var stmt := Stmt.Expression(Variable(id, b));
    OneStatementBody(st, [a], stmt, InFunction);
    var stF := FunctionScope(st, [a], InFunction);
    assert [a][0] == a;
    assert a in [a];
    assert stF.errors == st.errors;
    InnermostOnlyRead(stF, id, b);
  }

  /** A read of a name that only the innermost scope holds, and holds
      past its initializer, records distance 0 and reports nothing. */
  lemma InnermostOnlyRead(st: Resolver, id: nat, name: Token)
    requires |st.scopes| > 0 && name.lexeme in st.scopes[0] && st.scopes[0][name.lexeme].state != Declared
    requires forall j :: 0 < j < |st.scopes| ==> name.lexeme !in st.scopes[j]
    ensures ResolveStmt(st, Stmt.Expression(Variable(id, name))).locals == st.locals + [Local(id, 0)]
    ensures ResolveStmt(st, Stmt.Expression(Variable(id, name))).errors == st.errors
  {
    var r := ResolveVariable(st, id, name);
    assert ResolveStmt(st, Stmt.Expression(Variable(id, name))) == r;
    assert r.locals[|st.locals|].depth == 0;
  }

  /** A function with one statement resolves it in its own scope. */
  lemma OneStatementBody(st: Resolver, params: seq<Token>, stmt: Stmt, kind: FunctionType)
    requires ResolvableStmt(stmt)
    ensures ResolvableStmts([stmt])
    ensures var r := ResolveStmt(FunctionScope(st, params, kind), stmt);
            && ResolveFunction(st, FunctionDecl(params, [stmt]), kind).errors == r.errors
            && ResolveFunction(st, FunctionDecl(params, [stmt]), kind).locals == r.locals
  {
    assert [stmt][1..] == [];
    var stF := FunctionScope(st, params, kind);
    assert ResolveStmts(stF, [stmt]) == ResolveStmts(ResolveStmt(stF, stmt), []);
  }

  /** The scope a class body is resolved in: `this`, bound to the class
      token and marked Read so that it is never reported unused. */
  function ThisScope(st: Resolver, s: Stmt): (r: Resolver)
    requires s.Class?
    ensures r.scopes == [map["this" := Entry(s.name, Read)]] + st.scopes
    ensures r == st.(scopes := r.scopes)
  {
    Bind(BeginScope(st), "this", Entry(s.name, Read))
  }

  /** The scope around it when the class has a superclass: `super`, bound
      the same way. */
  function SuperScope(st: Resolver, s: Stmt): (r: Resolver)
    requires s.Class?
    ensures r.scopes == [map["super" := Entry(s.name, Read)]] + st.scopes
    ensures r == st.(scopes := r.scopes)
  {
    Bind(BeginScope(st), "super", Entry(s.name, Read))
  }

  /** A one-method class, from the method body's point of view: its one
      statement is resolved in the function scope on top of the `this`
      scope, and what it records is what the class body records. */
  lemma OneMethodClassBody(st: Resolver, s: Stmt, stmt: Stmt)
    requires s.Class? && |s.methods| == 1 && s.methods[0].decl == FunctionDecl([], [stmt]) && ResolvableStmt(stmt)
    ensures ResolvableMethods(s.methods)
    ensures var kind := if s.methods[0].name.lexeme == "init" then InInitializer else InMethod;
            var body := ResolveStmt(FunctionScope(ThisScope(st, s), [], kind), stmt);
            ResolveClassBody(st, s).errors == body.errors && ResolveClassBody(st, s).locals == body.locals
  {
    var m := s.methods[0];
    OneStatementBody(ThisScope(st, s), [], stmt, if m.name.lexeme == "init" then InInitializer else InMethod);
    assert ResolvableMethod(m);
    assert s.methods[1..] == [];
    assert ResolveMethods(ThisScope(st, s), s.methods) == ResolveMethods(ResolveMethod(ThisScope(st, s), m), []);
  }

  /** `this;` in the one method of a class without a superclass, as in
      `class C { m() { this; } }`, is resolved to the class's `this`
      scope, one out from the method's own scope, and is not an error,
      when no enclosing scope holds `this`. */
  lemma ThisInMethodResolvesToClassScope(st: Resolver, s: Stmt, id: nat, kw: Token)
    requires s.Class? && s.superclass.None? && s.name.lexeme != "this"
    requires |s.methods| == 1 && s.methods[0].decl == FunctionDecl([], [Stmt.Expression(Expr.This(id, kw))])
    requires kw.lexeme == "this"
    requires forall j :: 0 <= j < |st.scopes| ==> "this" !in st.scopes[j]
    ensures ResolvableStmt(s)
    ensures ResolveStmt(st, s).locals == st.locals + [Local(id, 1)]
    ensures ResolveStmt(st, s).errors == Declare(st, s.name).errors
  {
    var stmt := Stmt.Expression(Expr.This(id, kw));
    var st1 := ClassEntry(st, s);
    OneMethodClassBody(st1, s, stmt);
    ClassWithoutSuperclass(st, s);
    var kind := if s.methods[0].name.lexeme == "init" then InInitializer else InMethod;
    MethodStack(st, s, kind);
    OuterThisRead(FunctionScope(ThisScope(st1, s), [], kind), id, kw);
  }

  /** Inside a method of a class, `this` is held by the scope just out
      from the method's own, and by none further out when none of the
      scopes around the class holds it. */
  lemma MethodStack(st: Resolver, s: Stmt, kind: FunctionType)
    requires s.Class? && s.name.lexeme != "this"
    requires forall j :: 0 <= j < |st.scopes| ==> "this" !in st.scopes[j]
    ensures var stF := FunctionScope(ThisScope(ClassEntry(st, s), s), [], kind);
            && |stF.scopes| == |st.scopes| + 2 && stF.currentClass == InClass
            && "this" in stF.scopes[1]
            && stF.errors == Declare(st, s.name).errors && stF.locals == st.locals
            && forall j :: 1 < j < |stF.scopes| ==> "this" !in stF.scopes[j]
  {
    var st1 := ClassEntry(st, s);
    var stF := FunctionScope(ThisScope(st1, s), [], kind);
    forall j | 1 < j < |stF.scopes|
      ensures "this" !in stF.scopes[j]
    {
      assert stF.scopes[j] == st1.scopes[j - 2];
      assert st1.scopes[j - 2].Keys == st.scopes[j - 2].Keys + if j == 2 then {s.name.lexeme} else {};
    }
  }

  /** Without a superclass, a class records what its body records. */
  lemma ClassWithoutSuperclass(st: Resolver, s: Stmt)
    requires s.Class? && s.superclass.None? && ResolvableMethods(s.methods)
    ensures ResolveStmt(st, s).errors == ResolveClassBody(ClassEntry(st, s), s).errors
    ensures ResolveStmt(st, s).locals == ResolveClassBody(ClassEntry(st, s), s).locals
  {
    assert ResolveStmt(st, s) == ResolveClass(st, s);
  }

  /** `super.m;` in the one method of a class with a superclass, as in
      `class C < B { n() { super.m; } }`, is resolved to the class's
      `super` scope, two out from the method's own scope (past the `this`
      scope), when no enclosing scope holds `super`: the one local it
      records follows those the class header recorded. */
  lemma SuperInMethodResolvesToSuperScope(st: Resolver, s: Stmt, id: nat, kw: Token, member: Token)
    requires s.Class? && s.superclass.Some? && s.name.lexeme != "super"
    requires |s.methods| == 1 && s.methods[0].decl == FunctionDecl([], [Stmt.Expression(Expr.Super(id, kw, member))])
    requires kw.lexeme == "super"
    requires forall j :: 0 <= j < |st.scopes| ==> "super" !in st.scopes[j]
    ensures ResolvableStmt(s)
    ensures ResolveStmt(st, s).locals == SuperclassEntry(st, s).locals + [Local(id, 2)]
  {
    var stmt := Stmt.Expression(Expr.Super(id, kw, member));
    assert ResolvableStmt(stmt);
    assert ResolvableMethod(s.methods[0]);
    var st4 := SuperclassEntry(st, s);
    SuperclassEntryKeeps(st, s, "super");
    SuperMethodBody(st4, s, id, kw, member);
    ClassWithSuperclass(st, s);
  }

  /** The `super` scope's part of the lemma above: the method body's read
      lands two scopes out, on top of whatever came before. */
  lemma SuperMethodBody(st: Resolver, s: Stmt, id: nat, kw: Token, member: Token)
    requires s.Class?
    requires |s.methods| == 1 && s.methods[0].decl == FunctionDecl([], [Stmt.Expression(Expr.Super(id, kw, member))])
    requires kw.lexeme == "super"
    requires forall j :: 0 <= j < |st.scopes| ==> "super" !in st.scopes[j]
    ensures ResolvableMethods(s.methods)
    ensures ResolveSuperScope(st, s).locals == st.locals + [Local(id, 2)]
  {
    var stmt := Stmt.Expression(Expr.Super(id, kw, member));
    var stS := SuperScope(st, s);
    var kind := if s.methods[0].name.lexeme == "init" then InInitializer else InMethod;
    var stF := FunctionScope(ThisScope(stS, s), [], kind);
    OneMethodClassBody(stS, s, stmt);
    SuperScopeBody(st, s);
    SuperMethodStack(st, s, kind);
    OuterSuperRead(stF, id, kw, member);
  }

  /** With a superclass, the class records what its body records inside
      the `super` scope. */
  lemma SuperScopeBody(st: Resolver, s: Stmt)
    requires s.Class? && ResolvableMethods(s.methods)
    ensures ResolveSuperScope(st, s).errors == ResolveClassBody(SuperScope(st, s), s).errors
    ensures ResolveSuperScope(st, s).locals == ResolveClassBody(SuperScope(st, s), s).locals
  {
  }

  /** Inside a method of a class with a superclass, `super` is held by the
      scope two out from the method's own, and by none further out when
      none of the scopes around the class holds it. */
  lemma SuperMethodStack(st: Resolver, s: Stmt, kind: FunctionType)
    requires s.Class?
    requires forall j :: 0 <= j < |st.scopes| ==> "super" !in st.scopes[j]
    ensures var stF := FunctionScope(ThisScope(SuperScope(st, s), s), [], kind);
            && |stF.scopes| == |st.scopes| + 3
            && "super" in stF.scopes[2]
            && forall j :: 2 < j < |stF.scopes| ==> "super" !in stF.scopes[j]
  {
    var stS := SuperScope(st, s);
    var stT := ThisScope(stS, s);
    var stF := FunctionScope(stT, [], kind);
    forall j | 2 < j < |stF.scopes|
      ensures "super" !in stF.scopes[j]
    {
      assert stF.scopes[j] == stT.scopes[j - 1] == stS.scopes[j - 2] == st.scopes[j - 3];
    }
  }

  /** Past the class name, the superclass step adds no name to any scope. */
  lemma SuperclassEntryKeeps(st: Resolver, s: Stmt, x: string)
    requires s.Class? && s.superclass.Some? && x != s.name.lexeme
    requires forall j :: 0 <= j < |st.scopes| ==> x !in st.scopes[j]
    ensures |SuperclassEntry(st, s).scopes| == |st.scopes|
    ensures forall j :: 0 <= j < |st.scopes| ==> x !in SuperclassEntry(st, s).scopes[j]
  {
    var st1 := ClassEntry(st, s);
    var st4 := SuperclassEntry(st, s);
    forall j | 0 <= j < |st.scopes|
      ensures x !in st4.scopes[j]
    {
      assert st4.scopes[j].Keys == st1.scopes[j].Keys;
      if j > 0 {
        assert st1.scopes[j].Keys == st.scopes[j].Keys;
      } else {
        assert st1.scopes[0].Keys == st.scopes[0].Keys + {s.name.lexeme};
      }
    }
  }

  /** A `super` that only the third scope on the stack holds records
      distance 2. */
  lemma OuterSuperRead(st: Resolver, id: nat, kw: Token, member: Token)
    requires |st.scopes| > 2 && kw.lexeme in st.scopes[2]
    requires forall j :: 2 < j < |st.scopes| ==> kw.lexeme !in st.scopes[j]
    ensures ResolveStmt(st, Stmt.Expression(Expr.Super(id, kw, member))).locals == st.locals + [Local(id, 2)]
  {
    var r := ResolveLocal(st, id, kw, true);
    assert ResolveStmt(st, Stmt.Expression(Expr.Super(id, kw, member))) == r;
    assert r.locals[|st.locals|].depth == 2;
  }

  /** A `this` that only the second scope on the stack holds, inside a
      class, records distance 1 and reports nothing. */
  lemma OuterThisRead(st: Resolver, id: nat, kw: Token)
    requires |st.scopes| > 1 && st.currentClass == InClass
    requires kw.lexeme in st.scopes[1]
    requires forall j :: 1 < j < |st.scopes| ==> kw.lexeme !in st.scopes[j]
    ensures ResolveStmt(st, Stmt.Expression(Expr.This(id, kw))).locals == st.locals + [Local(id, 1)]
    ensures ResolveStmt(st, Stmt.Expression(Expr.This(id, kw))).errors == st.errors
  {
    var r := ResolveLocal(st, id, kw, true);
    assert ResolveStmt(st, Stmt.Expression(Expr.This(id, kw))) == r;
    assert r.locals[|st.locals|].depth == 1;
  }

  /** A method named `init` is an initializer: returning a value from it
      is reported, while the same method under another name is not. */
  lemma InitializerReturnIsReported(st: Resolver, m: Token, keyword: Token)
    ensures var meth := Method(m, FunctionDecl([], [Stmt.Return(keyword, Some(Literal(LitNil)))]));
            && ResolvableMethod(meth)
            && (m.lexeme == "init" <==> ResolveMethod(st, meth).errors == st.errors + [ResolveError(keyword, InitializerReturn)])
  {
    var ret := Stmt.Return(keyword, Some(Literal(LitNil)));
    var body := [ret];
    assert ResolvableStmt(ret);
    assert ResolvableStmts(body);
    var kind := if m.lexeme == "init" then InInitializer else InMethod;
    var st1 := BeginScope(st.(currentFunction := kind));
    assert DeclareParams(st1, []) == st1;
    var st2 := ReportIf(st1, kind == InInitializer, keyword, InitializerReturn);
    assert ResolveExpr(st2, Literal(LitNil)) == st2;
    assert ResolveReturn(st1, ret) == st2;
    assert ResolveStmt(st1, ret) == st2;
    assert body[1..] == [];
    assert ResolveStmts(st2, body[1..]) == st2;
    assert ResolveStmts(st1, body) == st2;
    assert ResolveFunction(st, FunctionDecl([], body), kind) == EndScope(st2).(currentFunction := st.currentFunction);
  }
}

=== FILE: scanner.dfy ===
/** The scanner: source text to tokens. It is a cursor-driven lexer; every
    function here takes the source and the cursor and returns where the next
    scan step starts, instead of mutating `_start`, `_current` and `_line`. */
module Scanner {
  import opened Wrappers
  import opened Tokens
  import Keywords

  /** An error reported through the driver's `Error(line, message)`. */
  datatype LexError = LexError(line: nat, message: string)

  /** Where the scan step that produced a token started and ended. The
      original token does not keep these offsets; the model keeps them to
      state which part of the source each lexeme comes from. */
  datatype Span = Span(start: nat, end: nat)

  /** The outcome of one scan step: the cursor after it, the line counter
      after it, and at most one token or one error. */
  datatype Step = Step(next: nat, line: nat, token: Option<Token>, error: Option<LexError>)

  datatype ScanResult = ScanResult(tokens: seq<Token>, spans: seq<Span>, errors: seq<LexError>)

  predicate IsDigit(c: char) {
    '0' <= c <= '9'
  }

  predicate IsAlpha(c: char) {
    ('a' <= c <= 'z') || ('A' <= c <= 'Z') || c == '_'
  }

  predicate IsAlphaNumeric(c: char) {
    IsAlpha(c) || IsDigit(c)
  }

  /** The number of line breaks in `s`. */
  function Newlines(s: string): nat {
    if s == [] then 0 else (if s[0] == '\n' then 1 else 0) + Newlines(s[1..])
  }

  /** `Peek`: the character under the cursor, or NUL at the end. */
  function Peek(src: string, i: nat): char {
    if i >= |src| then '\0' else src[i]
  }

  /** `PeekNext`: the character after the cursor, or NUL past the end. */
  function PeekNext(src: string, i: nat): char {
    if i + 1 >= |src| then '\0' else src[i + 1]
  }

  /** The two lookahead functions see the character at the cursor and the
      one after it; neither ever sees past the end, and the expected
      character of `Match` (never NUL) is there exactly when `Peek` sees
      it. */
  lemma PeekLooksAhead(src: string, i: nat, expected: char)
    requires expected != '\0'
    ensures PeekNext(src, i) == Peek(src, i + 1)
    ensures i >= |src| ==> Peek(src, i) == '\0' && PeekNext(src, i) == '\0'
    ensures i < |src| ==> Peek(src, i) == src[i]
    ensures Match(src, i, expected).0 <==> Peek(src, i) == expected
  {
  }

  /** `Match`: consumes the expected character, and only on a hit. */
  function Match(src: string, i: nat, expected: char): (r: (bool, nat))
    ensures r.0 <==> i < |src| && src[i] == expected
    ensures r.1 == if r.0 then i + 1 else i
  {
    if i >= |src| then (false, i)
    else if src[i] != expected then (false, i)
    else (true, i + 1)
  }

  /** The end of the run of digits starting at `i`: the loop
      `while (IsDigit(Peek())) Advance();`. */
  function DigitsEnd(src: string, i: nat): (j: nat)
    requires i <= |src|
    ensures i <= j <= |src|
    ensures forall k :: i <= k < j ==> IsDigit(src[k])
    ensures j == |src| || !IsDigit(src[j])
    decreases |src| - i
  {
    if IsDigit(Peek(src, i)) then DigitsEnd(src, i + 1) else i
  }

  /** The end of the run of identifier characters starting at `i`. */
  function WordEnd(src: string, i: nat): (j: nat)
    requires i <= |src|
    ensures i <= j <= |src|
    ensures forall k :: i <= k < j ==> IsAlphaNumeric(src[k])
    ensures j == |src| || !IsAlphaNumeric(src[j])
    decreases |src| - i
  {
    if IsAlphaNumeric(Peek(src, i)) then WordEnd(src, i + 1) else i
  }

  /** The first line break at or after `i`, or the end of the source: where
      a `//` comment stops. The line break itself is not consumed. */
  function LineEnd(src: string, i: nat): (j: nat)
    requires i <= |src|
    ensures i <= j <= |src|
    ensures forall k :: i <= k < j ==> src[k] != '\n'
    ensures j == |src| || src[j] == '\n'
    decreases |src| - i
  {
    if Peek(src, i) != '\n' && i < |src| then LineEnd(src, i + 1) else i
  }

  /** The first double quote at or after `i`, or the end of the source. */
  function QuoteEnd(src: string, i: nat): (j: nat)
    requires i <= |src|
    ensures i <= j <= |src|
    ensures forall k :: i <= k < j ==> src[k] != Quote
    ensures j == |src| || src[j] == Quote
    decreases |src| - i
  {
    if Peek(src, i) != Quote && i < |src| then QuoteEnd(src, i + 1) else i
  }

  /** A star-slash pair starts at position `k`. */
  predicate ClosesAt(src: string, k: nat) {
    k + 1 < |src| && src[k] == '*' && src[k + 1] == '/'
  }

  /** The body of a block comment that started before `i`, with the loop
      condition the comment handler evidently intends: stop at the first
      star-slash pair. Returns the cursor after the closing star-slash pair and whether one was
      found; an unclosed comment runs to the end of the source. */
  function CommentEnd(src: string, i: nat): (r: (nat, bool))
    requires i <= |src|
    ensures i <= r.0 <= |src|
    ensures r.1 ==> i + 2 <= r.0 && ClosesAt(src, r.0 - 2)
    ensures r.1 ==> forall k :: i <= k < r.0 - 2 ==> !ClosesAt(src, k)
    ensures !r.1 ==> r.0 == |src| && forall k :: i <= k < |src| ==> !ClosesAt(src, k)
    decreases |src| - i
  {
    if !(Peek(src, i) == '*' && PeekNext(src, i) == '/') && i < |src| then CommentEnd(src, i + 1)
    else if i >= |src| then (i, false)
    else (i + 2, true)
  }

  /** What the block comment handler does as written. */
  datatype CommentOutcome =
    | Closed(next: nat, line: nat)
    | Unclosed(line: nat)
    | ReadPastEnd   // the second `Advance` indexes one past the end of the source

  /** Where the as-written comment loop stops: at a `*`, or at a character
      followed by `/`. */
  predicate LoopStops(src: string, k: nat)
    requires k < |src|
  {
    src[k] == '*' || PeekNext(src, k) == '/'
  }

  /** The block comment handler exactly as written: its loop runs while
      `Peek() != '*' && PeekNext() != '/'`, so it stops at the first `*` OR
      at the first character followed by `/`, counting the line breaks it
      passes; it then advances twice without checking for the end of the
      source, and without counting what those two calls pass over. */
  function BlockCommentAsWritten(src: string, i: nat, line: nat): (r: CommentOutcome)
    requires i <= |src|
    ensures r.Closed? ==> i + 2 <= r.next <= |src| && LoopStops(src, r.next - 2)
    ensures r.Closed? ==> forall k :: i <= k < r.next - 2 ==> !LoopStops(src, k)
    ensures r.Closed? ==> r.line == line + Newlines(src[i..r.next - 2])
    ensures r.Unclosed? <==> forall k :: i <= k < |src| ==> !LoopStops(src, k)
    ensures r.Unclosed? ==> r.line == line + Newlines(src[i..])
    ensures r.ReadPastEnd? ==> 0 < |src| && src[|src| - 1] == '*'
    ensures r.ReadPastEnd? ==> i < |src| && forall k :: i <= k < |src| - 1 ==> !LoopStops(src, k)
    decreases |src| - i
  {
    if Peek(src, i) != '*' && PeekNext(src, i) != '/' && i < |src| then
      var r := BlockCommentAsWritten(src, i + 1, if Peek(src, i) == '\n' then line + 1 else line);
      NewlinesHead(src, i, if r.Closed? then r.next - 2 else |src|);
      assert src[i..] == src[i..|src|] && src[i + 1..] == src[i + 1..|src|];
      r
    else if i >= |src| then Unclosed(line)
    else if i + 1 >= |src| then
      assert LoopStops(src, i);
      ReadPastEnd
    else
      assert LoopStops(src, i);
      Closed(i + 2, line)
  }

  /** The first character of `src[i..n]` followed by the rest. */
  lemma NewlinesHead(src: string, i: nat, n: nat)
    requires i < n <= |src|
    ensures Newlines(src[i..n]) == (if src[i] == '\n' then 1 else 0) + Newlines(src[i + 1..n])
  {
    assert src[i..n][1..] == src[i + 1..n];
  }

  /** A pair of characters at which the comment handler, if its loop
      stopped there, would skip a line break without counting it: a line
      break followed by `/`, or a `*` followed by a line break. */
  predicate DropsLine(src: string, k: nat)
    requires k + 1 < |src|
  {
    (src[k] == '\n' && src[k + 1] == '/') || (src[k] == '*' && src[k + 1] == '\n')
  }

  /** No such pair from `pos` on: the line counter then counts every line
      break the scanner consumes. */
  predicate NoDroppedLines(src: string, pos: nat) {
    forall k :: pos <= k && k + 1 < |src| ==> !DropsLine(src, k)
  }

  /** Where the loop stops without a dropping pair, the two unchecked
      `Advance` calls pass over no line break. */
  lemma StopDropsNothing(src: string, pos: nat, stop: nat)
    requires pos <= stop && stop + 1 < |src|
    requires LoopStops(src, stop) && NoDroppedLines(src, pos)
    ensures Newlines(src[stop..stop + 2]) == 0
  {
    assert !DropsLine(src, stop);
    var pair := src[stop..stop + 2];
    assert pair[1..] == [src[stop + 1]] && pair[1..][1..] == [];
    assert src[stop] != '\n' && src[stop + 1] != '\n';
    assert Newlines(pair[1..]) == 0;
  }

  /** The token the scan step `src[start..next]` emits. */
  function Emit(src: string, start: nat, next: nat, line: nat, kind: TokenType, literal: Literal): (r: Step)
    requires start <= next <= |src|
  {
    Step(next, line, Some(Token(kind, src[start..next], literal, line)), None)
  }

  /** No token, no error: whitespace and comments. */
  function Skip(next: nat, line: nat): Step {
    Step(next, line, None, None)
  }

  /** The kind of a single-character token, if `c` is one. */
  function SingleCharKind(c: char): Option<TokenType> {
    match c
    case '(' => Some(LeftParen)
    case ')' => Some(RightParen)
    case '{' => Some(LeftBrace)
    case '}' => Some(RightBrace)
    case ',' => Some(Comma)
    case '.' => Some(Dot)
    case '-' => Some(Minus)
    case '+' => Some(Plus)
    case ';' => Some(Semicolon)
    case '*' => Some(Star)
    case ':' => Some(Colon)
    case '?' => Some(Question)
    case _ => None
  }

  predicate IsOperatorStart(c: char) {
    c == '!' || c == '=' || c == '<' || c == '>'
  }

  /** The one-character kind of `!`, `=`, `<`, `>` and the kind of the same
      character followed by `=`. */
  function OperatorKinds(c: char): (TokenType, TokenType)
    requires IsOperatorStart(c)
  {
    match c
    case '!' => (Bang, BangEqual)
    case '=' => (Equal, EqualEqual)
    case '<' => (Less, LessEqual)
    case '>' => (Greater, GreaterEqual)
  }

  /** `!`, `=`, `<`, `>`: a two-character token exactly when `=` follows. */
  function ScanOperator(src: string, start: nat, line: nat): (r: Step)
    requires start < |src| && IsOperatorStart(src[start])
    ensures r.token.Some? && r.error.None? && r.line == line
    ensures var twoChar := start + 1 < |src| && src[start + 1] == '=';
            && r.next == (if twoChar then start + 2 else start + 1)
            && r.token.value.kind == (if twoChar then OperatorKinds(src[start]).1 else OperatorKinds(src[start]).0)
    ensures r.token.value.lexeme == src[start..r.next]
    ensures Newlines(src[start..r.next]) == 0
  {
    var (hit, next) := Match(src, start + 1, '=');
    var kinds := OperatorKinds(src[start]);
    NoNewlines(src[start..next]);
    Emit(src, start, next, line, if hit then kinds.1 else kinds.0, NoLiteral)
  }

  /** A slash and a star start at `start`: a block comment opens. */
  predicate OpensBlockComment(src: string, start: nat) {
    start + 1 < |src| && src[start] == '/' && src[start + 1] == '*'
  }

  /** `/`: a line comment, a block comment, or a SLASH token. A block
      comment is skipped by the handler as written; where that handler
      reads past the end of the source, the step is `None`, because the
      source throws there. */
  function ScanSlash(src: string, start: nat, line: nat): (r: Option<Step>)
    requires start < |src| && src[start] == '/'
    ensures r.None? <==>
              OpensBlockComment(src, start) && BlockCommentAsWritten(src, start + 2, line).ReadPastEnd?
    ensures r.Some? ==> Advances(src, start, line, r.value)
    ensures r.Some? && NoDroppedLines(src, start) ==> LinesCountedTo(src, start, line, r.value, r.value.next)
    ensures start + 1 < |src| && src[start + 1] == '/' ==>
              r == Some(Skip(LineEnd(src, start + 2), line))
    ensures !(start + 1 < |src| && (src[start + 1] == '/' || src[start + 1] == '*')) ==>
              r == Some(Step(start + 1, line, Some(Token(Slash, "/", NoLiteral, line)), None))
    ensures OpensBlockComment(src, start) ==> r == ScanBlockComment(src, start, line)
  {
    var (comment, afterSlash) := Match(src, start + 1, '/');
    if comment then
      var next := LineEnd(src, afterSlash);
      NoNewlines(src[start..next]);
      Some(Skip(next, line))
    else
      var (block, afterStar) := Match(src, start + 1, '*');
      if block then ScanBlockComment(src, start, line)
      else
        assert src[start..start + 1] == "/";
        NoNewlines(src[start..start + 1]);
        Some(Emit(src, start, start + 1, line, Slash, NoLiteral))
  }

  /** A block comment, skipped by the handler as written: the comment
      ends where that handler's loop stops, plus two characters; an
      unclosed comment reports an error on the line the loop reached;
      where the handler reads past the end of the source there is no
      step. */
  function ScanBlockComment(src: string, start: nat, line: nat): (r: Option<Step>)
    requires OpensBlockComment(src, start)
    ensures r.None? <==> BlockCommentAsWritten(src, start + 2, line).ReadPastEnd?
    ensures r.Some? ==> Advances(src, start, line, r.value)
    ensures r.Some? && NoDroppedLines(src, start) ==> LinesCountedTo(src, start, line, r.value, r.value.next)
    ensures BlockCommentAsWritten(src, start + 2, line).Closed? ==>
              var c := BlockCommentAsWritten(src, start + 2, line);
              r == Some(Skip(c.next, c.line))
    ensures BlockCommentAsWritten(src, start + 2, line).Unclosed? ==>
              var c := BlockCommentAsWritten(src, start + 2, line);
              r == Some(Step(|src|, c.line, None, Some(LexError(c.line, "Unclosed block comment"))))
  {
    match BlockCommentAsWritten(src, start + 2, line)
    case Closed(next, lineAfter) =>
      CommentOpenerLines(src, start, next - 2);
      ClosedCommentLines(src, start, next);
      Some(Skip(next, lineAfter))
    case Unclosed(lineAfter) =>
      CommentOpenerLines(src, start, |src|);
      assert src[start + 2..] == src[start + 2..|src|];
      Some(Step(|src|, lineAfter, None, Some(LexError(lineAfter, "Unclosed block comment"))))
    case ReadPastEnd => None
  }

  /** The block comment step the handler evidently intends: the comment
      runs to just after the first star-slash pair past the opener,
      counting every line break inside it; without such a pair it runs
      to the end of the source and is reported unclosed there. It never
      reads past the end. */
  function ScanBlockCommentIntended(src: string, start: nat, line: nat): (r: Step)
    requires OpensBlockComment(src, start)
    ensures LinesCountedTo(src, start, line, r, r.next) && r.token.None?
    ensures r.error.None? ==>
              && start + 4 <= r.next && ClosesAt(src, r.next - 2)
              && forall k :: start + 2 <= k < r.next - 2 ==> !ClosesAt(src, k)
    ensures r.error.Some? <==> forall k :: start + 2 <= k < |src| ==> !ClosesAt(src, k)
    ensures r.error.Some? ==> r.next == |src| && r.error.value == LexError(r.line, "Unclosed block comment")
  {
    var (next, closed) := CommentEnd(src, start + 2);
    var lineAfter := line + Newlines(src[start + 2..next]);
    CommentOpenerLines(src, start, next);
    if closed then Skip(next, lineAfter)
    else Step(|src|, lineAfter, None, Some(LexError(lineAfter, "Unclosed block comment")))
  }

  /** The opening slash and star hold no line break. */
  lemma CommentOpenerLines(src: string, start: nat, n: nat)
    requires OpensBlockComment(src, start) && start + 2 <= n <= |src|
    ensures Newlines(src[start..n]) == Newlines(src[start + 2..n])
  {
    NewlinesSplit(src, start, start + 2, n);
    NoNewlines(src[start..start + 2]);
  }

  /** Without a dropping pair, the two characters after the loop's stop
      hold no line break. */
  lemma ClosedCommentLines(src: string, start: nat, next: nat)
    requires start + 4 <= next <= |src| && LoopStops(src, next - 2)
    ensures NoDroppedLines(src, start) ==> Newlines(src[start..next]) == Newlines(src[start..next - 2])
  {
    if NoDroppedLines(src, start) {
      NewlinesSplit(src, start, next - 2, next);
      StopDropsNothing(src, start, next - 2);
    }
  }

  /** A string literal. Its literal is the text strictly between the quotes;
      an unterminated string reports an error and emits no token. */
  function ScanString(src: string, start: nat, line: nat): (r: Step)
    requires start < |src| && src[start] == Quote
    ensures start < r.next <= |src|
    ensures r.line == line + Newlines(src[start..r.next])
    ensures r.token.Some? <==> exists k :: start < k < |src| && src[k] == Quote
    ensures r.token.Some? ==>
              && r.error.None?
              && start + 2 <= r.next
              && src[r.next - 1] == Quote
              && r.token.value.kind == String
              && r.token.value.lexeme == src[start..r.next]
              && r.token.value.literal == StringLiteral(src[start + 1..r.next - 1])
              && r.token.value.line == r.line
              && forall k :: start < k < r.next - 1 ==> src[k] != Quote
    ensures r.token.None? ==>
              r.next == |src| && r.error == Some(LexError(r.line, "Unterminated string"))
  {
    var close := QuoteEnd(src, start + 1);
    var lineAfter := line + Newlines(src[start..close]);
    if close >= |src| then
      Step(close, lineAfter, None, Some(LexError(lineAfter, "Unterminated string")))
    else
      assert src[close] != '\n';
      NewlinesSplit(src, start, close, close + 1);
      NoNewlines(src[close..close + 1]);
      Emit(src, start, close + 1, lineAfter, String, StringLiteral(src[start + 1..close]))
  }

  predicate AllDigits(s: string) {
    forall k :: 0 <= k < |s| ==> IsDigit(s[k])
  }

  /** A number lexeme: digits, optionally a dot and more digits. */
  predicate IsNumberLexeme(s: string) {
    || (|s| > 0 && AllDigits(s))
    || exists d :: 0 < d < |s| - 1 && s[d] == '.' && AllDigits(s[..d]) && AllDigits(s[d + 1..])
  }

  /** A number: a maximal run of digits, with a fractional part only when
      the dot is immediately followed by a digit. */
  function ScanNumber(src: string, start: nat, line: nat): (r: Step)
    requires start < |src| && IsDigit(src[start])
    ensures r.error.None? && r.line == line && r.token.Some?
    ensures start < r.next <= |src|
    ensures Newlines(src[start..r.next]) == 0
    ensures r.token.value.kind == Number
    ensures r.token.value.lexeme == src[start..r.next]
    ensures r.token.value.literal == NumberLiteral(src[start..r.next])
    ensures IsNumberLexeme(src[start..r.next])
    ensures r.next == |src| || !IsDigit(src[r.next])
    ensures AllDigits(src[start..r.next]) && r.next < |src| && src[r.next] == '.' ==>
              !IsDigit(PeekNext(src, r.next))
  {
    var whole := DigitsEnd(src, start + 1);
    var r := ScanNumberFrom(src, start, whole, line);
    NoNewlines(src[start..r.next]);
    r
  }

  function ScanNumberFrom(src: string, start: nat, whole: nat, line: nat): (r: Step)
    requires start < whole <= |src|
    requires forall k :: start <= k < whole ==> IsDigit(src[k])
    requires whole == |src| || !IsDigit(src[whole])
    ensures r.error.None? && r.line == line && r.token.Some?
    ensures start < r.next <= |src|
    ensures forall k :: start <= k < r.next ==> src[k] != '\n'
    ensures r.token.value.kind == Number
    ensures r.token.value.lexeme == src[start..r.next]
    ensures r.token.value.literal == NumberLiteral(src[start..r.next])
    ensures IsNumberLexeme(src[start..r.next])
    ensures r.next == |src| || !IsDigit(src[r.next])
    ensures AllDigits(src[start..r.next]) && r.next < |src| && src[r.next] == '.' ==>
              !IsDigit(PeekNext(src, r.next))
  {
    if Peek(src, whole) == '.' && IsDigit(PeekNext(src, whole)) then
      var next := DigitsEnd(src, whole + 2);
      var s := src[start..next];
      var d := whole - start;
      assert s[d] == '.' && s[..d] == src[start..whole];
      assert s[d + 1..] == src[whole + 1..next];
      assert AllDigits(s[..d]);
      var fraction := s[d + 1..];
      assert AllDigits(fraction) by {
        forall k | 0 <= k < |fraction| ensures IsDigit(fraction[k]) {
          assert fraction[k] == src[whole + 1 + k];
        }
      }
      assert 0 < d < |s| - 1;
      assert IsNumberLexeme(s);
      assert !AllDigits(s) by {
        assert !IsDigit(s[d]);
      }
      forall k | start <= k < next
        ensures src[k] != '\n'
      {
        assert IsDigit(src[k]) || src[k] == '.';
      }
      Emit(src, start, next, line, Number, NumberLiteral(s))
    else
      forall k | start <= k < whole
        ensures src[k] != '\n'
      {
        assert IsDigit(src[k]);
      }
      assert AllDigits(src[start..whole]);
      Emit(src, start, whole, line, Number, NumberLiteral(src[start..whole]))
  }

  /** An identifier or keyword: a maximal run of letters, digits and `_`
      that starts with a letter or `_`, typed by the keyword table. */
  function ScanIdentifier(src: string, start: nat, line: nat): (r: Step)
    requires start < |src| && IsAlpha(src[start])
    ensures r.error.None? && r.line == line && r.token.Some?
    ensures start < r.next <= |src|
    ensures r.token.value.lexeme == src[start..r.next]
    ensures forall k :: start <= k < r.next ==> IsAlphaNumeric(src[k])
    ensures r.next == |src| || !IsAlphaNumeric(src[r.next])
    ensures Newlines(src[start..r.next]) == 0
    ensures Keywords.Lookup(src[start..r.next]).Some? ==>
              r.token.value.kind == Keywords.Lookup(src[start..r.next]).value
    ensures Keywords.Lookup(src[start..r.next]).None? ==> r.token.value.kind == Identifier
  {
    var next := WordEnd(src, start + 1);
    var text := src[start..next];
    var kind := match Keywords.Lookup(text) case Some(keyword) => keyword case None => Identifier;
    NoNewlines(text);
    Emit(src, start, next, line, kind, NoLiteral)
  }

  /** A character no scan rule accepts. */
  predicate UnexpectedChar(c: char) {
    && SingleCharKind(c).None? && !IsOperatorStart(c)
    && c != '/' && c != ' ' && c != '\r' && c != '\t' && c != '\n' && c != Quote
    && !IsDigit(c) && !IsAlpha(c)
  }

  /** The scan steps that always consume exactly one character: single
      character tokens, blanks, line breaks and unexpected characters. */
  predicate IsOneCharStep(c: char) {
    SingleCharKind(c).Some? || c == ' ' || c == '\r' || c == '\t' || c == '\n' || UnexpectedChar(c)
  }

  /** A one-character step. Blanks emit nothing, a line break bumps the line
      counter, and an unexpected character reports an error and emits
      nothing: scanning goes on with the next character. */
  function ScanOneChar(src: string, start: nat, line: nat): (r: Step)
    requires start < |src| && IsOneCharStep(src[start])
    ensures r.next == start + 1
    ensures r.line == line + Newlines(src[start..r.next])
    ensures src[start] == ' ' || src[start] == '\r' || src[start] == '\t' ==> r == Skip(start + 1, line)
    ensures src[start] == '\n' ==> r == Skip(start + 1, line + 1)
    ensures SingleCharKind(src[start]).Some? ==>
              r == Step(start + 1, line, Some(Token(SingleCharKind(src[start]).value, [src[start]], NoLiteral, line)), None)
    ensures UnexpectedChar(src[start]) ==>
              r == Step(start + 1, line, None, Some(LexError(line, "Unexpected character.")))
  {
    var c := src[start];
    assert src[start..start + 1] == [c];
    assert Newlines([c]) == if c == '\n' then 1 else 0;
    if SingleCharKind(c).Some? then Emit(src, start, start + 1, line, SingleCharKind(c).value, NoLiteral)
    else if c == '\n' then Skip(start + 1, line + 1)
    else if UnexpectedChar(c) then Step(start + 1, line, None, Some(LexError(line, "Unexpected character.")))
    else Skip(start + 1, line)
  }

  /** The step consumed at least one character, and its line counter
      moved over exactly the line breaks in `src[start..upTo]`. */
  predicate LinesCountedTo(src: string, start: nat, line: nat, r: Step, upTo: nat) {
    start < r.next <= |src| && start <= upTo <= r.next && r.line == line + Newlines(src[start..upTo])
  }

  /** The step skipped a block comment that the handler closed. */
  predicate ClosesComment(src: string, start: nat, r: Step) {
    OpensBlockComment(src, start) && r.error.None? && start + 4 <= r.next
  }

  /** A step from `start` on line `line` consumes some of the rest of the
      source and counts the line breaks it consumed, except the two
      characters a closed block comment ends with, which the handler's
      unchecked `Advance` calls pass over. */
  predicate Advances(src: string, start: nat, line: nat, r: Step) {
    LinesCountedTo(src, start, line, r, if ClosesComment(src, start, r) then r.next - 2 else r.next)
  }

  /** A token a step emits is spelled by the text the step consumed. */
  predicate Spells(src: string, start: nat, r: Step) {
    r.token.Some? ==> start <= r.next <= |src| && r.token.value.lexeme == src[start..r.next]
  }

  /** One scan step, starting at `start`. Every step consumes at least one
      character; a token's lexeme is the text the step consumed. The step
      is `None` exactly where the block comment handler reads past the end
      of the source, which it can only do when the source ends in `*`. */
  function ScanToken(src: string, start: nat, line: nat): (r: Option<Step>)
    requires start < |src|
    ensures r.None? ==> OpensBlockComment(src, start) && src[|src| - 1] == '*'
    ensures r.Some? ==> Advances(src, start, line, r.value)
    ensures r.Some? && NoDroppedLines(src, start) ==> LinesCountedTo(src, start, line, r.value, r.value.next)
    ensures r.Some? && r.value.token.Some? ==> r.value.error.None?
    ensures r.Some? ==> Spells(src, start, r.value)
    ensures r.Some? && r.value.token.Some? ==> r.value.token.value.line == r.value.line
    ensures r.Some? && r.value.token.Some? ==> r.value.token.value.kind != Eof
    ensures r.Some? && r.value.error.Some? ==> r.value.error.value.line == r.value.line
  {
    if src[start] == '/' then ScanSlash(src, start, line)
    else Some(ScanOther(src, start, line))
  }

  /** A step from any character but `/`, tried in the order of the
      original `switch`: single characters, operators, strings, numbers,
      then words. It counts every line break it consumes. */
  function ScanOther(src: string, start: nat, line: nat): (r: Step)
    requires start < |src| && src[start] != '/'
    ensures LinesCountedTo(src, start, line, r, r.next)
    ensures r.token.Some? ==> r.error.None?
    ensures Spells(src, start, r)
    ensures r.token.Some? ==> r.token.value.line == r.line && r.token.value.kind != Eof
    ensures r.error.Some? ==> r.error.value.line == r.line
  {
    var c := src[start];
    if IsOneCharStep(c) then ScanOneChar(src, start, line)
    else if IsOperatorStart(c) then ScanOperator(src, start, line)
    else if c == Quote then ScanString(src, start, line)
    else if IsDigit(c) then ScanNumber(src, start, line)
    else ScanIdentifier(src, start, line)
  }

  /** The tokens before EOF, scanned from cursor `pos`: each is the text of
      its span, and the spans lie in the source in order. */
  predicate Tiled(src: string, pos: nat, tokens: seq<Token>, spans: seq<Span>)
    requires |tokens| >= |spans|
  {
    && (forall k :: 0 <= k < |spans| ==>
          && pos <= spans[k].start < spans[k].end <= |src|
          && tokens[k].lexeme == src[spans[k].start..spans[k].end]
          && tokens[k].kind != Eof)
    && (forall k :: 0 < k < |spans| ==> spans[k - 1].end <= spans[k].start)
  }

  /** What scanning from cursor `pos` on line `line` yields: the tiled
      tokens followed by one EOF token; token lines start at `line`, never
      decrease, and never exceed `line` plus the line breaks before the end
      of the token (the EOF token: before the end of the source). */
  predicate Scanned(src: string, pos: nat, line: nat, r: ScanResult) {
    && pos <= |src|
    && |r.tokens| == |r.spans| + 1
    && Tiled(src, pos, r.tokens, r.spans)
    && r.tokens[|r.tokens| - 1].kind == Eof
    && r.tokens[|r.tokens| - 1].lexeme == ""
    && r.tokens[|r.tokens| - 1].literal == NoLiteral
    && r.tokens[|r.tokens| - 1].line <= line + Newlines(src[pos..])
    && (forall k :: 0 <= k < |r.tokens| ==> line <= r.tokens[k].line)
    && (forall k :: 0 < k < |r.tokens| ==> r.tokens[k - 1].line <= r.tokens[k].line)
    && (forall k :: 0 <= k < |r.spans| ==> r.tokens[k].line <= line + Newlines(src[pos..r.spans[k].end]))
  }

  /** Every token's line is exactly `line` plus the line breaks before the
      end of the token, and the EOF token's line is `line` plus the line
      breaks in the rest of the source. */
  predicate CountsEveryLine(src: string, pos: nat, line: nat, r: ScanResult) {
    && Scanned(src, pos, line, r)
    && r.tokens[|r.tokens| - 1].line == line + Newlines(src[pos..])
    && (forall k :: 0 <= k < |r.spans| ==> r.tokens[k].line == line + Newlines(src[pos..r.spans[k].end]))
  }

  /** `while (!IsAtEnd()) { _start = _current; ScanToken(); }` followed by
      the EOF token, from cursor `pos` on line `line`; `None` when a step
      throws. */
  function ScanFrom(src: string, pos: nat, line: nat): (r: Option<ScanResult>)
    requires pos <= |src|
    ensures r.None? ==> 0 < |src| && src[|src| - 1] == '*'
    ensures r.Some? ==> Scanned(src, pos, line, r.value)
    ensures r.Some? && NoDroppedLines(src, pos) ==> CountsEveryLine(src, pos, line, r.value)
    decreases |src| - pos
  {
    if pos >= |src| then
      Some(ScanResult([Token(Eof, "", NoLiteral, line)], [], []))
    else
      match ScanToken(src, pos, line)
      case None => None
      case Some(step) =>
        match ScanFrom(src, step.next, step.line)
        case None => None
        case Some(rest) =>
          PrependScanned(src, pos, line, step, rest);
          Some(Prepend(pos, step, rest))
  }

  /** Adds the token and error of one step in front of what the rest of
      the source produced. */
  function Prepend(pos: nat, step: Step, rest: ScanResult): ScanResult {
    var errors := if step.error.Some? then [step.error.value] + rest.errors else rest.errors;
    if step.token.Some? then
      ScanResult([step.token.value] + rest.tokens, [Span(pos, step.next)] + rest.spans, errors)
    else
      ScanResult(rest.tokens, rest.spans, errors)
  }

  /** One step of `ScanFrom` keeps what `Scanned` states, and, when the
      step counted every line break it consumed, what `CountsEveryLine`
      states. */
  lemma PrependScanned(src: string, pos: nat, line: nat, step: Step, rest: ScanResult)
    requires Advances(src, pos, line, step) && Spells(src, pos, step)
    requires step.token.Some? ==> step.token.value.line == step.line && step.token.value.kind != Eof
    requires Scanned(src, step.next, step.line, rest)
    ensures Scanned(src, pos, line, Prepend(pos, step, rest))
    ensures LinesCountedTo(src, pos, line, step, step.next) && CountsEveryLine(src, step.next, step.line, rest) ==>
              CountsEveryLine(src, pos, line, Prepend(pos, step, rest))
  {
    var r := Prepend(pos, step, rest);
    var upTo := if ClosesComment(src, pos, step) then step.next - 2 else step.next;
    NewlinesSplit(src, pos, upTo, step.next);
    PrependTiled(src, pos, step, rest);
    PrependEof(src, pos, line, step, rest);
    PrependLines(src, pos, line, step, rest);
    if LinesCountedTo(src, pos, line, step, step.next) && CountsEveryLine(src, step.next, step.line, rest) {
      PrependExactLines(src, pos, line, step, rest);
    }
  }

  /** Prepending a step keeps the tokens tiled. */
  lemma PrependTiled(src: string, pos: nat, step: Step, rest: ScanResult)
    requires pos < step.next <= |src| && Spells(src, pos, step)
    requires step.token.Some? ==> step.token.value.kind != Eof
    requires |rest.tokens| == |rest.spans| + 1 && Tiled(src, step.next, rest.tokens, rest.spans)
    ensures |Prepend(pos, step, rest).tokens| == |Prepend(pos, step, rest).spans| + 1
    ensures Tiled(src, pos, Prepend(pos, step, rest).tokens, Prepend(pos, step, rest).spans)
  {
  }

  /** The EOF token of the rest stays last, on a line within the bound. */
  lemma PrependEof(src: string, pos: nat, line: nat, step: Step, rest: ScanResult)
    requires pos < step.next <= |src| && line <= step.line <= line + Newlines(src[pos..step.next])
    requires |rest.tokens| == |rest.spans| + 1
    requires rest.tokens[|rest.tokens| - 1].line <= step.line + Newlines(src[step.next..])
    ensures var r := Prepend(pos, step, rest);
            && |r.tokens| > 0 && r.tokens[|r.tokens| - 1] == rest.tokens[|rest.tokens| - 1]
            && r.tokens[|r.tokens| - 1].line <= line + Newlines(src[pos..])
    ensures rest.tokens[|rest.tokens| - 1].line == step.line + Newlines(src[step.next..]) &&
            step.line == line + Newlines(src[pos..step.next]) ==>
              rest.tokens[|rest.tokens| - 1].line == line + Newlines(src[pos..])
  {
    NewlinesSplit(src, pos, step.next, |src|);
    assert src[step.next..] == src[step.next..|src|] && src[pos..] == src[pos..|src|];
  }

  /** Token lines stay at or above `line`, in order, and within the bound. */
  lemma PrependLines(src: string, pos: nat, line: nat, step: Step, rest: ScanResult)
    requires pos < step.next <= |src| && line <= step.line <= line + Newlines(src[pos..step.next])
    requires step.token.Some? ==> step.token.value.line == step.line
    requires Scanned(src, step.next, step.line, rest)
    ensures var r := Prepend(pos, step, rest);
            && (forall k :: 0 <= k < |r.tokens| ==> line <= r.tokens[k].line)
            && (forall k :: 0 < k < |r.tokens| ==> r.tokens[k - 1].line <= r.tokens[k].line)
            && (forall k :: 0 <= k < |r.spans| ==> r.tokens[k].line <= line + Newlines(src[pos..r.spans[k].end]))
  {
    PrependOrdered(src, pos, line, step, rest);
    PrependBounded(src, pos, line, step, rest);
  }

  /** Token lines stay at or above `line` and in order. */
  lemma PrependOrdered(src: string, pos: nat, line: nat, step: Step, rest: ScanResult)
    requires line <= step.line
    requires step.token.Some? ==> step.token.value.line == step.line
    requires |rest.tokens| > 0
    requires forall k :: 0 <= k < |rest.tokens| ==> step.line <= rest.tokens[k].line
    requires forall k :: 0 < k < |rest.tokens| ==> rest.tokens[k - 1].line <= rest.tokens[k].line
    ensures var r := Prepend(pos, step, rest);
            && (forall k :: 0 <= k < |r.tokens| ==> line <= r.tokens[k].line)
            && (forall k :: 0 < k < |r.tokens| ==> r.tokens[k - 1].line <= r.tokens[k].line)
  {
    var r := Prepend(pos, step, rest);
    if step.token.Some? {
      forall k | 0 < k < |r.tokens|
        ensures r.tokens[k - 1].line <= r.tokens[k].line
      {
        if k > 1 {
          assert r.tokens[k - 1] == rest.tokens[k - 2] && r.tokens[k] == rest.tokens[k - 1];
        }
      }
    }
  }

  /** Token lines stay within the line breaks before each token's end. */
  lemma PrependBounded(src: string, pos: nat, line: nat, step: Step, rest: ScanResult)
    requires pos < step.next <= |src| && line <= step.line <= line + Newlines(src[pos..step.next])
    requires step.token.Some? ==> step.token.value.line == step.line
    requires |rest.tokens| == |rest.spans| + 1
    requires forall k :: 0 <= k < |rest.spans| ==> step.next <= rest.spans[k].end <= |src|
    requires forall k :: 0 <= k < |rest.spans| ==>
               rest.tokens[k].line <= step.line + Newlines(src[step.next..rest.spans[k].end])
    ensures var r := Prepend(pos, step, rest);
            forall k :: 0 <= k < |r.spans| ==> r.tokens[k].line <= line + Newlines(src[pos..r.spans[k].end])
  {
    var r := Prepend(pos, step, rest);
    forall k | 0 <= k < |rest.spans|
      ensures rest.tokens[k].line <= line + Newlines(src[pos..rest.spans[k].end])
    {
      NewlinesSplit(src, pos, step.next, rest.spans[k].end);
    }
    if step.token.Some? {
      forall k | 0 <= k < |r.spans|
        ensures r.tokens[k].line <= line + Newlines(src[pos..r.spans[k].end])
      {
        if k > 0 {
          assert r.tokens[k] == rest.tokens[k - 1] && r.spans[k] == rest.spans[k - 1];
        }
      }
    }
  }

  /** A step that counted every line break keeps every token line exact. */
  lemma PrependExactLines(src: string, pos: nat, line: nat, step: Step, rest: ScanResult)
    requires LinesCountedTo(src, pos, line, step, step.next)
    requires step.token.Some? ==> step.token.value.line == step.line
    requires CountsEveryLine(src, step.next, step.line, rest)
    ensures var r := Prepend(pos, step, rest);
            forall k :: 0 <= k < |r.spans| ==> r.tokens[k].line == line + Newlines(src[pos..r.spans[k].end])
  {
    var r := Prepend(pos, step, rest);
    forall k | 0 <= k < |rest.spans|
      ensures rest.tokens[k].line == line + Newlines(src[pos..rest.spans[k].end])
    {
      NewlinesSplit(src, pos, step.next, rest.spans[k].end);
    }
    if step.token.Some? {
      forall k | 0 <= k < |r.spans|
        ensures r.tokens[k].line == line + Newlines(src[pos..r.spans[k].end])
      {
        if k > 0 {
          assert r.tokens[k] == rest.tokens[k - 1] && r.spans[k] == rest.spans[k - 1];
        }
      }
    }
  }

  /** `ScanTokens`: the whole source, from line 1. When no step throws, the
      result ends with exactly one EOF token, whose lexeme is empty; every
      other token's lexeme is a piece of the source, and the pieces appear
      in source order. Token lines count the line breaks before them, all
      of them when the source holds no pair at which the comment handler
      skips one. */
  function ScanTokens(src: string): (r: Option<ScanResult>)
    ensures r.None? ==> 0 < |src| && src[|src| - 1] == '*'
    ensures r.Some? ==> Scanned(src, 0, 1, r.value)
    ensures r.Some? && NoDroppedLines(src, 0) ==> CountsEveryLine(src, 0, 1, r.value)
  {
    ScanFrom(src, 0, 1)
  }

  lemma {:induction false} NewlinesConcat(a: string, b: string)
    ensures Newlines(a + b) == Newlines(a) + Newlines(b)
  {
    if a != [] {
      assert a + b != [];
      assert (a + b)[0] == a[0];
      assert (a + b)[1..] == a[1..] + b;
      NewlinesConcat(a[1..], b);
    } else {
      assert a + b == b;
    }
  }

  lemma NewlinesSplit(s: string, i: nat, j: nat, k: nat)
    requires i <= j <= k <= |s|
    ensures Newlines(s[i..k]) == Newlines(s[i..j]) + Newlines(s[j..k])
  {
    assert s[i..k] == s[i..j] + s[j..k];
    NewlinesConcat(s[i..j], s[j..k]);
  }

  lemma {:induction false} NoNewlines(s: string)
    requires forall k :: 0 <= k < |s| ==> s[k] != '\n'
    ensures Newlines(s) == 0
  {
    if s != [] {
      NoNewlines(s[1..]);
    }
  }

  /** A slash step is the slash rule's step. */
  lemma SlashStep(src: string, start: nat, line: nat)
    requires start < |src| && src[start] == '/'
    ensures ScanToken(src, start, line) == ScanSlash(src, start, line)
  {
  }

  /** A single-character step is the single-character rule's step. */
  lemma OneCharStep(src: string, start: nat, line: nat)
    requires start < |src| && IsOneCharStep(src[start])
    ensures ScanToken(src, start, line) == Some(ScanOneChar(src, start, line))
  {
  }

  /** One step of `ScanFrom`, unfolded. */
  lemma ScanFromStep(src: string, pos: nat, line: nat)
    requires pos < |src|
    ensures ScanToken(src, pos, line).None? ==> ScanFrom(src, pos, line).None?
    ensures ScanToken(src, pos, line).Some? ==>
              var step := ScanToken(src, pos, line).value;
              var rest := ScanFrom(src, step.next, step.line);
              ScanFrom(src, pos, line) == if rest.None? then None else Some(Prepend(pos, step, rest.value))
  {
  }
}

=== FILE: scanner_examples.dfy ===
/** Worked examples of the scanner: the block comment handler as written
    against the intended one, and the rules that decide which scanner rule
    a character starts. */
module ScannerExamples {
  import opened Wrappers
  import opened Tokens
  import opened Scanner
  import Keywords

  /** A block comment with a star inside it: slash, star, blank, `a`,
      star, `b`, blank, star, slash. */
  const StarInComment: string := ['/', '*', ' ', 'a', '*', 'b', ' ', '*', '/']

  /** An unclosed block comment holding one star: slash, star, star. */
  const OpenerThenStar: string := ['/', '*', '*']

  /** A block comment whose body is a line break followed by a slash:
      slash, star, line break, slash. */
  const BreakThenSlash: string := ['/', '*', '\n', '/']

  /** The comment handler as written takes the first star inside a block
      comment for its end: in the nine-character source above, its loop
      stops at the star between `a` and `b` (index 4), the two unchecked
      `Advance` calls consume that star and the `b`, and the rest (a blank,
      a star and a slash) is scanned as code, where the intended scan
      consumes the whole comment. */
  lemma AsWrittenCommentClosesAtStar()
    ensures BlockCommentAsWritten(StarInComment, 2, 1) == Closed(6, 1)
    ensures CommentEnd(StarInComment, 2) == (9, true)
  {
    var src := StarInComment;
    assert !LoopStops(src, 2) && !LoopStops(src, 3) && LoopStops(src, 4);
    assert forall k :: 2 <= k < 7 ==> !ClosesAt(src, k);
    assert ClosesAt(src, 7);
  }

  /** The whole scan of that source: the comment is skipped up to index 6,
      and the closing star and slash become a STAR and a SLASH token. */
  lemma StarInCommentScansStarSlash()
    ensures ScanTokens(StarInComment).Some?
    ensures var ts := ScanTokens(StarInComment).value.tokens;
            |ts| == 3 && ts[0].kind == Star && ts[1].kind == Slash && ts[2].kind == Eof
  {
    AsWrittenCommentClosesAtStar();
    ClosedCommentSkipped(StarInComment, 1);
    StarInCommentTail();
  }

  /** A source that opens with a block comment the handler closes scans
      as the rest after the comment, from the line the handler reached. */
  lemma ClosedCommentSkipped(src: string, line: nat)
    requires OpensBlockComment(src, 0) && BlockCommentAsWritten(src, 2, line).Closed?
    ensures var c := BlockCommentAsWritten(src, 2, line);
            ScanFrom(src, 0, line) == ScanFrom(src, c.next, c.line)
  {
    SlashStep(src, 0, line);
    ScanFromStep(src, 0, line);
  }

  /** What follows the comment the handler closed early: a blank, then a
      STAR and a SLASH token. */
  lemma StarInCommentTail()
    ensures ScanFrom(StarInComment, 6, 1).Some?
    ensures var ts := ScanFrom(StarInComment, 6, 1).value.tokens;
            |ts| == 3 && ts[0].kind == Star && ts[1].kind == Slash && ts[2].kind == Eof
  {
    var src := StarInComment;
    OneCharStep(src, 6, 1);
    assert src[6] == ' ' && src[7] == '*' && src[8] == '/';
    StarSlashScans(src, 7, 1);
    ScanFromStep(src, 6, 1);
  }

  /** A star and a slash that end the source, scanned as code: a STAR and
      a SLASH token, then EOF. */
  lemma StarSlashScans(src: string, pos: nat, line: nat)
    requires pos + 2 == |src| && src[pos] == '*' && src[pos + 1] == '/'
    ensures ScanFrom(src, pos, line).Some?
    ensures var ts := ScanFrom(src, pos, line).value.tokens;
            |ts| == 3 && ts[0].kind == Star && ts[1].kind == Slash && ts[2].kind == Eof
  {
    StarStep(src, pos, line);
    SlashEndScans(src, pos + 1, line);
    ScanFromStep(src, pos, line);
  }

  /** A star scanned as code is a STAR token. */
  lemma StarStep(src: string, pos: nat, line: nat)
    requires pos < |src| && src[pos] == '*'
    ensures ScanToken(src, pos, line) == Some(Step(pos + 1, line, Some(Token(Star, [src[pos]], NoLiteral, line)), None))
  {
    OneCharStep(src, pos, line);
  }

  /** A slash that ends the source, scanned as code: a SLASH token, then
      EOF. */
  lemma SlashEndScans(src: string, pos: nat, line: nat)
    requires pos + 1 == |src| && src[pos] == '/'
    ensures ScanFrom(src, pos, line).Some?
    ensures var ts := ScanFrom(src, pos, line).value.tokens;
            |ts| == 2 && ts[0].kind == Slash && ts[1].kind == Eof
  {
    SlashStep(src, pos, line);
    ScanFromStep(src, pos, line);
  }

  /** In a source of a slash and two stars, the loop stops at the last
      character; the first of the two `Advance` calls consumes it and the
      second reads past the end of the source, so the scan has no result.
      The intended scan reports an unclosed comment. */
  lemma AsWrittenCommentReadsPastEnd()
    ensures BlockCommentAsWritten(OpenerThenStar, 2, 1) == ReadPastEnd
    ensures CommentEnd(OpenerThenStar, 2) == (3, false)
    ensures ScanTokens(OpenerThenStar).None?
  {
    assert LoopStops(OpenerThenStar, 2);
    SlashStep(OpenerThenStar, 0, 1);
  }

  /** A line break followed by a slash also stops the loop: the comment
      counts as closed, the line break is consumed without being counted,
      and the EOF token stays on line 1 although the source holds a line
      break. The intended scan reports an unclosed comment. */
  lemma AsWrittenCommentDropsLine()
    ensures BlockCommentAsWritten(BreakThenSlash, 2, 1) == Closed(4, 1)
    ensures CommentEnd(BreakThenSlash, 2) == (4, false)
    ensures Newlines(BreakThenSlash) == 1
  {
    var src := BreakThenSlash;
    assert LoopStops(src, 2);
    assert !ClosesAt(src, 2) && !ClosesAt(src, 3);
    assert src[1..][1..][1..][1..] == [];
  }

  /** The scan of that source is the EOF token alone, on line 1. */
  lemma BreakThenSlashScansEofOnLineOne()
    ensures ScanTokens(BreakThenSlash) == Some(ScanResult([Token(Eof, "", NoLiteral, 1)], [], []))
  {
    AsWrittenCommentDropsLine();
    ClosedCommentSkipped(BreakThenSlash, 1);
  }


  /** The intended step skips the whole comment with a star inside. */
  lemma IntendedSkipsStarInComment()
    ensures ScanBlockCommentIntended(StarInComment, 0, 1) == Skip(9, 1)
  {
    var a := StarInComment;
    assert forall k :: 2 <= k < 7 ==> !ClosesAt(a, k);
    NoNewlines(a);
    assert a[..9] == a;
    IntendedClosesAt(a, 1, 7);
  }

  /** The intended step reports a slash and two stars unclosed. */
  lemma IntendedReportsOpenerThenStar()
    ensures ScanBlockCommentIntended(OpenerThenStar, 0, 1) == Step(3, 1, None, Some(LexError(1, "Unclosed block comment")))
  {
    NoNewlines(OpenerThenStar);
    IntendedUnclosed(OpenerThenStar, 1);
  }

  /** The intended step reports the comment holding a line break and a
      slash unclosed, on line 2 after counting the line break. */
  lemma IntendedReportsBreakThenSlash()
    ensures ScanBlockCommentIntended(BreakThenSlash, 0, 1) == Step(4, 2, None, Some(LexError(2, "Unclosed block comment")))
  {
    AsWrittenCommentDropsLine();
    IntendedUnclosed(BreakThenSlash, 1);
  }

  /** The intended step closes at the first star-slash pair. */
  lemma IntendedClosesAt(src: string, line: nat, k: nat)
    requires OpensBlockComment(src, 0) && 2 <= k && ClosesAt(src, k)
    requires forall j :: 2 <= j < k ==> !ClosesAt(src, j)
    ensures ScanBlockCommentIntended(src, 0, line) == Skip(k + 2, line + Newlines(src[..k + 2]))
  {
    assert src[0..k + 2] == src[..k + 2];
  }

  /** Without a star-slash pair the intended step reports the comment
      unclosed, on the line of the end of the source. */
  lemma IntendedUnclosed(src: string, line: nat)
    requires OpensBlockComment(src, 0)
    requires forall j :: 2 <= j < |src| ==> !ClosesAt(src, j)
    ensures var l := line + Newlines(src);
            ScanBlockCommentIntended(src, 0, line) == Step(|src|, l, None, Some(LexError(l, "Unclosed block comment")))
  {
    assert src[0..|src|] == src;
  }

  /** Where the loop as written first stops at a real star-slash pair, it
      ends the comment where the intended loop does. */
  lemma AsWrittenAgreesAtStarSlash(src: string, i: nat, line: nat)
    requires i <= |src|
    ensures var c := BlockCommentAsWritten(src, i, line);
            c.Closed? && ClosesAt(src, c.next - 2) ==> CommentEnd(src, i) == (c.next, true)
  {
    var c := BlockCommentAsWritten(src, i, line);
    if c.Closed? && ClosesAt(src, c.next - 2) {
      var e := CommentEnd(src, i);
      assert forall k :: i <= k < c.next - 2 ==> !ClosesAt(src, k) by {
        forall k | i <= k < c.next - 2 ensures !ClosesAt(src, k) {
          assert !LoopStops(src, k);
        }
      }
    }
  }

  /** A digit followed by a dot. */
  const OneDot: string := ['1', '.']

  /** A digit always starts a number: no other rule claims it. */
  lemma DigitStartsNumber(src: string, start: nat, line: nat)
    requires start < |src| && IsDigit(src[start])
    ensures ScanToken(src, start, line) == Some(ScanNumber(src, start, line))
  {
    assert !IsOneCharStep(src[start]);
  }

  /** A dot not followed by a digit is not part of a number: `1.` scans as
      the number `1` (see `DigitStartsNumber`), and the dot is left for the
      next step. */
  lemma TrailingDotIsNotAFraction()
    ensures var r := ScanNumber(OneDot, 0, 1);
            r.next == 1 && r.token == Some(Token(Number, "1", NumberLiteral("1"), 1))
  {
    var r := ScanNumber(OneDot, 0, 1);
    assert r.next == 1 by {
      assert !IsDigit(OneDot[1]);
    }
    assert OneDot[0..1] == "1";
  }

  /** A letter or underscore always starts a word: no other rule claims it. */
  lemma LetterStartsWord(src: string, start: nat, line: nat)
    requires start < |src| && IsAlpha(src[start])
    ensures ScanToken(src, start, line) == Some(ScanIdentifier(src, start, line))
  {
    assert !IsOneCharStep(src[start]);
  }

  /** The keyword `or` on its own. */
  const OrWord: string := ['o', 'r']

  /** Keywords are whole words: `or` is the keyword, and `orchid` (see
      `LongerWordIsIdentifier`) an identifier, because the identifier rule
      reads the longest run of identifier characters before consulting the
      table. */
  lemma KeywordsAreWholeWords()
    ensures ScanIdentifier(OrWord, 0, 1).token.value.kind == Or
  {
    assert Keywords.Lookup(OrWord) == Some(Or) by {
      Keywords.ReservedKeys();
      Keywords.ReservedEntries2();
    }
    WholeWordScans(OrWord, 1);
  }

  /** A source that is one word of identifier characters scans as one
      token spelling the whole source. */
  lemma WholeWordScans(src: string, line: nat)
    requires 0 < |src| && IsAlpha(src[0])
    requires forall k :: 0 <= k < |src| ==> IsAlphaNumeric(src[k])
    ensures ScanIdentifier(src, 0, line).next == |src|
    ensures ScanIdentifier(src, 0, line).token.value.lexeme == src
  {
    assert src[0..|src|] == src;
  }

  /** A word that starts with the keyword `or`. */
  const Orchid: string := ['o', 'r', 'c', 'h', 'i', 'd']

  /** A word that merely starts with a keyword is an identifier: the
      whole of `orchid`, which `LetterStartsWord` hands to this rule, is
      one identifier token. */
  lemma LongerWordIsIdentifier()
    ensures var t := ScanIdentifier(Orchid, 0, 1).token.value;
            t.kind == Identifier && t.lexeme == Orchid
  {
    OrchidIsNoKeyword();
    WholeWordScans(Orchid, 1);
  }

  lemma OrchidIsNoKeyword()
    ensures Keywords.Lookup(Orchid).None?
  {
    Keywords.ReservedKeys();
  }
}

=== FILE: tokens.dfy ===
/** Tokens produced by the scanner and consumed by the parser. */
module Tokens {

  /** The token kinds the scanner can emit. `Eof` closes every token list. */
  datatype TokenType =
    // single-character tokens
    | LeftParen | RightParen | LeftBrace | RightBrace
    | Comma | Dot | Minus | Plus | Semicolon | Slash | Star | Colon | Question
    // one- or two-character tokens
    | Bang | BangEqual | Equal | EqualEqual
    | Greater | GreaterEqual | Less | LessEqual
    // literals
    | Identifier | String | Number
    // keywords
    | And | Class | Else | False | Fun | For | If | Nil | Or | Print
    | Return | Super | This | True | Var | While | Break
    | Eof

  /** The literal carried by a token. A number keeps its source text: the
      conversion to a double is not modelled. */
  datatype Literal = NoLiteral | StringLiteral(text: string) | NumberLiteral(text: string)

  datatype Token = Token(kind: TokenType, lexeme: string, literal: Literal, line: nat)

  /** The double-quote character that delimits string literals. */
  const Quote: char := 34 as char
}

=== FILE: values.dfy ===
/** Runtime values of the interpreter and the interpreter's static helpers
    on them: truthiness, equality and printing. The original stores values
    as untyped objects (`null`, `bool`, `double`, `string`, functions);
    here they are one closed datatype. */
module Values {
  import opened Tokens
  import opened Ast

  /** A function value: the declaration it was made from, the name it
      prints under, and the scope (an index into the environment arena) it
      closes over. `id` stands for the object's identity, which is what
      equality on functions compares. */
  datatype LoxFunction = LoxFunction(id: nat, name: Token, decl: FunctionDecl, closure: nat)

  datatype Value =
    | NilVal
    | BoolVal(b: bool)
    | NumVal(n: Num)
    | StrVal(s: string)
    | FunVal(f: LoxFunction)

  /** The double operations the interpreter uses, supplied from outside:
      IEEE-754 arithmetic and comparison, `double.Equals`, and
      `double.ToString()`. */
  datatype NumOps = NumOps(
    add: (Num, Num) -> Num,
    sub: (Num, Num) -> Num,
    mul: (Num, Num) -> Num,
    div: (Num, Num) -> Num,
    neg: Num -> Num,
    greater: (Num, Num) -> bool,
    greaterEq: (Num, Num) -> bool,
    less: (Num, Num) -> bool,
    lessEq: (Num, Num) -> bool,
    equals: (Num, Num) -> bool,
    format: Num -> string)

  /** A runtime error: the token it is reported at and its message. */
  datatype RuntimeError = RuntimeError(token: Token, message: string)

  /** The object a literal node holds. */
  function FromLiteral(lit: Lit): (v: Value)
    ensures v.FunVal? == false
    ensures lit.LitNil? <==> v.NilVal?
    ensures lit.LitBool? ==> v == BoolVal(lit.b)
    ensures lit.LitNumber? ==> v == NumVal(lit.n)
    ensures lit.LitString? ==> v == StrVal(lit.s)
  {
    match lit
    case LitNil => NilVal
    case LitBool(b) => BoolVal(b)
    case LitNumber(n) => NumVal(n)
    case LitString(s) => StrVal(s)
  }

  /** `IsTruthy`: `nil` and `false` are false, everything else (zero and
      the empty string included) is true. */
  function IsTruthy(v: Value): (r: bool)
    ensures r <==> v != NilVal && v != BoolVal(false)
  {
    match v
    case BoolVal(b) => b
    case NilVal => false
    case _ => true
  }

  /** `IsEqual`: two nils are equal, nil equals nothing else, and
      otherwise the left operand's `Equals` decides: numbers by
      `double.Equals`, booleans and strings by value, functions by
      identity. Values of different kinds are never equal. */
  function IsEqual(ops: NumOps, a: Value, b: Value): (r: bool)
    ensures a.NilVal? || b.NilVal? ==> (r <==> a.NilVal? && b.NilVal?)
    ensures r ==> SameKind(a, b)
    ensures a.StrVal? && b.StrVal? ==> (r <==> a.s == b.s)
    ensures a.BoolVal? && b.BoolVal? ==> (r <==> a.b == b.b)
  {
    if a.NilVal? && b.NilVal? then true
    else if a.NilVal? then false
    else
      match a
      case BoolVal(x) => b.BoolVal? && b.b == x
      case NumVal(x) => b.NumVal? && ops.equals(x, b.n)
      case StrVal(x) => b.StrVal? && b.s == x
      case FunVal(x) => b.FunVal? && b.f.id == x.id
  }

  predicate SameKind(a: Value, b: Value) {
    match a
    case NilVal => b.NilVal?
    case BoolVal(_) => b.BoolVal?
    case NumVal(_) => b.NumVal?
    case StrVal(_) => b.StrVal?
    case FunVal(_) => b.FunVal?
  }

  /** `double.Equals` is reflexive (it treats NaN as equal to itself), so
      `IsEqual` is reflexive too. */
  lemma IsEqualReflexive(ops: NumOps, a: Value)
    requires forall n: Num :: ops.equals(n, n)
    ensures IsEqual(ops, a, a)
  {
  }

  lemma IsEqualSymmetric(ops: NumOps, a: Value, b: Value)
    requires forall x: Num, y: Num :: ops.equals(x, y) == ops.equals(y, x)
    ensures IsEqual(ops, a, b) == IsEqual(ops, b, a)
  {
  }

  /** With bitwise number equality, `IsEqual` is structural equality
      except that functions compare by identity alone. */
  lemma IsEqualIsStructural(ops: NumOps, a: Value, b: Value)
    requires forall x: Num, y: Num :: ops.equals(x, y) <==> x == y
    requires !a.FunVal?
    ensures IsEqual(ops, a, b) <==> a == b
  {
  }

  /** There is no coercion: the number one and the string "1" differ. */
  lemma NoCoercion(ops: NumOps, n: Num, s: string)
    ensures !IsEqual(ops, NumVal(n), StrVal(s))
    ensures !IsEqual(ops, StrVal(s), NumVal(n))
    ensures !IsEqual(ops, BoolVal(false), NilVal)
  {
  }

  /** `text.EndsWith(".0")`. */
  predicate EndsPointZero(text: string) {
    |text| >= 2 && text[|text| - 2..] == ".0"
  }

  /** Drops a trailing ".0" from a formatted double. */
  function StripPointZero(text: string): (r: string)
    ensures EndsPointZero(text) ==> r + ".0" == text
    ensures !EndsPointZero(text) ==> r == text
  {
    if EndsPointZero(text) then text[..|text| - 2] else text
  }

  /** `Stringify`: the text `print` writes for a value. Booleans go
      through .NET's `Boolean.ToString`, so they print capitalised; a
      number is written as the double's own text, less a trailing ".0" if
      it had one. */
  function Stringify(ops: NumOps, v: Value): (r: string)
    ensures v.NilVal? ==> r == "nil"
    ensures v.StrVal? ==> r == v.s
    ensures v.BoolVal? ==> r == (if v.b then "True" else "False")
    ensures v.NumVal? && EndsPointZero(ops.format(v.n)) ==> r + ".0" == ops.format(v.n)
    ensures v.NumVal? && !EndsPointZero(ops.format(v.n)) ==> r == ops.format(v.n)
    ensures v.FunVal? ==>
              && |r| == |v.f.name.lexeme| + 5
              && r[..4] == "<fn " && r[4..|r| - 1] == v.f.name.lexeme && r[|r| - 1] == '>'
  {
    match v
    case NilVal => "nil"
    case BoolVal(b) => if b then "True" else "False"
    case NumVal(n) => StripPointZero(ops.format(n))
    case StrVal(s) => s
    case FunVal(f) => FunctionText(f)
  }

  /** `LoxFunction.ToString`: `<fn name>`. */
  function FunctionText(f: LoxFunction): (r: string)
    ensures |r| == |f.name.lexeme| + 5
    ensures r[..4] == "<fn " && r[|r| - 1] == '>' && r[4..|r| - 1] == f.name.lexeme
  {
    "<fn " + f.name.lexeme + ">"
  }

  /** Printing does not tell nil from the string "nil", nor true from the
      string "True". */
  lemma StringifyIsNotInjective(ops: NumOps)
    ensures Stringify(ops, NilVal) == Stringify(ops, StrVal("nil"))
    ensures Stringify(ops, BoolVal(true)) == Stringify(ops, StrVal("True"))
    ensures !IsEqual(ops, NilVal, StrVal("nil"))
  {
  }

  /** If the double's text ends in ".0", that suffix is dropped once: a
      formatted "1.0" prints as "1". */
  lemma StringifyDropsPointZero(ops: NumOps, n: Num, digits: string)
    requires ops.format(n) == digits + ".0"
    ensures Stringify(ops, NumVal(n)) == digits
  {
    assert (digits + ".0")[|digits + ".0"| - 2..] == ".0";
    assert (digits + ".0")[..|digits + ".0"| - 2] == digits;
  }
}

=== FILE: wrappers.dfy ===
/** Failure-compatible wrappers used by every stage: an optional value and a
    value-or-error result. The original reports failures through exceptions
    and a process-wide error flag; here they are returned. */
module Wrappers {

  datatype Option<+T> = None | Some(value: T) {
    predicate IsFailure() {
      None?
    }

    function PropagateFailure<U>(): Option<U>
      requires None?
    {
      None
    }

    function Extract(): T
      requires Some?
    {
      value
    }
  }

  datatype Result<+T, +E> = Ok(value: T) | Err(error: E) {
    predicate IsFailure() {
      Err?
    }

    function PropagateFailure<U>(): Result<U, E>
      requires Err?
    {
      Err(error)
    }

    function Extract(): T
      requires Ok?
    {
      value
    }
  }
}
